=== FILE: README.md ===
# turingtoy in Dafny

This project models `run_turing_machine`, the interpreter at the heart of turingtoy.
The interpreter runs a deterministic single-tape Turing machine given as a transition table.
It works like this:

- It lays the input on a tape padded with ten blank cells on each side.
- It keeps a parallel display buffer padded with spaces.
- It loops until the state is final. Each iteration looks up `table[state][symbol]`, appends a snapshot of the configuration to the execution history, applies the instruction, and re-reads the cell under the head.
- It returns the display buffer stripped of surrounding spaces, the history, and `True`.

An instruction is either a bare move, or an optional write followed by a move and a change of state.
The project also models the three machines of the repository's tests (doubling, binary addition, binary multiplication), the `to_dict` helper those tables are written with, and the five runs the tests assert.

Files, one module each:

- `options.dfy`: the `Option` type.
- `text.dfy`: `s * n` and `str.strip()` on spaces.
- `interpreter.dfy`: the data model, one loop iteration (`Step`), the loop (`Exec`) and the whole run (`Run`).
- `history.dfy`: properties of whole runs.
- `replay.dfy`: turns a chain of one-step checks into the outcome of a run.
- `examples.dfy`: the test machines and `to_dict`.
- `vectors.dfy`: the test runs, replayed step by step.
- `wraparound.dfy`: the negative-index behaviour of the source, kept apart (see Findings).

The source loops for as long as the machine runs. The model runs the loop with a step budget (`fuel`), which is a verification device only.
Hitting the budget is reported as `OutOfFuel`. `ExecFuelMonotone` shows that a larger budget never changes an outcome that a smaller one reached.
The source's two failure modes are reported as outcomes instead of exceptions:

- a missing table entry (`KeyError`) is `UndefinedTransition`;
- a head that leaves the right end of the padded tape (`IndexError`) or its left end (where Python wraps round instead; see Findings) is `OutOfTape`.

## Model

| member | source | states |
|---|---|---|
| Text.Repeat | src/turingtoy/__init__.py:22 | `c * n` has length `n` and every cell is `c` |
| Text.Strip | src/turingtoy/__init__.py:81 | the stripped buffer neither starts nor ends with a space and is no longer than the buffer |
| Text.StripPadded | src/turingtoy/__init__.py:81 | stripping any number of spaces from around a string that does not start or end with one gives that string back |
| Text.StripIgnoresPadding | src/turingtoy/__init__.py:27 | extra spaces around a string do not change what it strips to, so the padding never shows in the output |
| Interpreter.Lookup | src/turingtoy/__init__.py:41-46 | the double lookup succeeds exactly when the state has a row and the row has the symbol, and then yields that entry |
| Interpreter.Init | src/turingtoy/__init__.py:21-27 | the tape is the input with ten blanks on each side and the buffer the input with ten spaces on each side; the head starts on the first input cell in the start state; the reading is that cell, or the blank for an empty input; the buffers agree |
| Interpreter.Execute | src/turingtoy/__init__.py:49-78 | applying an instruction keeps both buffers' lengths, moves the head one cell in the instruction's direction and changes the state only for a compound instruction |
| Interpreter.ExecuteEffect | src/turingtoy/__init__.py:49-78 | applying an instruction changes at most the cell under the head, in both buffers alike and only to the written symbol; every other cell keeps its value |
| Interpreter.Step | src/turingtoy/__init__.py:36-79 | one iteration fails with the missing key when the entry is missing; otherwise it fails exactly when the move leaves the tape; otherwise it keeps the loop invariant, records the pre-step state, symbol, position, stripped buffer and entry, and moves to the successor state |
| Interpreter.StepEffect | src/turingtoy/__init__.py:53-78 | a completed iteration changed the buffers, head and state exactly as its table entry prescribes |
| Interpreter.StepKeepsSync | src/turingtoy/__init__.py:53-60 | because a write goes to both buffers, every display cell still shows its tape cell, or a space where the tape holds the blank |
| Interpreter.Exec | src/turingtoy/__init__.py:31-79 | a halted loop ends in a final state with the invariant kept and at most one record per step of budget; it records nothing exactly when it starts in a final state, and its first record holds the starting state, position and reading; a missing first entry stops it with that key |
| Interpreter.Run | src/turingtoy/__init__.py:15-81 | a completed run is accepted; its output is trimmed and no longer than the padded input; its history is empty exactly when the start state is final |
| History.ExecRecordsAreRecorded | src/turingtoy/__init__.py:31-46 | every record of a halted run was made in a non-final state and holds the table entry for its state and symbol |
| History.ExecRecordsAreLinked | src/turingtoy/__init__.py:36-78 | the records are in step order: each one's entry leads to the next one's state and position |
| History.ExecLastRecordLeadsToFinal | src/turingtoy/__init__.py:31-78 | the last record's entry leads to the final configuration's state and position |
| History.ExecFuelMonotone | src/turingtoy/__init__.py:18 | the step budget only cuts runs short: an outcome reached within a budget is the outcome for every larger budget |
| History.FinalRowUnused | src/turingtoy/__init__.py:31 | the row of a final state is never consulted: replacing it leaves every run unchanged, so the empty `"done"` rows are harmless |
| History.StartFinalHaltsAtOnce | src/turingtoy/__init__.py:31-81 | a machine that starts in a final state returns its input stripped, no history, accepted |
| History.MissingEntryFails | src/turingtoy/__init__.py:41 | a missing entry for the first symbol ends the run with that state and symbol |
| History.ExecKeepsSync | src/turingtoy/__init__.py:53-60 | a halted run leaves the display buffer in sync with the tape |
| History.SpaceBlankBuffersAgree | src/turingtoy/__init__.py:22-27 | with a space as blank, a display buffer in sync with the tape is the tape itself |
| History.SpaceBlankOutputIsTape | src/turingtoy/__init__.py:81 | with a space as blank, the output is the final tape stripped |
| Replay.LeadsIsStep | src/turingtoy/__init__.py:36-79 | a one-step check between two configurations holds exactly when the loop iteration from the first completes in the second |
| Replay.LeadsExec | src/turingtoy/__init__.py:31-79 | one iteration in front of a halting run: the run from the earlier configuration, with one more step of budget, halts in the same final configuration with one more record |
| Replay.PathExec | src/turingtoy/__init__.py:31-79 | along a chain of one-step checks ending in a final configuration, the run from the first configuration, given a step of budget per link, halts in the last one with one record per link |
| Replay.ExecIsPath | src/turingtoy/__init__.py:31-79 | conversely, a halted run passes through a chain of loop iterations from its start to its final configuration, and its history holds, in order, one snapshot per iteration of that chain: state, reading, position, stripped buffer and the table entry for that state and symbol |
| Replay.RunIsReach | src/turingtoy/__init__.py:15-81 | a completed run reached a final configuration from the initial one in as many iterations as its history has records, and its output is that configuration's buffer stripped |
| Replay.ReachRun | src/turingtoy/__init__.py:31-81 | a run that reaches a final configuration in `k` iterations is accepted, outputs that configuration's buffer stripped, and records exactly `k` steps |
| Interpreter.Failure | src/turingtoy/__init__.py:40-79 | a missing entry is reported as `UndefinedTransition` with its state and symbol, a move off the tape as `OutOfTape` with the new position |
| Replay.LeadsStopped | src/turingtoy/__init__.py:31-79 | one iteration in front of a stopped run: the run from the earlier configuration, with one more step of budget, stops with the same failure |
| Replay.PathStops | src/turingtoy/__init__.py:31-79 | along a chain of one-step checks ending in a non-final configuration whose next iteration fails, the run from the first configuration, given more budget than the chain has links, stops with that failure |
| Replay.ExecStopped | src/turingtoy/__init__.py:31-79 | conversely, a stopped run passes through a chain of loop iterations, no longer than its budget, from its start to a non-final configuration whose next iteration fails exactly as the run does |
| Replay.ReachStops | src/turingtoy/__init__.py:15-79 | a run that reaches, within its budget, a non-final configuration whose next iteration fails, reports `UndefinedTransition` or `OutOfTape` for that failure |
| Replay.RunStopsIsReach | src/turingtoy/__init__.py:15-79 | conversely, a run that reports `UndefinedTransition` or `OutOfTape` reached, in fewer iterations than its budget, a non-final configuration whose next iteration fails as reported |
| Examples.Extend | tests/test_turing.py:115-120 | `{**d, **to_dict(keys, v)}` as a row is built in the tests; its contents are stated by `ExtendSpec` |
| Examples.ToDict | tests/test_turing.py:308-309 | the `to_dict` helper; its contents are stated by `ToDictSpec` |
| Examples.ExtendSpec | tests/test_turing.py:115-120 | merging `to_dict(keys, v)` into a row adds exactly those keys, maps each to `v`, and keeps every other entry |
| Examples.ToDictSpec | tests/test_turing.py:308-309 | `to_dict(keys, v)` maps every key of `keys`, and nothing else, to `v` |
| Examples.AddRowsFromToDict0 | tests/test_turing.py:101-120 | the adder's rows `right`, `have0`, `have1` and `add0`, as the tests build them with `to_dict`, are the rows the model's table holds |
| Examples.AddRowsFromToDict1 | tests/test_turing.py:121-138 | the adder's rows `add1`, `carry`, `back0` and `back1`, as the tests build them with `to_dict`, are the rows the model's table holds |
| Examples.AddRowsFromToDict2 | tests/test_turing.py:140-145 | the adder's row `rewrite`, as the tests build it with `to_dict`, is the row the model's table holds |
| Examples.MultiplyRowsFromToDict0 | tests/test_turing.py:196-222 | the multiplier's rows `start`, `right`, `addA` and `doubleL`, as the tests build them with `to_dict`, are the rows the model's table holds |
| Examples.MultiplyRowsFromToDict1 | tests/test_turing.py:223-246 | the multiplier's rows `double` and `tidy`, as the tests build them with `to_dict`, are the rows the model's table holds |
| Examples.MultiplyRowsFromToDict2 | tests/test_turing.py:256-267 | the multiplier's rows `have0`, `have1`, `add0` and `add1`, as the tests build them with `to_dict`, are the rows the model's table holds |
| Examples.MultiplyRowsFromToDict3 | tests/test_turing.py:268-279 | the multiplier's rows `carry`, `back0` and `back1`, as the tests build them with `to_dict`, are the rows the model's table holds |
| Examples.MultiplyRowsFromToDict4 | tests/test_turing.py:280-285 | the multiplier's row `rewrite`, as the tests build it with `to_dict`, is the row the model's table holds |
| Examples.DoubleMachine | tests/test_turing.py:23-49 | the doubling table entry by entry: blank '0', start "e1", the single final state "done" with an empty row; its runs are stated by `Vectors.Double111` and `Vectors.Double1` |
| Examples.AddMachine | tests/test_turing.py:95-147 | the adder's table entry by entry, with the rows the tests build with `to_dict` written out (see `AddRowsFromToDict0`, `AddRowsFromToDict1` and `AddRowsFromToDict2`); its runs are stated by the `Vectors.Add…` lemmas |
| Examples.MultiplyMachine | tests/test_turing.py:191-286 | the multiplier's table entry by entry, with the rows built with `to_dict` written out (see `MultiplyRowsFromToDict0` to `MultiplyRowsFromToDict4`); its run is stated by `Vectors.Multiply11By101` |
| Vectors.Double111 | tests/test_turing.py:54-57 | the doubling machine on "111" halts accepted with output "1110111" after 28 steps, for every sufficient budget |
| Vectors.Double1 | tests/test_turing.py:70-73 | the doubling machine on "1" halts accepted with output "101" |
| Vectors.Add11Plus1 | tests/test_turing.py:152-155 | the adder on "11+1" halts accepted with output "100 1" |
| Vectors.Add1011Plus11001 | tests/test_turing.py:168-171 | the adder on "1011+11001" halts accepted with output "100100 11001" |
| Vectors.Multiply11By101 | tests/test_turing.py:291-294 | the multiplier on "11*101" halts accepted with output "1111" |
| Wraparound.PyIndex | src/turingtoy/__init__.py:79 | Python indexing: defined exactly for indices from minus the length up to the length, a negative index counting from the right end |
| Wraparound.StepAsWritten | src/turingtoy/__init__.py:36-79 | one iteration as written, from a configuration on the tape, fails only for a missing entry or a new head position past the right end of the tape; otherwise it keeps the lengths, moves the head, changes the state as the entry says and reads the cell that Python indexing picks |
| Wraparound.AsWrittenAgreesOnTape | src/turingtoy/__init__.py:79 | reading with Python's negative indices differs from the bounded iteration exactly when the head steps off the left end; there it reads the rightmost cell and carries on |
| Wraparound.WraparoundExample | src/turingtoy/__init__.py:79 | a machine moving left from the first padding cell is stopped by the bounded iteration but, as written, reads the right end of the tape and fetches an instruction whose next state is final |

## Left out

- `__version__`, `poetry_version.extract` and the unused `json` import (src/turingtoy/__init__.py:1-12): packaging metadata and a foreign call.
- The `steps` parameter (src/turingtoy/__init__.py:18): the loop never reads it. The model's `fuel` is a verification device. A machine that never halts gives `OutOfFuel` for every budget, where the source loops forever.
- Order of keys in a compound instruction: the source applies `write`, `L` and `R` in the dictionary's insertion order. Every shipped table writes first, and `WriteMove` models write-then-move with exactly one direction.
- Malformed instructions are not modelled: dictionaries with both `L` and `R`, or with the move listed before the write; dictionaries with neither `L` nor `R`, such as `{"write": "1"}`, on which the source writes and keeps both head and state; writes that are not exactly one character (an empty write drops the cell, so both buffers get one shorter); bare strings other than `L`/`R`. The Python code would accept some of these silently.
- Text.Strip: strips only the space character, where `str.strip()` removes every whitespace character. Padding is always spaces, but a machine that writes a tab or newline at the edge of the buffer would lose it in the source and keep it in the model.
- Python's negative-index wraparound (src/turingtoy/__init__.py:55, 59, 79) is not part of `Interpreter`; it is kept in `wraparound.dfy` and described under Findings.
- noxfile.py, tests/conftest.py and tests/utils.py: development sessions, pytest fixtures and JSON regression files. The regression files, which hold the full histories, are not part of this model; the model fixes the history of each test run only through `Replay.ExecIsPath` (one snapshot per iteration) and the record counts the vectors prove (28, 6, 19, 92 and 116).

## Findings

| source | as written | input that shows it | evidently intended | confidence | as-written member | corrected member |
|---|---|---|---|---|---|---|
| src/turingtoy/__init__.py:79 | `ruban[position+offset]` with `position+offset == -1` reads the rightmost tape cell, so a head that leaves the left end of the padding wraps round to the right end and the run goes on | a machine whose table moves left on the blank, run on the empty input: after ten moves the head is on the first padding cell, and the eleventh move reads cell 19 | a tape bounded on both sides: leaving it on the left fails, as leaving it on the right already does with `IndexError` | not executed; high that the read wraps, medium that the authors never meant the tape to be circular | Wraparound.WraparoundExample | Interpreter.Step |

=== FILE: examples.dfy ===
/** The machines the repository's tests run, written as interpreter tables,
    and the outputs those tests expect. */
module Examples {
  import opened Options
  import opened Interpreter

  /** `{**d, **to_dict(keys, v)}`: `d` with every key of `keys` mapped to
      `v`, later keys overriding earlier entries. */
  function Extend(d: map<char, Instr>, keys: seq<char>, v: Instr): map<char, Instr>
    decreases |keys|
  {
    if |keys| == 0 then d else Extend(d[keys[0] := v], keys[1..], v)
  }

  /** `to_dict(keys, value)`. */
  function ToDict(keys: seq<char>, v: Instr): map<char, Instr> {
    Extend(map[], keys, v)
  }

  /** Extending `d` adds exactly the keys of `keys`, maps each of them to
      `v`, and keeps every other entry of `d`. */
  lemma {:induction false} ExtendSpec(d: map<char, Instr>, keys: seq<char>, v: Instr)
    ensures Extend(d, keys, v).Keys == d.Keys + (set k | k in keys)
    ensures forall k :: k in keys ==> Extend(d, keys, v)[k] == v
    ensures forall k :: k in d && k !in keys ==> Extend(d, keys, v)[k] == d[k]
    decreases |keys|
  {
    if |keys| > 0 {
      ExtendSpec(d[keys[0] := v], keys[1..], v);
      assert forall k :: k in keys <==> k == keys[0] || k in keys[1..];
    }
  }

  /** `to_dict(keys, value)` maps every key of `keys`, and nothing else, to
      `value`. */
  lemma ToDictSpec(keys: seq<char>, v: Instr)
    ensures ToDict(keys, v).Keys == set k | k in keys
    ensures forall k :: k in ToDict(keys, v) ==> ToDict(keys, v)[k] == v
  {
    ExtendSpec(map[], keys, v);
  }

  function W(c: char, d: Dir, next: State): Instr {
    WriteMove(Some(c), d, next)
  }

  function Go(d: Dir, next: State): Instr {
    WriteMove(None, d, next)
  }

  /** Doubles a block of 1s, with '0' as blank: "111" becomes "1110111". */
  function DoubleMachine(): Machine {
    Machine('0', "e1", {"done"}, map[
      "e1" := map['0' := Go(L, "done"), '1' := W('0', R, "e2")],
      "e2" := map['1' := W('1', R, "e2"), '0' := W('0', R, "e3")],
      "e3" := map['1' := W('1', R, "e3"), '0' := W('1', L, "e4")],
      "e4" := map['1' := W('1', L, "e4"), '0' := W('0', L, "e5")],
      "e5" := map['1' := W('1', L, "e5"), '0' := W('1', R, "e1")],
      "done" := map[]])
  }

  /** Adds two binary numbers, with a space as blank: "a+b" becomes "c b"
      where c = a + b. */
  function AddMachine(): Machine {
    Machine(' ', "right", {"done"}, map[
      "right" := map['0' := Move(R), '1' := Move(R), '+' := Move(R), ' ' := Go(L, "read")],
      "read" := map['0' := W('c', L, "have0"), '1' := W('c', L, "have1"), '+' := W(' ', L, "rewrite")],
      "have0" := map['0' := Move(L), '1' := Move(L), '+' := Go(L, "add0")],
      "have1" := map['0' := Move(L), '1' := Move(L), '+' := Go(L, "add1")],
      "add0" := map['0' := W('O', R, "back0"), ' ' := W('O', R, "back0"), '1' := W('I', R, "back0"), 'O' := Move(L), 'I' := Move(L)],
      "add1" := map['0' := W('I', R, "back1"), ' ' := W('I', R, "back1"), '1' := W('O', L, "carry"), 'O' := Move(L), 'I' := Move(L)],
      "carry" := map['0' := W('1', R, "back1"), ' ' := W('1', R, "back1"), '1' := W('0', L, "carry")],
      "back0" := map['0' := Move(R), '1' := Move(R), 'O' := Move(R), 'I' := Move(R), '+' := Move(R), 'c' := W('0', L, "read")],
      "back1" := map['0' := Move(R), '1' := Move(R), 'O' := Move(R), 'I' := Move(R), '+' := Move(R), 'c' := W('1', L, "read")],
      "rewrite" := map['O' := W('0', L, "rewrite"), 'I' := W('1', L, "rewrite"), '0' := Move(L), '1' := Move(L), ' ' := Go(R, "done")],
      "done" := map[]])
  }

  /** The rows of this table that the tests build with `to_dict` are the
      rows written out above. */
  lemma AddRowsFromToDict0()
    ensures AddMachine().table["right"] == ToDict("01+", Move(R))[' ' := Go(L, "read")]
    ensures AddMachine().table["have0"] == ToDict("01", Move(L))['+' := Go(L, "add0")]
    ensures AddMachine().table["have1"] == ToDict("01", Move(L))['+' := Go(L, "add1")]
    ensures AddMachine().table["add0"] == Extend(ToDict("0 ", W('O', R, "back0"))['1' := W('I', R, "back0")], "OI", Move(L))
  {
  }

  lemma AddRowsFromToDict1()
    ensures AddMachine().table["add1"] == Extend(ToDict("0 ", W('I', R, "back1"))['1' := W('O', L, "carry")], "OI", Move(L))
    ensures AddMachine().table["carry"] == ToDict("0 ", W('1', R, "back1"))['1' := W('0', L, "carry")]
    ensures AddMachine().table["back0"] == ToDict("01OI+", Move(R))['c' := W('0', L, "read")]
    ensures AddMachine().table["back1"] == ToDict("01OI+", Move(R))['c' := W('1', L, "read")]
  {
  }

  lemma AddRowsFromToDict2()
    ensures AddMachine().table["rewrite"] == Extend(map['O' := W('0', L, "rewrite"), 'I' := W('1', L, "rewrite")], "01", Move(L))[' ' := Go(R, "done")]
  {
  }

  /** Multiplies two binary numbers, with a space as blank: "a*b" becomes
      their product. It embeds the adder, altered to keep the '+' and to
      return to the state "double" instead of halting. */
  function MultiplyMachine(): Machine {
    Machine(' ', "start", {"done"}, map[
      "start" := map['0' := Go(L, "init"), '1' := Go(L, "init")],
      "init" := map[' ' := W('+', R, "right")],
      "right" := map['0' := Move(R), '1' := Move(R), '*' := Move(R), ' ' := Go(L, "readB")],
      "readB" := map['0' := W(' ', L, "doubleL"), '1' := W(' ', L, "addA")],
      "addA" := map['0' := Move(L), '1' := Move(L), '*' := Go(L, "read")],
      "doubleL" := map['0' := Move(L), '1' := Move(L), '*' := W('0', R, "shift")],
      "double" := map['0' := Move(R), '1' := Move(R), '+' := Move(R), '*' := W('0', R, "shift")],
      "shift" := map['0' := W('*', R, "shift0"), '1' := W('*', R, "shift1"), ' ' := Go(L, "tidy")],
      "shift0" := map['0' := Go(R, "shift0"), '1' := W('0', R, "shift1"), ' ' := W('0', R, "right")],
      "shift1" := map['0' := W('1', R, "shift0"), '1' := Go(R, "shift1"), ' ' := W('1', R, "right")],
      "tidy" := map['0' := W(' ', L, "tidy"), '1' := W(' ', L, "tidy"), '+' := W(' ', L, "done")],
      "done" := map[],
      "read" := map['0' := W('c', L, "have0"), '1' := W('c', L, "have1"), '+' := Go(L, "rewrite")],
      "have0" := map['0' := Move(L), '1' := Move(L), '+' := Go(L, "add0")],
      "have1" := map['0' := Move(L), '1' := Move(L), '+' := Go(L, "add1")],
      "add0" := map['0' := W('O', R, "back0"), ' ' := W('O', R, "back0"), '1' := W('I', R, "back0"), 'O' := Move(L), 'I' := Move(L)],
      "add1" := map['0' := W('I', R, "back1"), ' ' := W('I', R, "back1"), '1' := W('O', L, "carry"), 'O' := Move(L), 'I' := Move(L)],
      "carry" := map['0' := W('1', R, "back1"), ' ' := W('1', R, "back1"), '1' := W('0', L, "carry")],
      "back0" := map['0' := Move(R), '1' := Move(R), 'O' := Move(R), 'I' := Move(R), '+' := Move(R), 'c' := W('0', L, "read")],
      "back1" := map['0' := Move(R), '1' := Move(R), 'O' := Move(R), 'I' := Move(R), '+' := Move(R), 'c' := W('1', L, "read")],
      "rewrite" := map['O' := W('0', L, "rewrite"), 'I' := W('1', L, "rewrite"), '0' := Move(L), '1' := Move(L), ' ' := Go(R, "double")]])
  }

  /** The rows of this table that the tests build with `to_dict` are the
      rows written out above. */
  lemma MultiplyRowsFromToDict0()
    ensures MultiplyMachine().table["start"] == ToDict("01", Go(L, "init"))
    ensures MultiplyMachine().table["right"] == ToDict("01*", Move(R))[' ' := Go(L, "readB")]
    ensures MultiplyMachine().table["addA"] == ToDict("01", Move(L))['*' := Go(L, "read")]
    ensures MultiplyMachine().table["doubleL"] == ToDict("01", Move(L))['*' := W('0', R, "shift")]
  {
  }

  lemma MultiplyRowsFromToDict1()
    ensures MultiplyMachine().table["double"] == ToDict("01+", Move(R))['*' := W('0', R, "shift")]
    ensures MultiplyMachine().table["tidy"] == ToDict("01", W(' ', L, "tidy"))['+' := W(' ', L, "done")]
  {
  }

  lemma MultiplyRowsFromToDict2()
    ensures MultiplyMachine().table["have0"] == ToDict("01", Move(L))['+' := Go(L, "add0")]
    ensures MultiplyMachine().table["have1"] == ToDict("01", Move(L))['+' := Go(L, "add1")]
    ensures MultiplyMachine().table["add0"] == Extend(ToDict("0 ", W('O', R, "back0"))['1' := W('I', R, "back0")], "OI", Move(L))
    ensures MultiplyMachine().table["add1"] == Extend(ToDict("0 ", W('I', R, "back1"))['1' := W('O', L, "carry")], "OI", Move(L))
  {
  }

  lemma MultiplyRowsFromToDict3()
    ensures MultiplyMachine().table["carry"] == ToDict("0 ", W('1', R, "back1"))['1' := W('0', L, "carry")]
    ensures MultiplyMachine().table["back0"] == ToDict("01OI+", Move(R))['c' := W('0', L, "read")]
    ensures MultiplyMachine().table["back1"] == ToDict("01OI+", Move(R))['c' := W('1', L, "read")]
  {
  }

  lemma MultiplyRowsFromToDict4()
    ensures MultiplyMachine().table["rewrite"] == Extend(map['O' := W('0', L, "rewrite"), 'I' := W('1', L, "rewrite")], "01", Move(L))[' ' := Go(R, "double")]
  {
  }
}

=== FILE: history.dfy ===
/** Properties of whole runs: what the execution history records and in what
    order, that the step budget only cuts runs short, that the rows of final
    states are never consulted, what a run that starts in a final state or
    meets a missing table entry returns, and how the display buffer relates
    to the tape at the end. */
module History {
  import opened Options
  import opened Text
  import opened Interpreter

  /** A record the loop can make: its state is not final and its transition
      is the table entry for its state and symbol. */
  predicate Recorded(m: Machine, rec: Record) {
    rec.state !in m.finals && Lookup(m, rec.state, rec.reading) == Some(rec.transition)
  }

  /** Two consecutive records: the second one's state and position are those
      the first one's transition leads to. */
  predicate Linked(a: Record, b: Record) {
    b.state == Successor(a.state, a.transition) && b.position == a.position + Delta(a.transition.dir)
  }

  /** Every record of a halted run is one the loop can make: no record is
      ever made in a final state, and each holds the table entry it applied. */
  lemma {:induction false} ExecRecordsAreRecorded(m: Machine, c: Config, fuel: nat)
    requires Valid(c)
    ensures var r := Exec(m, c, fuel);
      r.Halted? ==> forall j :: 0 <= j < |r.trace| ==> Recorded(m, r.trace[j])
    decreases fuel
  {
    if c.state !in m.finals && fuel > 0 && Step(m, c).Next? {
      ExecRecordsAreRecorded(m, Step(m, c).config, fuel - 1);
    }
  }

  /** The records of a halted run are in step order: each one leads to the
      next. */
  lemma {:induction false} ExecRecordsAreLinked(m: Machine, c: Config, fuel: nat)
    requires Valid(c)
    ensures var r := Exec(m, c, fuel);
      r.Halted? ==> forall j :: 0 <= j < |r.trace| - 1 ==> Linked(r.trace[j], r.trace[j + 1])
    decreases fuel
  {
    if c.state !in m.finals && fuel > 0 && Step(m, c).Next? {
      var c' := Step(m, c).config;
      ExecRecordsAreLinked(m, c', fuel - 1);
      var r := Exec(m, c', fuel - 1);
      if r.Halted? && |r.trace| > 0 {
        assert Linked(Step(m, c).record, r.trace[0]);
      }
    }
  }

  /** The last record of a halted run leads to the final configuration,
      whose state is final but has no record of its own. */
  lemma {:induction false} ExecLastRecordLeadsToFinal(m: Machine, c: Config, fuel: nat)
    requires Valid(c)
    ensures var r := Exec(m, c, fuel);
      r.Halted? && |r.trace| > 0 ==>
        var last := r.trace[|r.trace| - 1];
        && Successor(last.state, last.transition) == r.final.state
        && r.final.pos == last.position + Delta(last.transition.dir)
    decreases fuel
  {
    if c.state !in m.finals && fuel > 0 && Step(m, c).Next? {
      ExecLastRecordLeadsToFinal(m, Step(m, c).config, fuel - 1);
    }
  }

  /** The step budget only cuts runs short: a run that halts or fails within
      some budget has the same outcome with any larger budget. */
  lemma {:induction false} ExecFuelMonotone(m: Machine, c: Config, fuel: nat, more: nat)
    requires Valid(c)
    requires fuel <= more
    requires !Exec(m, c, fuel).Exhausted?
    ensures Exec(m, c, more) == Exec(m, c, fuel)
    decreases fuel
  {
    if c.state !in m.finals && Step(m, c).Next? {
      assert fuel > 0;
      ExecFuelMonotone(m, Step(m, c).config, fuel - 1, more - 1);
    }
  }

  /** The row of a final state is never looked up: replacing it by anything
      (the shipped tables leave it empty) leaves every run unchanged. */
  lemma {:induction false} FinalRowUnused(m: Machine, c: Config, fuel: nat, s: State, row: map<char, Instr>)
    requires Valid(c)
    requires s in m.finals
    ensures Exec(m.(table := m.table[s := row]), c, fuel) == Exec(m, c, fuel)
    decreases fuel
  {
    var m' := m.(table := m.table[s := row]);
    if c.state !in m.finals && fuel > 0 {
      assert Lookup(m', c.state, c.reading) == Lookup(m, c.state, c.reading);
      assert Step(m', c) == Step(m, c);
      if Step(m, c).Next? {
        FinalRowUnused(m, Step(m, c).config, fuel - 1, s, row);
      }
    }
  }

  /** A machine whose start state is final halts at once, accepted, with no
      history, and outputs its input without surrounding spaces. */
  lemma StartFinalHaltsAtOnce(m: Machine, input: string, fuel: nat)
    requires m.start in m.finals
    ensures Run(m, input, fuel) == Done(Strip(input), [], true)
  {
    var c := Init(m, input);
    assert c.memory == Repeat(' ', Offset) + input + Repeat(' ', Offset);
    StripIgnoresPadding(Offset, input, Offset);
  }

  /** A missing table entry for the first symbol ends the run with the lookup
      failure and no output or history. */
  lemma MissingEntryFails(m: Machine, input: string, fuel: nat)
    requires m.start !in m.finals && fuel > 0
    requires Lookup(m, m.start, Init(m, input).reading).None?
    ensures Run(m, input, fuel) == UndefinedTransition(m.start, Init(m, input).reading)
  {
  }

  /** A halted run leaves the display buffer in sync with the tape. */
  lemma {:induction false} ExecKeepsSync(m: Machine, c: Config, fuel: nat)
    requires Valid(c) && Synced(m.blank, c.ruban, c.memory)
    ensures var r := Exec(m, c, fuel);
      r.Halted? ==> Synced(m.blank, r.final.ruban, r.final.memory)
    decreases fuel
  {
    if c.state !in m.finals && fuel > 0 && Step(m, c).Next? {
      StepKeepsSync(m, c);
      ExecKeepsSync(m, Step(m, c).config, fuel - 1);
    }
  }

  /** With a space as blank, a buffer in sync with the tape is the tape. */
  lemma SpaceBlankBuffersAgree(ruban: string, memory: string)
    requires |ruban| == |memory| && Synced(' ', ruban, memory)
    ensures memory == ruban
  {
    assert forall i :: 0 <= i < |ruban| ==> memory[i] == ruban[i];
  }

  /** So a halted run of a machine whose blank is a space outputs its final
      tape without the surrounding spaces. */
  lemma SpaceBlankOutputIsTape(m: Machine, input: string, fuel: nat)
    requires m.blank == ' '
    ensures var r := Exec(m, Init(m, input), fuel);
      r.Halted? ==> Run(m, input, fuel) == Done(Strip(r.final.ruban), r.trace, true)
  {
    var c := Init(m, input);
    var r := Exec(m, c, fuel);
    ExecKeepsSync(m, c, fuel);
    if r.Halted? {
      SpaceBlankBuffersAgree(r.final.ruban, r.final.memory);
    }
  }
}

=== FILE: interpreter.dfy ===
/** The machine interpreter: a deterministic single-tape Turing machine given
    as a transition table, run by a fetch-record-execute loop over a tape that
    is the input padded with a fixed margin of blank cells on each side. */
module Interpreter {
  import opened Options
  import opened Text

  /** Number of padding cells on each side of the input. */
  const Offset: nat := 10

  type State = string

  datatype Dir = L | R

  /** A table entry. `Move` is a bare "L"/"R" string: it moves the head and
      keeps the state. `WriteMove` is a dictionary with an optional `write`
      and exactly one of the keys `L`/`R`, whose value is the next state;
      the write happens before the move. */
  datatype Instr =
    | Move(dir: Dir)
    | WriteMove(write: Option<char>, dir: Dir, next: State)

  /** A machine definition. `table[state][symbol]` is the instruction to
      apply when `symbol` is read in `state`. */
  datatype Machine = Machine(
    blank: char,
    start: State,
    finals: set<State>,
    table: map<State, map<char, Instr>>)

  /** One entry of the execution history: a snapshot taken before its
      instruction is applied. `memory` is the display buffer, stripped. */
  datatype Record = Record(
    state: State,
    reading: char,
    position: int,
    memory: string,
    transition: Instr)

  /** The interpreter's loop variables apart from the history. `ruban` is the
      working tape (padded with the blank), `memory` a parallel display buffer
      (padded with spaces) that receives the same writes, `pos` the head
      relative to the first input cell, so the head is on tape index
      `pos + Offset`, and `reading` the symbol last read. */
  datatype Config = Config(
    ruban: string,
    memory: string,
    pos: int,
    state: State,
    reading: char)

  /** Why a run stops without reaching a final state. */
  datatype Fault =
    | Undefined(state: State, symbol: char)
    | OffTape(position: int)

  /** Outcome of one loop iteration: the next configuration and the record
      appended to the history, or the reason the iteration cannot complete. */
  datatype StepResult = Next(config: Config, record: Record) | Fault(fault: Fault)

  /** Outcome of the loop run from some configuration with a step budget:
      the final configuration and the records appended on the way. */
  datatype ExecResult =
    | Halted(final: Config, trace: seq<Record>)
    | Stopped(fault: Fault)
    | Exhausted

  /** Outcome of a whole run: the stripped display buffer, the history and
      the acceptance flag, or the reason there is none. */
  datatype Outcome =
    | Done(output: string, history: seq<Record>, accepted: bool)
    | UndefinedTransition(state: State, reading: char)
    | OutOfTape(position: int)
    | OutOfFuel

  function Delta(d: Dir): int {
    if d == L then -1 else 1
  }

  /** The state a machine is in after applying `ins` in state `s`. */
  function Successor(s: State, ins: Instr): State {
    if ins.WriteMove? then ins.next else s
  }

  /** The double lookup `table[state][symbol]`; None where either key is missing. */
  function Lookup(m: Machine, s: State, sym: char): (r: Option<Instr>)
    ensures r.Some? <==> s in m.table && sym in m.table[s]
    ensures r.Some? ==> r.value == m.table[s][sym]
  {
    if s in m.table && sym in m.table[s] then Some(m.table[s][sym]) else None
  }

  /** The display buffer shows every tape cell, except that a cell where the
      tape holds the blank may show as a space. */
  predicate Synced(blank: char, ruban: string, memory: string)
    requires |ruban| == |memory|
  {
    forall i :: 0 <= i < |ruban| ==> memory[i] == ruban[i] || (memory[i] == ' ' && ruban[i] == blank)
  }

  /** The invariant of the interpreter loop: both buffers have the same
      length, the head is on the tape, and `reading` is the tape cell under
      the head. (That the display buffer stays in sync with the tape is a
      further invariant, kept by StepKeepsSync.) */
  predicate Valid(c: Config) {
    && |c.memory| == |c.ruban|
    && 0 <= c.pos + Offset < |c.ruban|
    && c.reading == c.ruban[c.pos + Offset]
  }

  /** The initial configuration: the input with `Offset` blanks on each side
      on the tape, with `Offset` spaces on each side in the display buffer,
      the head on the first input cell, the start state. */
  function Init(m: Machine, input: string): (c: Config)
    ensures |c.ruban| == |c.memory| == |input| + 2 * Offset
    ensures forall i :: 0 <= i < |c.ruban| ==>
      c.ruban[i] == (if Offset <= i < Offset + |input| then input[i - Offset] else m.blank)
    ensures forall i :: 0 <= i < |c.memory| ==>
      c.memory[i] == (if Offset <= i < Offset + |input| then input[i - Offset] else ' ')
    ensures c.pos == 0 && c.state == m.start
    ensures c.reading == (if |input| > 0 then input[0] else m.blank)
    ensures Valid(c) && Synced(m.blank, c.ruban, c.memory)
  {
    var ruban := Repeat(m.blank, Offset) + input + Repeat(m.blank, Offset);
    var memory := Repeat(' ', Offset) + input + Repeat(' ', Offset);
    Config(ruban, memory, 0, m.start, ruban[Offset])
  }

  /** How applying `ins` at configuration `c` must leave the buffers, the head
      and the state: at most the cell under the head changes, in both buffers
      alike, and only to the written symbol; the head moves by one cell in the
      instruction's direction; the state changes only for a `WriteMove`. */
  ghost predicate Effect(c: Config, ins: Instr, c': Config)
    requires 0 <= c.pos + Offset < |c.ruban| == |c.memory|
  {
    var h := c.pos + Offset;
    && |c'.ruban| == |c.ruban|
    && |c'.memory| == |c.memory|
    && (forall i :: 0 <= i < |c.ruban| && i != h ==> c'.ruban[i] == c.ruban[i])
    && (forall i :: 0 <= i < |c.memory| && i != h ==> c'.memory[i] == c.memory[i])
    && (if ins.WriteMove? && ins.write.Some?
        then c'.ruban[h] == ins.write.value && c'.memory[h] == ins.write.value
        else c'.ruban[h] == c.ruban[h] && c'.memory[h] == c.memory[h])
    && c'.pos == c.pos + Delta(ins.dir)
    && c'.state == (if ins.WriteMove? then ins.next else c.state)
  }

  /** Applies one instruction: the optional write to the cell under the head
      in both buffers, then the move and, for a `WriteMove`, the state change.
      Re-reading the cell under the head is left to the caller. */
  function Execute(c: Config, ins: Instr): (c': Config)
    requires 0 <= c.pos + Offset < |c.ruban| == |c.memory|
    ensures |c'.ruban| == |c.ruban| && |c'.memory| == |c.memory|
    ensures c'.pos == c.pos + Delta(ins.dir)
    ensures c'.state == Successor(c.state, ins)
    ensures c'.reading == c.reading
  {
    var h := c.pos + Offset;
    match ins
    case Move(d) => c.(pos := c.pos + Delta(d))
    case WriteMove(w, d, next) =>
      var ruban := if w.Some? then c.ruban[h := w.value] else c.ruban;
      var memory := if w.Some? then c.memory[h := w.value] else c.memory;
      c.(ruban := ruban, memory := memory, pos := c.pos + Delta(d), state := next)
  }

  /** Applying an instruction has exactly the effect it prescribes. */
  lemma ExecuteEffect(c: Config, ins: Instr)
    requires 0 <= c.pos + Offset < |c.ruban| == |c.memory|
    ensures Effect(c, ins, Execute(c, ins))
  {
  }

  /** One iteration of the loop body: look up the instruction for the current
      state and symbol, take the snapshot, apply the instruction, and read the
      cell under the new head position. */
  function Step(m: Machine, c: Config): (r: StepResult)
    requires Valid(c)
    ensures Lookup(m, c.state, c.reading).None? ==> r == Fault(Undefined(c.state, c.reading))
    ensures Lookup(m, c.state, c.reading).Some? ==>
      var ins := Lookup(m, c.state, c.reading).value;
      var p := c.pos + Delta(ins.dir);
      && (r.Fault? <==> !(0 <= p + Offset < |c.ruban|))
      && (r.Fault? ==> r.fault == OffTape(p))
      && (r.Next? ==>
            && Valid(r.config)
            && |r.config.ruban| == |c.ruban|
            && r.config.pos == p
            && r.config.state == Successor(c.state, ins)
            && r.record == Record(c.state, c.reading, c.pos, Strip(c.memory), ins))
  {
    match Lookup(m, c.state, c.reading)
    case None => Fault(Undefined(c.state, c.reading))
    case Some(ins) =>
      var c' := Execute(c, ins);
      if 0 <= c'.pos + Offset < |c'.ruban| then
        Next(c'.(reading := c'.ruban[c'.pos + Offset]),
             Record(c.state, c.reading, c.pos, Strip(c.memory), ins))
      else
        Fault(OffTape(c'.pos))
  }

  /** What a step does to the buffers, the head and the state is exactly
      what its instruction prescribes (see Effect). */
  lemma StepEffect(m: Machine, c: Config)
    requires Valid(c)
    requires Step(m, c).Next?
    ensures Lookup(m, c.state, c.reading).Some?
    ensures Effect(c, Lookup(m, c.state, c.reading).value, Step(m, c).config)
  {
    ExecuteEffect(c, Lookup(m, c.state, c.reading).value);
  }

  /** A write puts the same symbol in both buffers, so a step keeps the
      display buffer in sync with the tape. */
  lemma StepKeepsSync(m: Machine, c: Config)
    requires Valid(c) && Synced(m.blank, c.ruban, c.memory)
    requires Step(m, c).Next?
    ensures var c' := Step(m, c).config; Synced(m.blank, c'.ruban, c'.memory)
  {
    var c' := Step(m, c).config;
    var h := c.pos + Offset;
    StepEffect(m, c);
    forall i | 0 <= i < |c'.ruban|
      ensures c'.memory[i] == c'.ruban[i] || (c'.memory[i] == ' ' && c'.ruban[i] == m.blank)
    {
      if i != h {
        assert c'.ruban[i] == c.ruban[i] && c'.memory[i] == c.memory[i];
      }
    }
  }

  /** The loop `while state not in final states`, with at most `fuel`
      iterations. A halted run ends in a final state, keeps the invariant,
      and makes one record per iteration, the first one a snapshot of the
      configuration it started from. */
  function Exec(m: Machine, c: Config, fuel: nat): (r: ExecResult)
    requires Valid(c)
    ensures r.Halted? ==>
      && r.final.state in m.finals
      && Valid(r.final)
      && |r.trace| <= fuel
      && |r.final.ruban| == |c.ruban|
      && (|r.trace| == 0 <==> c.state in m.finals)
      && (|r.trace| > 0 ==> r.trace[0].state == c.state && r.trace[0].position == c.pos
                            && r.trace[0].reading == c.reading)
    ensures c.state !in m.finals && fuel > 0 && Lookup(m, c.state, c.reading).None? ==>
      r == Stopped(Undefined(c.state, c.reading))
    decreases fuel
  {
    if c.state in m.finals then Halted(c, [])
    else if fuel == 0 then Exhausted
    else
      match Step(m, c)
      case Fault(f) => Stopped(f)
      case Next(c', rec) =>
        var r := Exec(m, c', fuel - 1);
        if r.Halted? then Halted(r.final, [rec] + r.trace) else r
  }

  /** The outcome of a run that stops on `f`. */
  function Failure(f: Fault): (r: Outcome)
    ensures f.Undefined? <==> r.UndefinedTransition?
    ensures f.Undefined? ==> r.state == f.state && r.reading == f.symbol
    ensures f.OffTape? ==> r == OutOfTape(f.position)
  {
    match f
    case Undefined(s, sym) => UndefinedTransition(s, sym)
    case OffTape(p) => OutOfTape(p)
  }

  /** `run_turing_machine` with a step budget: run from the initial
      configuration until a final state is reached. A completed run is always
      accepted, its output is the display buffer stripped of its padding,
      and its history has one record per executed step. */
  function Run(m: Machine, input: string, fuel: nat): (r: Outcome)
    ensures r.Done? ==> r.accepted && Trimmed(r.output) && |r.output| <= |input| + 2 * Offset
    ensures r.Done? ==> |r.history| <= fuel && (|r.history| == 0 <==> m.start in m.finals)
  {
    match Exec(m, Init(m, input), fuel)
    case Halted(f, trace) => Done(Strip(f.memory), trace, true)
    case Stopped(f) => Failure(f)
    case Exhausted => OutOfFuel
  }
}

=== FILE: options.dfy ===
/** An optional value, for table cells and writes that may be absent. */
module Options {
  datatype Option<+T> = None | Some(value: T)
}

=== FILE: replay.dfy ===
/** Replaying a run from a list of configurations: if each configuration in
    the list leads to the next by one loop iteration and the last one is
    final, the run from the first one halts in the last one, with one record
    per iteration. This turns the outcome of a concrete run into a chain of
    one-step checks. */
module Replay {
  import opened Options
  import opened Text
  import opened Interpreter

  /** `c` is not final, its table entry applies, and the loop iteration that
      applies it, reading the cell under the new head position, gives `c2`. */
  predicate Leads(m: Machine, c: Config, c2: Config) {
    && Valid(c) && Valid(c2)
    && c.state !in m.finals
    && Lookup(m, c.state, c.reading).Some?
    && Execute(c, Lookup(m, c.state, c.reading).value).(reading := c2.reading) == c2
  }

  /** Each configuration of `cs` leads to the next one. */
  predicate Path(m: Machine, cs: seq<Config>) {
    forall i :: 0 <= i < |cs| - 1 ==> Leads(m, cs[i], cs[i + 1])
  }

  /** `b` is reached from `a` by `k` loop iterations. */
  ghost predicate Reach(m: Machine, a: Config, b: Config, k: nat) {
    exists cs :: |cs| == k + 1 && cs[0] == a && cs[k] == b && Path(m, cs)
  }

  /** A one-step check is exactly a loop iteration that the step function
      performs. */
  lemma LeadsIsStep(m: Machine, c: Config, c2: Config)
    requires Valid(c) && c.state !in m.finals
    ensures Leads(m, c, c2) <==> Step(m, c).Next? && Step(m, c).config == c2
  {
  }

  /** If the run from `c2` halts in `fin` with `n` records, the run from a
      configuration that leads to `c2`, with one more step of budget, halts
      in `fin` with `n + 1` records. */
  lemma LeadsExec(m: Machine, c: Config, c2: Config, fuel: nat, fin: Config, n: nat)
    requires Leads(m, c, c2) && fuel > 0
    requires Exec(m, c2, fuel - 1).Halted?
    requires Exec(m, c2, fuel - 1).final == fin && |Exec(m, c2, fuel - 1).trace| == n
    ensures Exec(m, c, fuel).Halted?
    ensures Exec(m, c, fuel).final == fin && |Exec(m, c, fuel).trace| == n + 1
  {
    LeadsIsStep(m, c, c2);
  }

  /** A path without its first configuration is a path. */
  lemma PathTail(m: Machine, cs: seq<Config>)
    requires |cs| > 0 && Path(m, cs)
    ensures Path(m, cs[1..])
  {
    var tail := cs[1..];
    forall i | 0 <= i < |tail| - 1
      ensures Leads(m, tail[i], tail[i + 1])
    {
      assert Leads(m, cs[i + 1], cs[i + 2]);
    }
  }

  /** The run from the head of a path that ends in a final configuration,
      with at least as much budget as the path has steps, halts in that
      configuration with one record per step. */
  lemma {:induction false} PathExec(m: Machine, cs: seq<Config>, fuel: nat)
    requires |cs| > 0 && Valid(cs[0]) && Path(m, cs)
    requires cs[|cs| - 1].state in m.finals
    requires fuel >= |cs| - 1
    ensures Exec(m, cs[0], fuel).Halted?
    ensures Exec(m, cs[0], fuel).final == cs[|cs| - 1]
    ensures |Exec(m, cs[0], fuel).trace| == |cs| - 1
    decreases |cs|
  {
    if |cs| > 1 {
      var tail := cs[1..];
      assert Leads(m, cs[0], tail[0]);
      PathTail(m, cs);
      PathExec(m, tail, fuel - 1);
      LeadsExec(m, cs[0], tail[0], fuel, tail[|tail| - 1], |tail| - 1);
      assert tail[|tail| - 1] == cs[|cs| - 1];
    }
  }

  /** The list of a single configuration is a path. */
  lemma ReachRefl(m: Machine, a: Config)
    ensures Reach(m, a, a, 0)
  {
    assert Path(m, [a]);
  }

  /** A path witnesses reachability from its first to its last configuration. */
  lemma PathReach(m: Machine, cs: seq<Config>)
    requires |cs| > 0 && Path(m, cs)
    ensures Reach(m, cs[0], cs[|cs| - 1], |cs| - 1)
  {
  }

  /** Short chains of one-step checks, for replaying a run a few
      iterations at a time. */
  lemma Chain2(m: Machine, a: Config, b: Config, c: Config)
    requires Leads(m, a, b) && Leads(m, b, c)
    ensures Reach(m, a, c, 2)
  {
    PathReach(m, [a, b, c]);
  }

  lemma Chain3(m: Machine, a: Config, b: Config, c: Config, d: Config)
    requires Leads(m, a, b) && Leads(m, b, c) && Leads(m, c, d)
    ensures Reach(m, a, d, 3)
  {
    PathReach(m, [a, b, c, d]);
  }

  lemma Chain4(m: Machine, a: Config, b: Config, c: Config, d: Config, e: Config)
    requires Leads(m, a, b) && Leads(m, b, c) && Leads(m, c, d) && Leads(m, d, e)
    ensures Reach(m, a, e, 4)
  {
    PathReach(m, [a, b, c, d, e]);
  }

  /** Two paths that meet make one. */
  lemma ReachTrans(m: Machine, a: Config, b: Config, c: Config, j: nat, k: nat)
    requires Reach(m, a, b, j) && Reach(m, b, c, k)
    ensures Reach(m, a, c, j + k)
  {
    var xs :| |xs| == j + 1 && xs[0] == a && xs[j] == b && Path(m, xs);
    var ys :| |ys| == k + 1 && ys[0] == b && ys[k] == c && Path(m, ys);
    var zs := xs + ys[1..];
    forall i | 0 <= i < |zs| - 1
      ensures Leads(m, zs[i], zs[i + 1])
    {
      if i < j {
        assert Leads(m, xs[i], xs[i + 1]);
      } else {
        assert Leads(m, ys[i - j], ys[i - j + 1]);
      }
    }
    assert |zs| == j + k + 1 && zs[0] == a && zs[j + k] == c && Path(m, zs);
  }

  /** A one-step check in front of a path makes a path. */
  lemma PathCons(m: Machine, a: Config, cs: seq<Config>)
    requires |cs| > 0 && Leads(m, a, cs[0]) && Path(m, cs)
    ensures Path(m, [a] + cs)
  {
    var xs := [a] + cs;
    forall i | 0 <= i < |xs| - 1
      ensures Leads(m, xs[i], xs[i + 1])
    {
      if i > 0 {
        assert Leads(m, cs[i - 1], cs[i]);
      }
    }
  }

  /** `rec` is the snapshot the loop takes of `c` before applying the table
      entry for its state and symbol, which `rec` holds. */
  predicate Snapshot(m: Machine, c: Config, rec: Record) {
    && Lookup(m, c.state, c.reading) == Some(rec.transition)
    && rec == Record(c.state, c.reading, c.pos, Strip(c.memory), rec.transition)
  }

  /** `trace` holds one snapshot of each configuration of `cs` but the last. */
  predicate Snapshots(m: Machine, cs: seq<Config>, trace: seq<Record>) {
    && |cs| == |trace| + 1
    && forall j :: 0 <= j < |trace| ==> Snapshot(m, cs[j], trace[j])
  }

  lemma SnapshotsCons(m: Machine, c: Config, rec: Record, cs: seq<Config>, trace: seq<Record>)
    requires Snapshot(m, c, rec) && Snapshots(m, cs, trace)
    ensures Snapshots(m, [c] + cs, [rec] + trace)
  {
    var xs, ts := [c] + cs, [rec] + trace;
    forall j | 0 <= j < |ts|
      ensures Snapshot(m, xs[j], ts[j])
    {
      if j > 0 {
        assert xs[j] == cs[j - 1] && ts[j] == trace[j - 1];
      }
    }
  }

  /** A path and snapshots for the rest of a run extend, by the first
      iteration, to a path and snapshots for the whole run. */
  lemma ExecPathCons(m: Machine, c: Config, fuel: nat, cs: seq<Config>)
    requires Valid(c) && c.state !in m.finals && fuel > 0 && Step(m, c).Next?
    requires var r := Exec(m, Step(m, c).config, fuel - 1);
      && r.Halted? && |cs| > 0 && cs[0] == Step(m, c).config && cs[|cs| - 1] == r.final
      && Path(m, cs) && Snapshots(m, cs, r.trace)
    ensures var r, xs := Exec(m, c, fuel), [c] + cs;
      && r.Halted? && xs[0] == c && xs[|xs| - 1] == r.final
      && Path(m, xs) && Snapshots(m, xs, r.trace)
  {
    var c', rec := Step(m, c).config, Step(m, c).record;
    var r' := Exec(m, c', fuel - 1);
    assert Exec(m, c, fuel) == Halted(r'.final, [rec] + r'.trace);
    LeadsIsStep(m, c, c');
    PathCons(m, c, cs);
    SnapshotsCons(m, c, rec, cs, r'.trace);
    var xs := [c] + cs;
    assert xs[|xs| - 1] == cs[|cs| - 1];
  }

  /** Conversely, a halted run is a path of loop iterations from where it
      started to its final configuration, and its history holds exactly one
      snapshot of every configuration on that path but the last. */
  lemma {:induction false} ExecIsPath(m: Machine, c: Config, fuel: nat)
    requires Valid(c) && Exec(m, c, fuel).Halted?
    ensures exists cs ::
      && |cs| > 0 && cs[0] == c && cs[|cs| - 1] == Exec(m, c, fuel).final
      && Path(m, cs) && Snapshots(m, cs, Exec(m, c, fuel).trace)
    decreases fuel
  {
    if c.state in m.finals {
      assert Exec(m, c, fuel) == Halted(c, []);
      assert Path(m, [c]) && Snapshots(m, [c], []);
    } else {
      var c' := Step(m, c).config;
      ExecIsPath(m, c', fuel - 1);
      var r' := Exec(m, c', fuel - 1);
      var cs: seq<Config> :| && |cs| > 0 && cs[0] == c' && cs[|cs| - 1] == r'.final
                && Path(m, cs) && Snapshots(m, cs, r'.trace);
      ExecPathCons(m, c, fuel, cs);
    }
  }

  /** A run that completes has reached a final configuration, after as many
      iterations as its history has records, and outputs that
      configuration's display buffer stripped. */
  lemma RunIsReach(m: Machine, input: string, fuel: nat)
    requires Run(m, input, fuel).Done?
    ensures exists b: Config ::
      && b.state in m.finals
      && Reach(m, Init(m, input), b, |Run(m, input, fuel).history|)
      && Run(m, input, fuel).output == Strip(b.memory)
  {
    var c := Init(m, input);
    ExecIsPath(m, c, fuel);
    var r := Exec(m, c, fuel);
    var cs: seq<Config> :| && |cs| > 0 && cs[0] == c && cs[|cs| - 1] == r.final
              && Path(m, cs) && Snapshots(m, cs, r.trace);
    PathReach(m, cs);
  }

  /** A run from `input` that reaches a final configuration `b` after `k`
      iterations, with at least `k` steps of budget, is accepted, outputs
      `b`'s display buffer stripped, and records exactly `k` steps. */
  lemma ReachRun(m: Machine, input: string, b: Config, k: nat, fuel: nat)
    requires Reach(m, Init(m, input), b, k)
    requires b.state in m.finals
    requires fuel >= k
    ensures Run(m, input, fuel).Done?
    ensures Run(m, input, fuel).output == Strip(b.memory)
    ensures Run(m, input, fuel).accepted
    ensures |Run(m, input, fuel).history| == k
  {
    var cs :| |cs| == k + 1 && cs[0] == Init(m, input) && cs[k] == b && Path(m, cs);
    PathExec(m, cs, fuel);
  }

  /** If the run from `c2` stops on `f`, so does the run from a
      configuration that leads to `c2`, with one more step of budget. */
  lemma LeadsStopped(m: Machine, c: Config, c2: Config, fuel: nat, f: Fault)
    requires Leads(m, c, c2) && fuel > 0
    requires Exec(m, c2, fuel - 1) == Stopped(f)
    ensures Exec(m, c, fuel) == Stopped(f)
  {
    LeadsIsStep(m, c, c2);
  }

  /** The run from the head of a path whose last configuration is not final
      and cannot take its next iteration, given more budget than the path
      has steps, stops with that iteration's failure. */
  lemma {:induction false} PathStops(m: Machine, cs: seq<Config>, fuel: nat)
    requires |cs| > 0 && Valid(cs[0]) && Path(m, cs)
    requires Valid(cs[|cs| - 1]) && cs[|cs| - 1].state !in m.finals
    requires Step(m, cs[|cs| - 1]).Fault?
    requires fuel >= |cs|
    ensures Exec(m, cs[0], fuel) == Stopped(Step(m, cs[|cs| - 1]).fault)
    decreases |cs|
  {
    if |cs| > 1 {
      var tail := cs[1..];
      assert Leads(m, cs[0], tail[0]);
      PathTail(m, cs);
      assert tail[|tail| - 1] == cs[|cs| - 1];
      PathStops(m, tail, fuel - 1);
      LeadsStopped(m, cs[0], tail[0], fuel, Step(m, cs[|cs| - 1]).fault);
    }
  }

  /** A path for the rest of a stopped run extends, by the first iteration,
      to a path for the whole run. */
  lemma ExecStoppedCons(m: Machine, c: Config, fuel: nat, cs: seq<Config>)
    requires Valid(c) && c.state !in m.finals && fuel > 0 && Step(m, c).Next?
    requires var r := Exec(m, Step(m, c).config, fuel - 1);
      && r.Stopped? && |cs| > 0 && cs[0] == Step(m, c).config && Path(m, cs) && |cs| <= fuel - 1
      && Valid(cs[|cs| - 1]) && cs[|cs| - 1].state !in m.finals && Step(m, cs[|cs| - 1]) == Fault(r.fault)
    ensures var r, xs := Exec(m, c, fuel), [c] + cs;
      && r.Stopped? && xs[0] == c && Path(m, xs) && |xs| <= fuel
      && Valid(xs[|xs| - 1]) && xs[|xs| - 1].state !in m.finals && Step(m, xs[|xs| - 1]) == Fault(r.fault)
  {
    var c' := Step(m, c).config;
    assert Exec(m, c, fuel) == Exec(m, c', fuel - 1);
    LeadsIsStep(m, c, c');
    PathCons(m, c, cs);
    var xs := [c] + cs;
    assert xs[|xs| - 1] == cs[|cs| - 1];
  }

  /** Conversely, a stopped run is a path of loop iterations, no longer than
      its budget, from where it started to a configuration that is not final
      and whose next iteration fails as the run does: on a missing table
      entry, or on a move off the tape. */
  lemma {:induction false} ExecStopped(m: Machine, c: Config, fuel: nat)
    requires Valid(c) && Exec(m, c, fuel).Stopped?
    ensures exists cs: seq<Config> ::
      && |cs| > 0 && cs[0] == c && Path(m, cs) && |cs| <= fuel
      && Valid(cs[|cs| - 1]) && cs[|cs| - 1].state !in m.finals
      && Step(m, cs[|cs| - 1]) == Fault(Exec(m, c, fuel).fault)
    decreases fuel
  {
    if Step(m, c).Fault? {
      assert Exec(m, c, fuel) == Stopped(Step(m, c).fault);
      assert Path(m, [c]);
      var cs := [c];
      assert cs[|cs| - 1] == c;
    } else {
      var c' := Step(m, c).config;
      ExecIsStoppedTail(m, c, fuel);
      ExecStopped(m, c', fuel - 1);
      var r' := Exec(m, c', fuel - 1);
      var cs: seq<Config> :| && |cs| > 0 && cs[0] == c' && Path(m, cs) && |cs| <= fuel - 1
                && Valid(cs[|cs| - 1]) && cs[|cs| - 1].state !in m.finals
                && Step(m, cs[|cs| - 1]) == Fault(r'.fault);
      ExecStoppedCons(m, c, fuel, cs);
    }
  }

  /** A stopped run that gets past its first iteration stops in the rest of
      the run. */
  lemma ExecIsStoppedTail(m: Machine, c: Config, fuel: nat)
    requires Valid(c) && Exec(m, c, fuel).Stopped? && Step(m, c).Next?
    ensures c.state !in m.finals && fuel > 0
    ensures Exec(m, Step(m, c).config, fuel - 1) == Exec(m, c, fuel)
  {
  }

  /** A run that reaches, within its budget, a configuration that is not
      final and whose next iteration fails, ends with that failure: a
      missing entry is `UndefinedTransition` with its state and symbol, a
      move off the tape is `OutOfTape` with the new position. */
  lemma ReachStops(m: Machine, input: string, b: Config, k: nat, fuel: nat)
    requires Reach(m, Init(m, input), b, k)
    requires Valid(b) && b.state !in m.finals && Step(m, b).Fault?
    requires fuel > k
    ensures Run(m, input, fuel) == Failure(Step(m, b).fault)
  {
    var cs :| |cs| == k + 1 && cs[0] == Init(m, input) && cs[k] == b && Path(m, cs);
    PathStops(m, cs, fuel);
  }

  /** Conversely, a run that fails has reached, in fewer iterations than its
      budget, a configuration that is not final and whose next iteration
      fails as the run reports. */
  lemma RunStopsIsReach(m: Machine, input: string, fuel: nat)
    requires Run(m, input, fuel).UndefinedTransition? || Run(m, input, fuel).OutOfTape?
    ensures exists b: Config, k: nat ::
      && k < fuel && Reach(m, Init(m, input), b, k)
      && Valid(b) && b.state !in m.finals && Step(m, b).Fault?
      && Run(m, input, fuel) == Failure(Step(m, b).fault)
  {
    var c := Init(m, input);
    ExecStopped(m, c, fuel);
    var r := Exec(m, c, fuel);
    var cs: seq<Config> :| && |cs| > 0 && cs[0] == c && Path(m, cs) && |cs| <= fuel
              && Valid(cs[|cs| - 1]) && cs[|cs| - 1].state !in m.finals
              && Step(m, cs[|cs| - 1]) == Fault(r.fault);
    PathReach(m, cs);
    assert Run(m, input, fuel) == Failure(r.fault);
  }
}

=== FILE: text.dfy ===
/** String helpers the interpreter relies on: repetition (`s * n`) and the
    trimming it applies to its display buffer (`str.strip()`), restricted to
    the space character, the only whitespace that buffer is padded with. */
module Text {

  /** `n` copies of the character `c`. */
  function Repeat(c: char, n: nat): (r: string)
    ensures |r| == n
    ensures forall i :: 0 <= i < n ==> r[i] == c
  {
    seq(n, _ => c)
  }

  /** A string that neither starts nor ends with a space. */
  predicate Trimmed(t: string) {
    |t| == 0 || (t[0] != ' ' && t[|t| - 1] != ' ')
  }

  /** `s` without its leading and trailing spaces: spaces are dropped from
      either end until neither end is a space. */
  function Strip(s: string): (r: string)
    ensures Trimmed(r)
    ensures |r| <= |s|
    decreases |s|
  {
    if |s| > 0 && s[0] == ' ' then Strip(s[1..])
    else if |s| > 0 && s[|s| - 1] == ' ' then Strip(s[..|s| - 1])
    else s
  }

  /** Strip is characterised by its promises: whatever surrounds a trimmed
      string with spaces, stripping gives back exactly that string. */
  lemma {:induction false} StripPadded(a: nat, t: string, b: nat)
    requires Trimmed(t)
    ensures Strip(Repeat(' ', a) + t + Repeat(' ', b)) == t
    decreases a + b
  {
    var s := Repeat(' ', a) + t + Repeat(' ', b);
    if a > 0 {
      assert s[0] == ' ';
      assert s[1..] == Repeat(' ', a - 1) + t + Repeat(' ', b);
      StripPadded(a - 1, t, b);
    } else if b > 0 && |t| == 0 {
      assert s[0] == ' ';
      assert s[1..] == Repeat(' ', 0) + t + Repeat(' ', b - 1);
      StripPadded(0, t, b - 1);
    } else if b > 0 {
      assert s[0] == t[0];
      assert s[|s| - 1] == ' ';
      assert s[..|s| - 1] == Repeat(' ', 0) + t + Repeat(' ', b - 1);
      StripPadded(0, t, b - 1);
    } else {
      assert s == t;
    }
  }

  /** Extra spaces around a string do not change what it strips to. */
  lemma {:induction false} StripIgnoresPadding(a: nat, s: string, b: nat)
    ensures Strip(Repeat(' ', a) + s + Repeat(' ', b)) == Strip(s)
    decreases |s|
  {
    if |s| > 0 && s[0] == ' ' {
      assert Repeat(' ', a) + s + Repeat(' ', b) == Repeat(' ', a + 1) + s[1..] + Repeat(' ', b);
      StripIgnoresPadding(a + 1, s[1..], b);
    } else if |s| > 0 && s[|s| - 1] == ' ' {
      assert Repeat(' ', a) + s + Repeat(' ', b) == Repeat(' ', a) + s[..|s| - 1] + Repeat(' ', b + 1);
      StripIgnoresPadding(a, s[..|s| - 1], b + 1);
    } else {
      StripPadded(a, s, b);
    }
  }

  /** The same, for a string given cell by cell: spaces up to `a`, then
      `t`, then spaces to the end. */
  lemma StripSurrounded(s: string, a: nat, t: string)
    requires Trimmed(t) && a + |t| <= |s|
    requires forall i :: 0 <= i < a ==> s[i] == ' '
    requires forall i :: 0 <= i < |t| ==> s[a + i] == t[i]
    requires forall i :: a + |t| <= i < |s| ==> s[i] == ' '
    ensures Strip(s) == t
  {
    var b := |s| - a - |t|;
    assert s == Repeat(' ', a) + t + Repeat(' ', b) by {
      assert forall i :: a <= i < a + |t| ==> s[i] == t[i - a];
    }
    StripPadded(a, t, b);
  }
}

=== FILE: vectors.dfy ===
/** The runs the repository's tests perform, replayed configuration by
    configuration. Each run is cut into parts of a few loop iterations; a
    part relies only on the table entries it lists, so it is stated for any
    machine with those entries, and the concrete tables are shown to have
    them once. */
module Vectors {
  import opened Text
  import opened Options
  import opened Interpreter
  import opened Replay
  import opened Examples

  predicate DoubleEntries0(m: Machine) {
    Lookup(m, "e1", '1') == Some(W('0', R, "e2")) &&
    Lookup(m, "e2", '1') == Some(W('1', R, "e2")) &&
    Lookup(m, "e2", '0') == Some(W('0', R, "e3")) &&
    Lookup(m, "e3", '0') == Some(W('1', L, "e4"))
  }

  lemma DoubleEntries0Hold()
    ensures DoubleEntries0(DoubleMachine())
  {
  }

  predicate DoubleEntries1(m: Machine) {
    Lookup(m, "e4", '0') == Some(W('0', L, "e5")) &&
    Lookup(m, "e5", '1') == Some(W('1', L, "e5")) &&
    Lookup(m, "e5", '0') == Some(W('1', R, "e1")) &&
    Lookup(m, "e3", '1') == Some(W('1', R, "e3"))
  }

  lemma DoubleEntries1Hold()
    ensures DoubleEntries1(DoubleMachine())
  {
  }

  predicate DoubleEntries2(m: Machine) {
    Lookup(m, "e4", '1') == Some(W('1', L, "e4")) &&
    Lookup(m, "e1", '0') == Some(Go(L, "done"))
  }

  lemma DoubleEntries2Hold()
    ensures DoubleEntries2(DoubleMachine())
  {
  }

  /** `m` has the blank, start state and final states of the doubling machine and the
      entries of its table that the test runs use. */
  predicate DoubleLike(m: Machine) {
    && m.blank == '0' && m.start == "e1" && m.finals == {"done"}
    && DoubleEntries0(m) && DoubleEntries1(m) && DoubleEntries2(m)
  }

  lemma DoubleLikeHolds()
    ensures DoubleLike(DoubleMachine())
  {
    DoubleEntries0Hold();
    DoubleEntries1Hold();
    DoubleEntries2Hold();
  }

  predicate AddEntries0(m: Machine) {
    Lookup(m, "right", '1') == Some(Move(R)) &&
    Lookup(m, "right", '+') == Some(Move(R)) &&
    Lookup(m, "right", ' ') == Some(Go(L, "read")) &&
    Lookup(m, "read", '1') == Some(W('c', L, "have1"))
  }

  lemma AddEntries0Hold()
    ensures AddEntries0(AddMachine())
  {
  }

  predicate AddEntries1(m: Machine) {
    Lookup(m, "have1", '+') == Some(Go(L, "add1")) &&
    Lookup(m, "add1", '1') == Some(W('O', L, "carry")) &&
    Lookup(m, "carry", '1') == Some(W('0', L, "carry")) &&
    Lookup(m, "carry", ' ') == Some(W('1', R, "back1"))
  }

  lemma AddEntries1Hold()
    ensures AddEntries1(AddMachine())
  {
  }

  predicate AddEntries2(m: Machine) {
    Lookup(m, "back1", '0') == Some(Move(R)) &&
    Lookup(m, "back1", 'O') == Some(Move(R)) &&
    Lookup(m, "back1", '+') == Some(Move(R)) &&
    Lookup(m, "back1", 'c') == Some(W('1', L, "read"))
  }

  lemma AddEntries2Hold()
    ensures AddEntries2(AddMachine())
  {
  }

  predicate AddEntries3(m: Machine) {
    Lookup(m, "read", '+') == Some(W(' ', L, "rewrite")) &&
    Lookup(m, "rewrite", 'O') == Some(W('0', L, "rewrite")) &&
    Lookup(m, "rewrite", '0') == Some(Move(L)) &&
    Lookup(m, "rewrite", '1') == Some(Move(L))
  }

  lemma AddEntries3Hold()
    ensures AddEntries3(AddMachine())
  {
  }

  predicate AddEntries4(m: Machine) {
    Lookup(m, "rewrite", ' ') == Some(Go(R, "done")) &&
    Lookup(m, "right", '0') == Some(Move(R)) &&
    Lookup(m, "have1", '0') == Some(Move(L)) &&
    Lookup(m, "have1", '1') == Some(Move(L))
  }

  lemma AddEntries4Hold()
    ensures AddEntries4(AddMachine())
  {
  }

  predicate AddEntries5(m: Machine) {
    Lookup(m, "carry", '0') == Some(W('1', R, "back1")) &&
    Lookup(m, "back1", '1') == Some(Move(R)) &&
    Lookup(m, "read", '0') == Some(W('c', L, "have0")) &&
    Lookup(m, "have0", '0') == Some(Move(L))
  }

  lemma AddEntries5Hold()
    ensures AddEntries5(AddMachine())
  {
  }

  predicate AddEntries6(m: Machine) {
    Lookup(m, "have0", '1') == Some(Move(L)) &&
    Lookup(m, "have0", '+') == Some(Go(L, "add0")) &&
    Lookup(m, "add0", 'O') == Some(Move(L)) &&
    Lookup(m, "add0", '0') == Some(W('O', R, "back0"))
  }

  lemma AddEntries6Hold()
    ensures AddEntries6(AddMachine())
  {
  }

  predicate AddEntries7(m: Machine) {
    Lookup(m, "back0", 'O') == Some(Move(R)) &&
    Lookup(m, "back0", '+') == Some(Move(R)) &&
    Lookup(m, "back0", '1') == Some(Move(R)) &&
    Lookup(m, "back0", '0') == Some(Move(R))
  }

  lemma AddEntries7Hold()
    ensures AddEntries7(AddMachine())
  {
  }

  predicate AddEntries8(m: Machine) {
    Lookup(m, "back0", 'c') == Some(W('0', L, "read")) &&
    Lookup(m, "add0", '1') == Some(W('I', R, "back0")) &&
    Lookup(m, "add1", 'O') == Some(Move(L)) &&
    Lookup(m, "add1", 'I') == Some(Move(L))
  }

  lemma AddEntries8Hold()
    ensures AddEntries8(AddMachine())
  {
  }

  predicate AddEntries9(m: Machine) {
    Lookup(m, "back1", 'I') == Some(Move(R)) &&
    Lookup(m, "rewrite", 'I') == Some(W('1', L, "rewrite"))
  }

  lemma AddEntries9Hold()
    ensures AddEntries9(AddMachine())
  {
  }

  /** `m` has the blank, start state and final states of the binary adder and the
      entries of its table that the test runs use. */
  predicate AddLike(m: Machine) {
    && m.blank == ' ' && m.start == "right" && m.finals == {"done"}
    && AddEntries0(m) && AddEntries1(m) && AddEntries2(m) && AddEntries3(m) && AddEntries4(m) && AddEntries5(m) && AddEntries6(m) && AddEntries7(m) && AddEntries8(m) && AddEntries9(m)
  }

  lemma AddLikeHolds()
    ensures AddLike(AddMachine())
  {
    AddEntries0Hold();
    AddEntries1Hold();
    AddEntries2Hold();
    AddEntries3Hold();
    AddEntries4Hold();
    AddEntries5Hold();
    AddEntries6Hold();
    AddEntries7Hold();
    AddEntries8Hold();
    AddEntries9Hold();
  }

  predicate MultiplyEntries0(m: Machine) {
    Lookup(m, "start", '1') == Some(Go(L, "init")) &&
    Lookup(m, "init", ' ') == Some(W('+', R, "right")) &&
    Lookup(m, "right", '1') == Some(Move(R)) &&
    Lookup(m, "right", '*') == Some(Move(R))
  }

  lemma MultiplyEntries0Hold()
    ensures MultiplyEntries0(MultiplyMachine())
  {
  }

  predicate MultiplyEntries1(m: Machine) {
    Lookup(m, "right", '0') == Some(Move(R)) &&
    Lookup(m, "right", ' ') == Some(Go(L, "readB")) &&
    Lookup(m, "readB", '1') == Some(W(' ', L, "addA")) &&
    Lookup(m, "addA", '0') == Some(Move(L))
  }

  lemma MultiplyEntries1Hold()
    ensures MultiplyEntries1(MultiplyMachine())
  {
  }

  predicate MultiplyEntries2(m: Machine) {
    Lookup(m, "addA", '1') == Some(Move(L)) &&
    Lookup(m, "addA", '*') == Some(Go(L, "read")) &&
    Lookup(m, "read", '1') == Some(W('c', L, "have1")) &&
    Lookup(m, "have1", '1') == Some(Move(L))
  }

  lemma MultiplyEntries2Hold()
    ensures MultiplyEntries2(MultiplyMachine())
  {
  }

  predicate MultiplyEntries3(m: Machine) {
    Lookup(m, "have1", '+') == Some(Go(L, "add1")) &&
    Lookup(m, "add1", ' ') == Some(W('I', R, "back1")) &&
    Lookup(m, "back1", '+') == Some(Move(R)) &&
    Lookup(m, "back1", '1') == Some(Move(R))
  }

  lemma MultiplyEntries3Hold()
    ensures MultiplyEntries3(MultiplyMachine())
  {
  }

  predicate MultiplyEntries4(m: Machine) {
    Lookup(m, "back1", 'c') == Some(W('1', L, "read")) &&
    Lookup(m, "add1", 'I') == Some(Move(L)) &&
    Lookup(m, "back1", 'I') == Some(Move(R)) &&
    Lookup(m, "read", '+') == Some(Go(L, "rewrite"))
  }

  lemma MultiplyEntries4Hold()
    ensures MultiplyEntries4(MultiplyMachine())
  {
  }

  predicate MultiplyEntries5(m: Machine) {
    Lookup(m, "rewrite", 'I') == Some(W('1', L, "rewrite")) &&
    Lookup(m, "rewrite", ' ') == Some(Go(R, "double")) &&
    Lookup(m, "double", '1') == Some(Move(R)) &&
    Lookup(m, "double", '+') == Some(Move(R))
  }

  lemma MultiplyEntries5Hold()
    ensures MultiplyEntries5(MultiplyMachine())
  {
  }

  predicate MultiplyEntries6(m: Machine) {
    Lookup(m, "double", '*') == Some(W('0', R, "shift")) &&
    Lookup(m, "shift", '1') == Some(W('*', R, "shift1")) &&
    Lookup(m, "shift1", '0') == Some(W('1', R, "shift0")) &&
    Lookup(m, "shift0", ' ') == Some(W('0', R, "right"))
  }

  lemma MultiplyEntries6Hold()
    ensures MultiplyEntries6(MultiplyMachine())
  {
  }

  predicate MultiplyEntries7(m: Machine) {
    Lookup(m, "readB", '0') == Some(W(' ', L, "doubleL")) &&
    Lookup(m, "doubleL", '1') == Some(Move(L)) &&
    Lookup(m, "doubleL", '*') == Some(W('0', R, "shift")) &&
    Lookup(m, "shift1", ' ') == Some(W('1', R, "right"))
  }

  lemma MultiplyEntries7Hold()
    ensures MultiplyEntries7(MultiplyMachine())
  {
  }

  predicate MultiplyEntries8(m: Machine) {
    Lookup(m, "read", '0') == Some(W('c', L, "have0")) &&
    Lookup(m, "have0", '0') == Some(Move(L)) &&
    Lookup(m, "have0", '1') == Some(Move(L)) &&
    Lookup(m, "have0", '+') == Some(Go(L, "add0"))
  }

  lemma MultiplyEntries8Hold()
    ensures MultiplyEntries8(MultiplyMachine())
  {
  }

  predicate MultiplyEntries9(m: Machine) {
    Lookup(m, "add0", '1') == Some(W('I', R, "back0")) &&
    Lookup(m, "back0", '+') == Some(Move(R)) &&
    Lookup(m, "back0", '1') == Some(Move(R)) &&
    Lookup(m, "back0", '0') == Some(Move(R))
  }

  lemma MultiplyEntries9Hold()
    ensures MultiplyEntries9(MultiplyMachine())
  {
  }

  predicate MultiplyEntries10(m: Machine) {
    Lookup(m, "back0", 'c') == Some(W('0', L, "read")) &&
    Lookup(m, "add0", 'I') == Some(Move(L)) &&
    Lookup(m, "back0", 'I') == Some(Move(R)) &&
    Lookup(m, "double", '0') == Some(Move(R))
  }

  lemma MultiplyEntries10Hold()
    ensures MultiplyEntries10(MultiplyMachine())
  {
  }

  predicate MultiplyEntries11(m: Machine) {
    Lookup(m, "shift", ' ') == Some(Go(L, "tidy")) &&
    Lookup(m, "tidy", '0') == Some(W(' ', L, "tidy")) &&
    Lookup(m, "tidy", '1') == Some(W(' ', L, "tidy")) &&
    Lookup(m, "tidy", '+') == Some(W(' ', L, "done"))
  }

  lemma MultiplyEntries11Hold()
    ensures MultiplyEntries11(MultiplyMachine())
  {
  }

  /** `m` has the blank, start state and final states of the binary multiplier and the
      entries of its table that the test runs use. */
  predicate MultiplyLike(m: Machine) {
    && m.blank == ' ' && m.start == "start" && m.finals == {"done"}
    && MultiplyEntries0(m) && MultiplyEntries1(m) && MultiplyEntries2(m) && MultiplyEntries3(m) && MultiplyEntries4(m) && MultiplyEntries5(m) && MultiplyEntries6(m) && MultiplyEntries7(m) && MultiplyEntries8(m) && MultiplyEntries9(m) && MultiplyEntries10(m) && MultiplyEntries11(m)
  }

  lemma MultiplyLikeHolds()
    ensures MultiplyLike(MultiplyMachine())
  {
    MultiplyEntries0Hold();
    MultiplyEntries1Hold();
    MultiplyEntries2Hold();
    MultiplyEntries3Hold();
    MultiplyEntries4Hold();
    MultiplyEntries5Hold();
    MultiplyEntries6Hold();
    MultiplyEntries7Hold();
    MultiplyEntries8Hold();
    MultiplyEntries9Hold();
    MultiplyEntries10Hold();
    MultiplyEntries11Hold();
  }

  const Double111At0: Config := Config("00000000001110000000000", "          111          ", 0, "e1", '1')

  const Double111At1: Config := Config("00000000000110000000000", "          011          ", 1, "e2", '1')

  const Double111At2: Config := Config("00000000000110000000000", "          011          ", 2, "e2", '1')

  const Double111At3: Config := Config("00000000000110000000000", "          011          ", 3, "e2", '0')

  const Double111At4: Config := Config("00000000000110000000000", "          0110         ", 4, "e3", '0')

  const Double111At5: Config := Config("00000000000110100000000", "          01101        ", 3, "e4", '0')

  const Double111At6: Config := Config("00000000000110100000000", "          01101        ", 2, "e5", '1')

  const Double111At7: Config := Config("00000000000110100000000", "          01101        ", 1, "e5", '1')

  const Double111At8: Config := Config("00000000000110100000000", "          01101        ", 0, "e5", '0')

  const Double111At9: Config := Config("00000000001110100000000", "          11101        ", 1, "e1", '1')

  const Double111At10: Config := Config("00000000001010100000000", "          10101        ", 2, "e2", '1')

  const Double111At11: Config := Config("00000000001010100000000", "          10101        ", 3, "e2", '0')

  const Double111At12: Config := Config("00000000001010100000000", "          10101        ", 4, "e3", '1')

  const Double111At13: Config := Config("00000000001010100000000", "          10101        ", 5, "e3", '0')

  const Double111At14: Config := Config("00000000001010110000000", "          101011       ", 4, "e4", '1')

  const Double111At15: Config := Config("00000000001010110000000", "          101011       ", 3, "e4", '0')

  const Double111At16: Config := Config("00000000001010110000000", "          101011       ", 2, "e5", '1')

  const Double111At17: Config := Config("00000000001010110000000", "          101011       ", 1, "e5", '0')

  const Double111At18: Config := Config("00000000001110110000000", "          111011       ", 2, "e1", '1')

  const Double111At19: Config := Config("00000000001100110000000", "          110011       ", 3, "e2", '0')

  const Double111At20: Config := Config("00000000001100110000000", "          110011       ", 4, "e3", '1')

  const Double111At21: Config := Config("00000000001100110000000", "          110011       ", 5, "e3", '1')

  const Double111At22: Config := Config("00000000001100110000000", "          110011       ", 6, "e3", '0')

  const Double111At23: Config := Config("00000000001100111000000", "          1100111      ", 5, "e4", '1')

  const Double111At24: Config := Config("00000000001100111000000", "          1100111      ", 4, "e4", '1')

  const Double111At25: Config := Config("00000000001100111000000", "          1100111      ", 3, "e4", '0')

  const Double111At26: Config := Config("00000000001100111000000", "          1100111      ", 2, "e5", '0')

  const Double111At27: Config := Config("00000000001110111000000", "          1110111      ", 3, "e1", '0')

  const Double111At28: Config := Config("00000000001110111000000", "          1110111      ", 2, "done", '1')

  lemma Double111Step0(m: Machine)
    requires m.finals == {"done"}
    requires Lookup(m, "e1", '1') == Some(W('0', R, "e2"))
    ensures Leads(m, Double111At0, Double111At1)
  {
  }

  lemma Double111Step1(m: Machine)
    requires m.finals == {"done"}
    requires Lookup(m, "e2", '1') == Some(W('1', R, "e2"))
    ensures Leads(m, Double111At1, Double111At2)
  {
  }

  lemma Double111Step2(m: Machine)
    requires m.finals == {"done"}
    requires Lookup(m, "e2", '1') == Some(W('1', R, "e2"))
    ensures Leads(m, Double111At2, Double111At3)
  {
  }

  lemma Double111Step3(m: Machine)
    requires m.finals == {"done"}
    requires Lookup(m, "e2", '0') == Some(W('0', R, "e3"))
    ensures Leads(m, Double111At3, Double111At4)
  {
  }

  lemma Double111Step4(m: Machine)
    requires m.finals == {"done"}
    requires Lookup(m, "e3", '0') == Some(W('1', L, "e4"))
    ensures Leads(m, Double111At4, Double111At5)
  {
  }

  lemma Double111Step5(m: Machine)
    requires m.finals == {"done"}
    requires Lookup(m, "e4", '0') == Some(W('0', L, "e5"))
    ensures Leads(m, Double111At5, Double111At6)
  {
  }

  lemma Double111Step6(m: Machine)
    requires m.finals == {"done"}
    requires Lookup(m, "e5", '1') == Some(W('1', L, "e5"))
    ensures Leads(m, Double111At6, Double111At7)
  {
  }

  lemma Double111Step7(m: Machine)
    requires m.finals == {"done"}
    requires Lookup(m, "e5", '1') == Some(W('1', L, "e5"))
    ensures Leads(m, Double111At7, Double111At8)
  {
  }

  lemma Double111Step8(m: Machine)
    requires m.finals == {"done"}
    requires Lookup(m, "e5", '0') == Some(W('1', R, "e1"))
    ensures Leads(m, Double111At8, Double111At9)
  {
  }

  lemma Double111Step9(m: Machine)
    requires m.finals == {"done"}
    requires Lookup(m, "e1", '1') == Some(W('0', R, "e2"))
    ensures Leads(m, Double111At9, Double111At10)
  {
  }

  lemma Double111Step10(m: Machine)
    requires m.finals == {"done"}
    requires Lookup(m, "e2", '1') == Some(W('1', R, "e2"))
    ensures Leads(m, Double111At10, Double111At11)
  {
  }

  lemma Double111Step11(m: Machine)
    requires m.finals == {"done"}
    requires Lookup(m, "e2", '0') == Some(W('0', R, "e3"))
    ensures Leads(m, Double111At11, Double111At12)
  {
  }

  lemma Double111Step12(m: Machine)
    requires m.finals == {"done"}
    requires Lookup(m, "e3", '1') == Some(W('1', R, "e3"))
    ensures Leads(m, Double111At12, Double111At13)
  {
  }

  lemma Double111Step13(m: Machine)
    requires m.finals == {"done"}
    requires Lookup(m, "e3", '0') == Some(W('1', L, "e4"))
    ensures Leads(m, Double111At13, Double111At14)
  {
  }

  lemma Double111Step14(m: Machine)
    requires m.finals == {"done"}
    requires Lookup(m, "e4", '1') == Some(W('1', L, "e4"))
    ensures Leads(m, Double111At14, Double111At15)
  {
  }

  lemma Double111Step15(m: Machine)
    requires m.finals == {"done"}
    requires Lookup(m, "e4", '0') == Some(W('0', L, "e5"))
    ensures Leads(m, Double111At15, Double111At16)
  {
  }

  lemma Double111Step16(m: Machine)
    requires m.finals == {"done"}
    requires Lookup(m, "e5", '1') == Some(W('1', L, "e5"))
    ensures Leads(m, Double111At16, Double111At17)
  {
  }

  lemma Double111Step17(m: Machine)
    requires m.finals == {"done"}
    requires Lookup(m, "e5", '0') == Some(W('1', R, "e1"))
    ensures Leads(m, Double111At17, Double111At18)
  {
  }

  lemma Double111Step18(m: Machine)
    requires m.finals == {"done"}
    requires Lookup(m, "e1", '1') == Some(W('0', R, "e2"))
    ensures Leads(m, Double111At18, Double111At19)
  {
  }

  lemma Double111Step19(m: Machine)
    requires m.finals == {"done"}
    requires Lookup(m, "e2", '0') == Some(W('0', R, "e3"))
    ensures Leads(m, Double111At19, Double111At20)
  {
  }

  lemma Double111Step20(m: Machine)
    requires m.finals == {"done"}
    requires Lookup(m, "e3", '1') == Some(W('1', R, "e3"))
    ensures Leads(m, Double111At20, Double111At21)
  {
  }

  lemma Double111Step21(m: Machine)
    requires m.finals == {"done"}
    requires Lookup(m, "e3", '1') == Some(W('1', R, "e3"))
    ensures Leads(m, Double111At21, Double111At22)
  {
  }

  lemma Double111Step22(m: Machine)
    requires m.finals == {"done"}
    requires Lookup(m, "e3", '0') == Some(W('1', L, "e4"))
    ensures Leads(m, Double111At22, Double111At23)
  {
  }

  lemma Double111Step23(m: Machine)
    requires m.finals == {"done"}
    requires Lookup(m, "e4", '1') == Some(W('1', L, "e4"))
    ensures Leads(m, Double111At23, Double111At24)
  {
  }

  lemma Double111Step24(m: Machine)
    requires m.finals == {"done"}
    requires Lookup(m, "e4", '1') == Some(W('1', L, "e4"))
    ensures Leads(m, Double111At24, Double111At25)
  {
  }

  lemma Double111Step25(m: Machine)
    requires m.finals == {"done"}
    requires Lookup(m, "e4", '0') == Some(W('0', L, "e5"))
    ensures Leads(m, Double111At25, Double111At26)
  {
  }

  lemma Double111Step26(m: Machine)
    requires m.finals == {"done"}
    requires Lookup(m, "e5", '0') == Some(W('1', R, "e1"))
    ensures Leads(m, Double111At26, Double111At27)
  {
  }

  lemma Double111Step27(m: Machine)
    requires m.finals == {"done"}
    requires Lookup(m, "e1", '0') == Some(Go(L, "done"))
    ensures Leads(m, Double111At27, Double111At28)
  {
  }

  lemma Double111Stage0(m: Machine)
    requires DoubleLike(m)
    ensures Reach(m, Double111At0, Double111At16, 16)
  {
    ReachRefl(m, Double111At0);
    Double111Step0(m);
    Double111Step1(m);
    Double111Step2(m);
    Double111Step3(m);
    Chain4(m, Double111At0, Double111At1, Double111At2, Double111At3, Double111At4);
    ReachTrans(m, Double111At0, Double111At0, Double111At4, 0, 4);
    Double111Step4(m);
    Double111Step5(m);
    Double111Step6(m);
    Double111Step7(m);
    Chain4(m, Double111At4, Double111At5, Double111At6, Double111At7, Double111At8);
    ReachTrans(m, Double111At0, Double111At4, Double111At8, 4, 4);
    Double111Step8(m);
    Double111Step9(m);
    Double111Step10(m);
    Double111Step11(m);
    Chain4(m, Double111At8, Double111At9, Double111At10, Double111At11, Double111At12);
    ReachTrans(m, Double111At0, Double111At8, Double111At12, 8, 4);
    Double111Step12(m);
    Double111Step13(m);
    Double111Step14(m);
    Double111Step15(m);
    Chain4(m, Double111At12, Double111At13, Double111At14, Double111At15, Double111At16);
    ReachTrans(m, Double111At0, Double111At12, Double111At16, 12, 4);
  }

  lemma Double111Stage1(m: Machine)
    requires DoubleLike(m)
    ensures Reach(m, Double111At16, Double111At28, 12)
  {
    ReachRefl(m, Double111At16);
    Double111Step16(m);
    Double111Step17(m);
    Double111Step18(m);
    Double111Step19(m);
    Chain4(m, Double111At16, Double111At17, Double111At18, Double111At19, Double111At20);
    ReachTrans(m, Double111At16, Double111At16, Double111At20, 0, 4);
    Double111Step20(m);
    Double111Step21(m);
    Double111Step22(m);
    Double111Step23(m);
    Chain4(m, Double111At20, Double111At21, Double111At22, Double111At23, Double111At24);
    ReachTrans(m, Double111At16, Double111At20, Double111At24, 4, 4);
    Double111Step24(m);
    Double111Step25(m);
    Double111Step26(m);
    Double111Step27(m);
    Chain4(m, Double111At24, Double111At25, Double111At26, Double111At27, Double111At28);
    ReachTrans(m, Double111At16, Double111At24, Double111At28, 8, 4);
  }

  lemma Double111Reach(m: Machine)
    requires DoubleLike(m)
    ensures Reach(m, Init(m, "111"), Double111At28, 28)
  {
    assert Init(m, "111") == Double111At0;
    ReachRefl(m, Double111At0);
    Double111Stage0(m);
    ReachTrans(m, Double111At0, Double111At0, Double111At16, 0, 16);
    Double111Stage1(m);
    ReachTrans(m, Double111At0, Double111At16, Double111At28, 16, 12);
  }

  lemma Double111Output()
    ensures Double111At28.state == "done"
    ensures Strip(Double111At28.memory) == "1110111"
  {
    StripSurrounded(Double111At28.memory, 10, "1110111");
  }

  /** The machine on "111" halts after 28 steps, accepted, with output
      "1110111"; any larger step budget gives the same outcome. */
  lemma Double111(fuel: nat)
    requires fuel >= 28
    ensures Run(DoubleMachine(), "111", fuel).Done?
    ensures Run(DoubleMachine(), "111", fuel).output == "1110111"
    ensures Run(DoubleMachine(), "111", fuel).accepted
    ensures |Run(DoubleMachine(), "111", fuel).history| == 28
  {
    DoubleLikeHolds();
    Double111Reach(DoubleMachine());
    Double111Output();
    ReachRun(DoubleMachine(), "111", Double111At28, 28, fuel);
  }

  const Double1At0: Config := Config("000000000010000000000", "          1          ", 0, "e1", '1')

  const Double1At1: Config := Config("000000000000000000000", "          0          ", 1, "e2", '0')

  const Double1At2: Config := Config("000000000000000000000", "          00         ", 2, "e3", '0')

  const Double1At3: Config := Config("000000000000100000000", "          001        ", 1, "e4", '0')

  const Double1At4: Config := Config("000000000000100000000", "          001        ", 0, "e5", '0')

  const Double1At5: Config := Config("000000000010100000000", "          101        ", 1, "e1", '0')

  const Double1At6: Config := Config("000000000010100000000", "          101        ", 0, "done", '1')

  lemma Double1Step0(m: Machine)
    requires m.finals == {"done"}
    requires Lookup(m, "e1", '1') == Some(W('0', R, "e2"))
    ensures Leads(m, Double1At0, Double1At1)
  {
  }

  lemma Double1Step1(m: Machine)
    requires m.finals == {"done"}
    requires Lookup(m, "e2", '0') == Some(W('0', R, "e3"))
    ensures Leads(m, Double1At1, Double1At2)
  {
  }

  lemma Double1Step2(m: Machine)
    requires m.finals == {"done"}
    requires Lookup(m, "e3", '0') == Some(W('1', L, "e4"))
    ensures Leads(m, Double1At2, Double1At3)
  {
  }

  lemma Double1Step3(m: Machine)
    requires m.finals == {"done"}
    requires Lookup(m, "e4", '0') == Some(W('0', L, "e5"))
    ensures Leads(m, Double1At3, Double1At4)
  {
  }

  lemma Double1Step4(m: Machine)
    requires m.finals == {"done"}
    requires Lookup(m, "e5", '0') == Some(W('1', R, "e1"))
    ensures Leads(m, Double1At4, Double1At5)
  {
  }

  lemma Double1Step5(m: Machine)
    requires m.finals == {"done"}
    requires Lookup(m, "e1", '0') == Some(Go(L, "done"))
    ensures Leads(m, Double1At5, Double1At6)
  {
  }

  lemma Double1Stage0(m: Machine)
    requires DoubleLike(m)
    ensures Reach(m, Double1At0, Double1At6, 6)
  {
    ReachRefl(m, Double1At0);
    Double1Step0(m);
    Double1Step1(m);
    Double1Step2(m);
    Double1Step3(m);
    Chain4(m, Double1At0, Double1At1, Double1At2, Double1At3, Double1At4);
    ReachTrans(m, Double1At0, Double1At0, Double1At4, 0, 4);
    Double1Step4(m);
    Double1Step5(m);
    Chain2(m, Double1At4, Double1At5, Double1At6);
    ReachTrans(m, Double1At0, Double1At4, Double1At6, 4, 2);
  }

  lemma Double1Reach(m: Machine)
    requires DoubleLike(m)
    ensures Reach(m, Init(m, "1"), Double1At6, 6)
  {
    assert Init(m, "1") == Double1At0;
    ReachRefl(m, Double1At0);
    Double1Stage0(m);
    ReachTrans(m, Double1At0, Double1At0, Double1At6, 0, 6);
  }

  lemma Double1Output()
    ensures Double1At6.state == "done"
    ensures Strip(Double1At6.memory) == "101"
  {
    StripSurrounded(Double1At6.memory, 10, "101");
  }

  /** The machine on "1" halts after 6 steps, accepted, with output
      "101"; any larger step budget gives the same outcome. */
  lemma Double1(fuel: nat)
    requires fuel >= 6
    ensures Run(DoubleMachine(), "1", fuel).Done?
    ensures Run(DoubleMachine(), "1", fuel).output == "101"
    ensures Run(DoubleMachine(), "1", fuel).accepted
    ensures |Run(DoubleMachine(), "1", fuel).history| == 6
  {
    DoubleLikeHolds();
    Double1Reach(DoubleMachine());
    Double1Output();
    ReachRun(DoubleMachine(), "1", Double1At6, 6, fuel);
  }

  const Add11Plus1At0: Config := Config("          11+1          ", "          11+1          ", 0, "right", '1')

  const Add11Plus1At1: Config := Config("          11+1          ", "          11+1          ", 1, "right", '1')

  const Add11Plus1At2: Config := Config("          11+1          ", "          11+1          ", 2, "right", '+')

  const Add11Plus1At3: Config := Config("          11+1          ", "          11+1          ", 3, "right", '1')

  const Add11Plus1At4: Config := Config("          11+1          ", "          11+1          ", 4, "right", ' ')

  const Add11Plus1At5: Config := Config("          11+1          ", "          11+1          ", 3, "read", '1')

  const Add11Plus1At6: Config := Config("          11+c          ", "          11+c          ", 2, "have1", '+')

  const Add11Plus1At7: Config := Config("          11+c          ", "          11+c          ", 1, "add1", '1')

  const Add11Plus1At8: Config := Config("          1O+c          ", "          1O+c          ", 0, "carry", '1')

  const Add11Plus1At9: Config := Config("          0O+c          ", "          0O+c          ", -1, "carry", ' ')

  const Add11Plus1At10: Config := Config("         10O+c          ", "         10O+c          ", 0, "back1", '0')

  const Add11Plus1At11: Config := Config("         10O+c          ", "         10O+c          ", 1, "back1", 'O')

  const Add11Plus1At12: Config := Config("         10O+c          ", "         10O+c          ", 2, "back1", '+')

  const Add11Plus1At13: Config := Config("         10O+c          ", "         10O+c          ", 3, "back1", 'c')

  const Add11Plus1At14: Config := Config("         10O+1          ", "         10O+1          ", 2, "read", '+')

  const Add11Plus1At15: Config := Config("         10O 1          ", "         10O 1          ", 1, "rewrite", 'O')

  const Add11Plus1At16: Config := Config("         100 1          ", "         100 1          ", 0, "rewrite", '0')

  const Add11Plus1At17: Config := Config("         100 1          ", "         100 1          ", -1, "rewrite", '1')

  const Add11Plus1At18: Config := Config("         100 1          ", "         100 1          ", -2, "rewrite", ' ')

  const Add11Plus1At19: Config := Config("         100 1          ", "         100 1          ", -1, "done", '1')

  lemma Add11Plus1Step0(m: Machine)
    requires m.finals == {"done"}
    requires Lookup(m, "right", '1') == Some(Move(R))
    ensures Leads(m, Add11Plus1At0, Add11Plus1At1)
  {
  }

  lemma Add11Plus1Step1(m: Machine)
    requires m.finals == {"done"}
    requires Lookup(m, "right", '1') == Some(Move(R))
    ensures Leads(m, Add11Plus1At1, Add11Plus1At2)
  {
  }

  lemma Add11Plus1Step2(m: Machine)
    requires m.finals == {"done"}
    requires Lookup(m, "right", '+') == Some(Move(R))
    ensures Leads(m, Add11Plus1At2, Add11Plus1At3)
  {
  }

  lemma Add11Plus1Step3(m: Machine)
    requires m.finals == {"done"}
    requires Lookup(m, "right", '1') == Some(Move(R))
    ensures Leads(m, Add11Plus1At3, Add11Plus1At4)
  {
  }

  lemma Add11Plus1Step4(m: Machine)
    requires m.finals == {"done"}
    requires Lookup(m, "right", ' ') == Some(Go(L, "read"))
    ensures Leads(m, Add11Plus1At4, Add11Plus1At5)
  {
  }

  lemma Add11Plus1Step5(m: Machine)
    requires m.finals == {"done"}
    requires Lookup(m, "read", '1') == Some(W('c', L, "have1"))
    ensures Leads(m, Add11Plus1At5, Add11Plus1At6)
  {
  }

  lemma Add11Plus1Step6(m: Machine)
    requires m.finals == {"done"}
    requires Lookup(m, "have1", '+') == Some(Go(L, "add1"))
    ensures Leads(m, Add11Plus1At6, Add11Plus1At7)
  {
  }

  lemma Add11Plus1Step7(m: Machine)
    requires m.finals == {"done"}
    requires Lookup(m, "add1", '1') == Some(W('O', L, "carry"))
    ensures Leads(m, Add11Plus1At7, Add11Plus1At8)
  {
  }

  lemma Add11Plus1Step8(m: Machine)
    requires m.finals == {"done"}
    requires Lookup(m, "carry", '1') == Some(W('0', L, "carry"))
    ensures Leads(m, Add11Plus1At8, Add11Plus1At9)
  {
  }

  lemma Add11Plus1Step9(m: Machine)
    requires m.finals == {"done"}
    requires Lookup(m, "carry", ' ') == Some(W('1', R, "back1"))
    ensures Leads(m, Add11Plus1At9, Add11Plus1At10)
  {
  }

  lemma Add11Plus1Step10(m: Machine)
    requires m.finals == {"done"}
    requires Lookup(m, "back1", '0') == Some(Move(R))
    ensures Leads(m, Add11Plus1At10, Add11Plus1At11)
  {
  }

  lemma Add11Plus1Step11(m: Machine)
    requires m.finals == {"done"}
    requires Lookup(m, "back1", 'O') == Some(Move(R))
    ensures Leads(m, Add11Plus1At11, Add11Plus1At12)
  {
  }

  lemma Add11Plus1Step12(m: Machine)
    requires m.finals == {"done"}
    requires Lookup(m, "back1", '+') == Some(Move(R))
    ensures Leads(m, Add11Plus1At12, Add11Plus1At13)
  {
  }

  lemma Add11Plus1Step13(m: Machine)
    requires m.finals == {"done"}
    requires Lookup(m, "back1", 'c') == Some(W('1', L, "read"))
    ensures Leads(m, Add11Plus1At13, Add11Plus1At14)
  {
  }

  lemma Add11Plus1Step14(m: Machine)
    requires m.finals == {"done"}
    requires Lookup(m, "read", '+') == Some(W(' ', L, "rewrite"))
    ensures Leads(m, Add11Plus1At14, Add11Plus1At15)
  {
  }

  lemma Add11Plus1Step15(m: Machine)
    requires m.finals == {"done"}
    requires Lookup(m, "rewrite", 'O') == Some(W('0', L, "rewrite"))
    ensures Leads(m, Add11Plus1At15, Add11Plus1At16)
  {
  }

  lemma Add11Plus1Step16(m: Machine)
    requires m.finals == {"done"}
    requires Lookup(m, "rewrite", '0') == Some(Move(L))
    ensures Leads(m, Add11Plus1At16, Add11Plus1At17)
  {
  }

  lemma Add11Plus1Step17(m: Machine)
    requires m.finals == {"done"}
    requires Lookup(m, "rewrite", '1') == Some(Move(L))
    ensures Leads(m, Add11Plus1At17, Add11Plus1At18)
  {
  }

  lemma Add11Plus1Step18(m: Machine)
    requires m.finals == {"done"}
    requires Lookup(m, "rewrite", ' ') == Some(Go(R, "done"))
    ensures Leads(m, Add11Plus1At18, Add11Plus1At19)
  {
  }

  lemma Add11Plus1Stage0(m: Machine)
    requires AddLike(m)
    ensures Reach(m, Add11Plus1At0, Add11Plus1At16, 16)
  {
    ReachRefl(m, Add11Plus1At0);
    Add11Plus1Step0(m);
    Add11Plus1Step1(m);
    Add11Plus1Step2(m);
    Add11Plus1Step3(m);
    Chain4(m, Add11Plus1At0, Add11Plus1At1, Add11Plus1At2, Add11Plus1At3, Add11Plus1At4);
    ReachTrans(m, Add11Plus1At0, Add11Plus1At0, Add11Plus1At4, 0, 4);
    Add11Plus1Step4(m);
    Add11Plus1Step5(m);
    Add11Plus1Step6(m);
    Add11Plus1Step7(m);
    Chain4(m, Add11Plus1At4, Add11Plus1At5, Add11Plus1At6, Add11Plus1At7, Add11Plus1At8);
    ReachTrans(m, Add11Plus1At0, Add11Plus1At4, Add11Plus1At8, 4, 4);
    Add11Plus1Step8(m);
    Add11Plus1Step9(m);
    Add11Plus1Step10(m);
    Add11Plus1Step11(m);
    Chain4(m, Add11Plus1At8, Add11Plus1At9, Add11Plus1At10, Add11Plus1At11, Add11Plus1At12);
    ReachTrans(m, Add11Plus1At0, Add11Plus1At8, Add11Plus1At12, 8, 4);
    Add11Plus1Step12(m);
    Add11Plus1Step13(m);
    Add11Plus1Step14(m);
    Add11Plus1Step15(m);
    Chain4(m, Add11Plus1At12, Add11Plus1At13, Add11Plus1At14, Add11Plus1At15, Add11Plus1At16);
    ReachTrans(m, Add11Plus1At0, Add11Plus1At12, Add11Plus1At16, 12, 4);
  }

  lemma Add11Plus1Stage1(m: Machine)
    requires AddLike(m)
    ensures Reach(m, Add11Plus1At16, Add11Plus1At19, 3)
  {
    ReachRefl(m, Add11Plus1At16);
    Add11Plus1Step16(m);
    Add11Plus1Step17(m);
    Add11Plus1Step18(m);
    Chain3(m, Add11Plus1At16, Add11Plus1At17, Add11Plus1At18, Add11Plus1At19);
    ReachTrans(m, Add11Plus1At16, Add11Plus1At16, Add11Plus1At19, 0, 3);
  }

  lemma Add11Plus1Reach(m: Machine)
    requires AddLike(m)
    ensures Reach(m, Init(m, "11+1"), Add11Plus1At19, 19)
  {
    assert Init(m, "11+1") == Add11Plus1At0;
    ReachRefl(m, Add11Plus1At0);
    Add11Plus1Stage0(m);
    ReachTrans(m, Add11Plus1At0, Add11Plus1At0, Add11Plus1At16, 0, 16);
    Add11Plus1Stage1(m);
    ReachTrans(m, Add11Plus1At0, Add11Plus1At16, Add11Plus1At19, 16, 3);
  }

  lemma Add11Plus1Output()
    ensures Add11Plus1At19.state == "done"
    ensures Strip(Add11Plus1At19.memory) == "100 1"
  {
    StripSurrounded(Add11Plus1At19.memory, 9, "100 1");
  }

  /** The machine on "11+1" halts after 19 steps, accepted, with output
      "100 1"; any larger step budget gives the same outcome. */
  lemma Add11Plus1(fuel: nat)
    requires fuel >= 19
    ensures Run(AddMachine(), "11+1", fuel).Done?
    ensures Run(AddMachine(), "11+1", fuel).output == "100 1"
    ensures Run(AddMachine(), "11+1", fuel).accepted
    ensures |Run(AddMachine(), "11+1", fuel).history| == 19
  {
    AddLikeHolds();
    Add11Plus1Reach(AddMachine());
    Add11Plus1Output();
    ReachRun(AddMachine(), "11+1", Add11Plus1At19, 19, fuel);
  }

  const Add1011Plus11001At0: Config := Config("          1011+11001          ", "          1011+11001          ", 0, "right", '1')

  const Add1011Plus11001At1: Config := Config("          1011+11001          ", "          1011+11001          ", 1, "right", '0')

  const Add1011Plus11001At2: Config := Config("          1011+11001          ", "          1011+11001          ", 2, "right", '1')

  const Add1011Plus11001At3: Config := Config("          1011+11001          ", "          1011+11001          ", 3, "right", '1')

  const Add1011Plus11001At4: Config := Config("          1011+11001          ", "          1011+11001          ", 4, "right", '+')

  const Add1011Plus11001At5: Config := Config("          1011+11001          ", "          1011+11001          ", 5, "right", '1')

  const Add1011Plus11001At6: Config := Config("          1011+11001          ", "          1011+11001          ", 6, "right", '1')

  const Add1011Plus11001At7: Config := Config("          1011+11001          ", "          1011+11001          ", 7, "right", '0')

  const Add1011Plus11001At8: Config := Config("          1011+11001          ", "          1011+11001          ", 8, "right", '0')

  const Add1011Plus11001At9: Config := Config("          1011+11001          ", "          1011+11001          ", 9, "right", '1')

  const Add1011Plus11001At10: Config := Config("          1011+11001          ", "          1011+11001          ", 10, "right", ' ')

  const Add1011Plus11001At11: Config := Config("          1011+11001          ", "          1011+11001          ", 9, "read", '1')

  const Add1011Plus11001At12: Config := Config("          1011+1100c          ", "          1011+1100c          ", 8, "have1", '0')

  const Add1011Plus11001At13: Config := Config("          1011+1100c          ", "          1011+1100c          ", 7, "have1", '0')

  const Add1011Plus11001At14: Config := Config("          1011+1100c          ", "          1011+1100c          ", 6, "have1", '1')

  const Add1011Plus11001At15: Config := Config("          1011+1100c          ", "          1011+1100c          ", 5, "have1", '1')

  const Add1011Plus11001At16: Config := Config("          1011+1100c          ", "          1011+1100c          ", 4, "have1", '+')

  const Add1011Plus11001At17: Config := Config("          1011+1100c          ", "          1011+1100c          ", 3, "add1", '1')

  const Add1011Plus11001At18: Config := Config("          101O+1100c          ", "          101O+1100c          ", 2, "carry", '1')

  const Add1011Plus11001At19: Config := Config("          100O+1100c          ", "          100O+1100c          ", 1, "carry", '0')

  const Add1011Plus11001At20: Config := Config("          110O+1100c          ", "          110O+1100c          ", 2, "back1", '0')

  const Add1011Plus11001At21: Config := Config("          110O+1100c          ", "          110O+1100c          ", 3, "back1", 'O')

  const Add1011Plus11001At22: Config := Config("          110O+1100c          ", "          110O+1100c          ", 4, "back1", '+')

  const Add1011Plus11001At23: Config := Config("          110O+1100c          ", "          110O+1100c          ", 5, "back1", '1')

  const Add1011Plus11001At24: Config := Config("          110O+1100c          ", "          110O+1100c          ", 6, "back1", '1')

  const Add1011Plus11001At25: Config := Config("          110O+1100c          ", "          110O+1100c          ", 7, "back1", '0')

  const Add1011Plus11001At26: Config := Config("          110O+1100c          ", "          110O+1100c          ", 8, "back1", '0')

  const Add1011Plus11001At27: Config := Config("          110O+1100c          ", "          110O+1100c          ", 9, "back1", 'c')

  const Add1011Plus11001At28: Config := Config("          110O+11001          ", "          110O+11001          ", 8, "read", '0')

  const Add1011Plus11001At29: Config := Config("          110O+110c1          ", "          110O+110c1          ", 7, "have0", '0')

  const Add1011Plus11001At30: Config := Config("          110O+110c1          ", "          110O+110c1          ", 6, "have0", '1')

  const Add1011Plus11001At31: Config := Config("          110O+110c1          ", "          110O+110c1          ", 5, "have0", '1')

  const Add1011Plus11001At32: Config := Config("          110O+110c1          ", "          110O+110c1          ", 4, "have0", '+')

  const Add1011Plus11001At33: Config := Config("          110O+110c1          ", "          110O+110c1          ", 3, "add0", 'O')

  const Add1011Plus11001At34: Config := Config("          110O+110c1          ", "          110O+110c1          ", 2, "add0", '0')

  const Add1011Plus11001At35: Config := Config("          11OO+110c1          ", "          11OO+110c1          ", 3, "back0", 'O')

  const Add1011Plus11001At36: Config := Config("          11OO+110c1          ", "          11OO+110c1          ", 4, "back0", '+')

  const Add1011Plus11001At37: Config := Config("          11OO+110c1          ", "          11OO+110c1          ", 5, "back0", '1')

  const Add1011Plus11001At38: Config := Config("          11OO+110c1          ", "          11OO+110c1          ", 6, "back0", '1')

  const Add1011Plus11001At39: Config := Config("          11OO+110c1          ", "          11OO+110c1          ", 7, "back0", '0')

  const Add1011Plus11001At40: Config := Config("          11OO+110c1          ", "          11OO+110c1          ", 8, "back0", 'c')

  const Add1011Plus11001At41: Config := Config("          11OO+11001          ", "          11OO+11001          ", 7, "read", '0')

  const Add1011Plus11001At42: Config := Config("          11OO+11c01          ", "          11OO+11c01          ", 6, "have0", '1')

  const Add1011Plus11001At43: Config := Config("          11OO+11c01          ", "          11OO+11c01          ", 5, "have0", '1')

  const Add1011Plus11001At44: Config := Config("          11OO+11c01          ", "          11OO+11c01          ", 4, "have0", '+')

  const Add1011Plus11001At45: Config := Config("          11OO+11c01          ", "          11OO+11c01          ", 3, "add0", 'O')

  const Add1011Plus11001At46: Config := Config("          11OO+11c01          ", "          11OO+11c01          ", 2, "add0", 'O')

  const Add1011Plus11001At47: Config := Config("          11OO+11c01          ", "          11OO+11c01          ", 1, "add0", '1')

  const Add1011Plus11001At48: Config := Config("          1IOO+11c01          ", "          1IOO+11c01          ", 2, "back0", 'O')

  const Add1011Plus11001At49: Config := Config("          1IOO+11c01          ", "          1IOO+11c01          ", 3, "back0", 'O')

  const Add1011Plus11001At50: Config := Config("          1IOO+11c01          ", "          1IOO+11c01          ", 4, "back0", '+')

  const Add1011Plus11001At51: Config := Config("          1IOO+11c01          ", "          1IOO+11c01          ", 5, "back0", '1')

  const Add1011Plus11001At52: Config := Config("          1IOO+11c01          ", "          1IOO+11c01          ", 6, "back0", '1')

  const Add1011Plus11001At53: Config := Config("          1IOO+11c01          ", "          1IOO+11c01          ", 7, "back0", 'c')

  const Add1011Plus11001At54: Config := Config("          1IOO+11001          ", "          1IOO+11001          ", 6, "read", '1')

  const Add1011Plus11001At55: Config := Config("          1IOO+1c001          ", "          1IOO+1c001          ", 5, "have1", '1')

  const Add1011Plus11001At56: Config := Config("          1IOO+1c001          ", "          1IOO+1c001          ", 4, "have1", '+')

  const Add1011Plus11001At57: Config := Config("          1IOO+1c001          ", "          1IOO+1c001          ", 3, "add1", 'O')

  const Add1011Plus11001At58: Config := Config("          1IOO+1c001          ", "          1IOO+1c001          ", 2, "add1", 'O')

  const Add1011Plus11001At59: Config := Config("          1IOO+1c001          ", "          1IOO+1c001          ", 1, "add1", 'I')

  const Add1011Plus11001At60: Config := Config("          1IOO+1c001          ", "          1IOO+1c001          ", 0, "add1", '1')

  const Add1011Plus11001At61: Config := Config("          OIOO+1c001          ", "          OIOO+1c001          ", -1, "carry", ' ')

  const Add1011Plus11001At62: Config := Config("         1OIOO+1c001          ", "         1OIOO+1c001          ", 0, "back1", 'O')

  const Add1011Plus11001At63: Config := Config("         1OIOO+1c001          ", "         1OIOO+1c001          ", 1, "back1", 'I')

  const Add1011Plus11001At64: Config := Config("         1OIOO+1c001          ", "         1OIOO+1c001          ", 2, "back1", 'O')

  const Add1011Plus11001At65: Config := Config("         1OIOO+1c001          ", "         1OIOO+1c001          ", 3, "back1", 'O')

  const Add1011Plus11001At66: Config := Config("         1OIOO+1c001          ", "         1OIOO+1c001          ", 4, "back1", '+')

  const Add1011Plus11001At67: Config := Config("         1OIOO+1c001          ", "         1OIOO+1c001          ", 5, "back1", '1')

  const Add1011Plus11001At68: Config := Config("         1OIOO+1c001          ", "         1OIOO+1c001          ", 6, "back1", 'c')

  const Add1011Plus11001At69: Config := Config("         1OIOO+11001          ", "         1OIOO+11001          ", 5, "read", '1')

  const Add1011Plus11001At70: Config := Config("         1OIOO+c1001          ", "         1OIOO+c1001          ", 4, "have1", '+')

  const Add1011Plus11001At71: Config := Config("         1OIOO+c1001          ", "         1OIOO+c1001          ", 3, "add1", 'O')

  const Add1011Plus11001At72: Config := Config("         1OIOO+c1001          ", "         1OIOO+c1001          ", 2, "add1", 'O')

  const Add1011Plus11001At73: Config := Config("         1OIOO+c1001          ", "         1OIOO+c1001          ", 1, "add1", 'I')

  const Add1011Plus11001At74: Config := Config("         1OIOO+c1001          ", "         1OIOO+c1001          ", 0, "add1", 'O')

  const Add1011Plus11001At75: Config := Config("         1OIOO+c1001          ", "         1OIOO+c1001          ", -1, "add1", '1')

  const Add1011Plus11001At76: Config := Config("         OOIOO+c1001          ", "         OOIOO+c1001          ", -2, "carry", ' ')

  const Add1011Plus11001At77: Config := Config("        1OOIOO+c1001          ", "        1OOIOO+c1001          ", -1, "back1", 'O')

  const Add1011Plus11001At78: Config := Config("        1OOIOO+c1001          ", "        1OOIOO+c1001          ", 0, "back1", 'O')

  const Add1011Plus11001At79: Config := Config("        1OOIOO+c1001          ", "        1OOIOO+c1001          ", 1, "back1", 'I')

  const Add1011Plus11001At80: Config := Config("        1OOIOO+c1001          ", "        1OOIOO+c1001          ", 2, "back1", 'O')

  const Add1011Plus11001At81: Config := Config("        1OOIOO+c1001          ", "        1OOIOO+c1001          ", 3, "back1", 'O')

  const Add1011Plus11001At82: Config := Config("        1OOIOO+c1001          ", "        1OOIOO+c1001          ", 4, "back1", '+')

  const Add1011Plus11001At83: Config := Config("        1OOIOO+c1001          ", "        1OOIOO+c1001          ", 5, "back1", 'c')

  const Add1011Plus11001At84: Config := Config("        1OOIOO+11001          ", "        1OOIOO+11001          ", 4, "read", '+')

  const Add1011Plus11001At85: Config := Config("        1OOIOO 11001          ", "        1OOIOO 11001          ", 3, "rewrite", 'O')

  const Add1011Plus11001At86: Config := Config("        1OOIO0 11001          ", "        1OOIO0 11001          ", 2, "rewrite", 'O')

  const Add1011Plus11001At87: Config := Config("        1OOI00 11001          ", "        1OOI00 11001          ", 1, "rewrite", 'I')

  const Add1011Plus11001At88: Config := Config("        1OO100 11001          ", "        1OO100 11001          ", 0, "rewrite", 'O')

  const Add1011Plus11001At89: Config := Config("        1O0100 11001          ", "        1O0100 11001          ", -1, "rewrite", 'O')

  const Add1011Plus11001At90: Config := Config("        100100 11001          ", "        100100 11001          ", -2, "rewrite", '1')

  const Add1011Plus11001At91: Config := Config("        100100 11001          ", "        100100 11001          ", -3, "rewrite", ' ')

  const Add1011Plus11001At92: Config := Config("        100100 11001          ", "        100100 11001          ", -2, "done", '1')

  lemma Add1011Plus11001Step0(m: Machine)
    requires m.finals == {"done"}
    requires Lookup(m, "right", '1') == Some(Move(R))
    ensures Leads(m, Add1011Plus11001At0, Add1011Plus11001At1)
  {
  }

  lemma Add1011Plus11001Step1(m: Machine)
    requires m.finals == {"done"}
    requires Lookup(m, "right", '0') == Some(Move(R))
    ensures Leads(m, Add1011Plus11001At1, Add1011Plus11001At2)
  {
  }

  lemma Add1011Plus11001Step2(m: Machine)
    requires m.finals == {"done"}
    requires Lookup(m, "right", '1') == Some(Move(R))
    ensures Leads(m, Add1011Plus11001At2, Add1011Plus11001At3)
  {
  }

  lemma Add1011Plus11001Step3(m: Machine)
    requires m.finals == {"done"}
    requires Lookup(m, "right", '1') == Some(Move(R))
    ensures Leads(m, Add1011Plus11001At3, Add1011Plus11001At4)
  {
  }

  lemma Add1011Plus11001Step4(m: Machine)
    requires m.finals == {"done"}
    requires Lookup(m, "right", '+') == Some(Move(R))
    ensures Leads(m, Add1011Plus11001At4, Add1011Plus11001At5)
  {
  }

  lemma Add1011Plus11001Step5(m: Machine)
    requires m.finals == {"done"}
    requires Lookup(m, "right", '1') == Some(Move(R))
    ensures Leads(m, Add1011Plus11001At5, Add1011Plus11001At6)
  {
  }

  lemma Add1011Plus11001Step6(m: Machine)
    requires m.finals == {"done"}
    requires Lookup(m, "right", '1') == Some(Move(R))
    ensures Leads(m, Add1011Plus11001At6, Add1011Plus11001At7)
  {
  }

  lemma Add1011Plus11001Step7(m: Machine)
    requires m.finals == {"done"}
    requires Lookup(m, "right", '0') == Some(Move(R))
    ensures Leads(m, Add1011Plus11001At7, Add1011Plus11001At8)
  {
  }

  lemma Add1011Plus11001Step8(m: Machine)
    requires m.finals == {"done"}
    requires Lookup(m, "right", '0') == Some(Move(R))
    ensures Leads(m, Add1011Plus11001At8, Add1011Plus11001At9)
  {
  }

  lemma Add1011Plus11001Step9(m: Machine)
    requires m.finals == {"done"}
    requires Lookup(m, "right", '1') == Some(Move(R))
    ensures Leads(m, Add1011Plus11001At9, Add1011Plus11001At10)
  {
  }

  lemma Add1011Plus11001Step10(m: Machine)
    requires m.finals == {"done"}
    requires Lookup(m, "right", ' ') == Some(Go(L, "read"))
    ensures Leads(m, Add1011Plus11001At10, Add1011Plus11001At11)
  {
  }

  lemma Add1011Plus11001Step11(m: Machine)
    requires m.finals == {"done"}
    requires Lookup(m, "read", '1') == Some(W('c', L, "have1"))
    ensures Leads(m, Add1011Plus11001At11, Add1011Plus11001At12)
  {
  }

  lemma Add1011Plus11001Step12(m: Machine)
    requires m.finals == {"done"}
    requires Lookup(m, "have1", '0') == Some(Move(L))
    ensures Leads(m, Add1011Plus11001At12, Add1011Plus11001At13)
  {
  }

  lemma Add1011Plus11001Step13(m: Machine)
    requires m.finals == {"done"}
    requires Lookup(m, "have1", '0') == Some(Move(L))
    ensures Leads(m, Add1011Plus11001At13, Add1011Plus11001At14)
  {
  }

  lemma Add1011Plus11001Step14(m: Machine)
    requires m.finals == {"done"}
    requires Lookup(m, "have1", '1') == Some(Move(L))
    ensures Leads(m, Add1011Plus11001At14, Add1011Plus11001At15)
  {
  }

  lemma Add1011Plus11001Step15(m: Machine)
    requires m.finals == {"done"}
    requires Lookup(m, "have1", '1') == Some(Move(L))
    ensures Leads(m, Add1011Plus11001At15, Add1011Plus11001At16)
  {
  }

  lemma Add1011Plus11001Step16(m: Machine)
    requires m.finals == {"done"}
    requires Lookup(m, "have1", '+') == Some(Go(L, "add1"))
    ensures Leads(m, Add1011Plus11001At16, Add1011Plus11001At17)
  {
  }

  lemma Add1011Plus11001Step17(m: Machine)
    requires m.finals == {"done"}
    requires Lookup(m, "add1", '1') == Some(W('O', L, "carry"))
    ensures Leads(m, Add1011Plus11001At17, Add1011Plus11001At18)
  {
  }

  lemma Add1011Plus11001Step18(m: Machine)
    requires m.finals == {"done"}
    requires Lookup(m, "carry", '1') == Some(W('0', L, "carry"))
    ensures Leads(m, Add1011Plus11001At18, Add1011Plus11001At19)
  {
  }

  lemma Add1011Plus11001Step19(m: Machine)
    requires m.finals == {"done"}
    requires Lookup(m, "carry", '0') == Some(W('1', R, "back1"))
    ensures Leads(m, Add1011Plus11001At19, Add1011Plus11001At20)
  {
  }

  lemma Add1011Plus11001Step20(m: Machine)
    requires m.finals == {"done"}
    requires Lookup(m, "back1", '0') == Some(Move(R))
    ensures Leads(m, Add1011Plus11001At20, Add1011Plus11001At21)
  {
  }

  lemma Add1011Plus11001Step21(m: Machine)
    requires m.finals == {"done"}
    requires Lookup(m, "back1", 'O') == Some(Move(R))
    ensures Leads(m, Add1011Plus11001At21, Add1011Plus11001At22)
  {
  }

  lemma Add1011Plus11001Step22(m: Machine)
    requires m.finals == {"done"}
    requires Lookup(m, "back1", '+') == Some(Move(R))
    ensures Leads(m, Add1011Plus11001At22, Add1011Plus11001At23)
  {
  }

  lemma Add1011Plus11001Step23(m: Machine)
    requires m.finals == {"done"}
    requires Lookup(m, "back1", '1') == Some(Move(R))
    ensures Leads(m, Add1011Plus11001At23, Add1011Plus11001At24)
  {
  }

  lemma Add1011Plus11001Step24(m: Machine)
    requires m.finals == {"done"}
    requires Lookup(m, "back1", '1') == Some(Move(R))
    ensures Leads(m, Add1011Plus11001At24, Add1011Plus11001At25)
  {
  }

  lemma Add1011Plus11001Step25(m: Machine)
    requires m.finals == {"done"}
    requires Lookup(m, "back1", '0') == Some(Move(R))
    ensures Leads(m, Add1011Plus11001At25, Add1011Plus11001At26)
  {
  }

  lemma Add1011Plus11001Step26(m: Machine)
    requires m.finals == {"done"}
    requires Lookup(m, "back1", '0') == Some(Move(R))
    ensures Leads(m, Add1011Plus11001At26, Add1011Plus11001At27)
  {
  }

  lemma Add1011Plus11001Step27(m: Machine)
    requires m.finals == {"done"}
    requires Lookup(m, "back1", 'c') == Some(W('1', L, "read"))
    ensures Leads(m, Add1011Plus11001At27, Add1011Plus11001At28)
  {
  }

  lemma Add1011Plus11001Step28(m: Machine)
    requires m.finals == {"done"}
    requires Lookup(m, "read", '0') == Some(W('c', L, "have0"))
    ensures Leads(m, Add1011Plus11001At28, Add1011Plus11001At29)
  {
  }

  lemma Add1011Plus11001Step29(m: Machine)
    requires m.finals == {"done"}
    requires Lookup(m, "have0", '0') == Some(Move(L))
    ensures Leads(m, Add1011Plus11001At29, Add1011Plus11001At30)
  {
  }

  lemma Add1011Plus11001Step30(m: Machine)
    requires m.finals == {"done"}
    requires Lookup(m, "have0", '1') == Some(Move(L))
    ensures Leads(m, Add1011Plus11001At30, Add1011Plus11001At31)
  {
  }

  lemma Add1011Plus11001Step31(m: Machine)
    requires m.finals == {"done"}
    requires Lookup(m, "have0", '1') == Some(Move(L))
    ensures Leads(m, Add1011Plus11001At31, Add1011Plus11001At32)
  {
  }

  lemma Add1011Plus11001Step32(m: Machine)
    requires m.finals == {"done"}
    requires Lookup(m, "have0", '+') == Some(Go(L, "add0"))
    ensures Leads(m, Add1011Plus11001At32, Add1011Plus11001At33)
  {
  }

  lemma Add1011Plus11001Step33(m: Machine)
    requires m.finals == {"done"}
    requires Lookup(m, "add0", 'O') == Some(Move(L))
    ensures Leads(m, Add1011Plus11001At33, Add1011Plus11001At34)
  {
  }

  lemma Add1011Plus11001Step34(m: Machine)
    requires m.finals == {"done"}
    requires Lookup(m, "add0", '0') == Some(W('O', R, "back0"))
    ensures Leads(m, Add1011Plus11001At34, Add1011Plus11001At35)
  {
  }

  lemma Add1011Plus11001Step35(m: Machine)
    requires m.finals == {"done"}
    requires Lookup(m, "back0", 'O') == Some(Move(R))
    ensures Leads(m, Add1011Plus11001At35, Add1011Plus11001At36)
  {
  }

  lemma Add1011Plus11001Step36(m: Machine)
    requires m.finals == {"done"}
    requires Lookup(m, "back0", '+') == Some(Move(R))
    ensures Leads(m, Add1011Plus11001At36, Add1011Plus11001At37)
  {
  }

  lemma Add1011Plus11001Step37(m: Machine)
    requires m.finals == {"done"}
    requires Lookup(m, "back0", '1') == Some(Move(R))
    ensures Leads(m, Add1011Plus11001At37, Add1011Plus11001At38)
  {
  }

  lemma Add1011Plus11001Step38(m: Machine)
    requires m.finals == {"done"}
    requires Lookup(m, "back0", '1') == Some(Move(R))
    ensures Leads(m, Add1011Plus11001At38, Add1011Plus11001At39)
  {
  }

  lemma Add1011Plus11001Step39(m: Machine)
    requires m.finals == {"done"}
    requires Lookup(m, "back0", '0') == Some(Move(R))
    ensures Leads(m, Add1011Plus11001At39, Add1011Plus11001At40)
  {
  }

  lemma Add1011Plus11001Step40(m: Machine)
    requires m.finals == {"done"}
    requires Lookup(m, "back0", 'c') == Some(W('0', L, "read"))
    ensures Leads(m, Add1011Plus11001At40, Add1011Plus11001At41)
  {
  }

  lemma Add1011Plus11001Step41(m: Machine)
    requires m.finals == {"done"}
    requires Lookup(m, "read", '0') == Some(W('c', L, "have0"))
    ensures Leads(m, Add1011Plus11001At41, Add1011Plus11001At42)
  {
  }

  lemma Add1011Plus11001Step42(m: Machine)
    requires m.finals == {"done"}
    requires Lookup(m, "have0", '1') == Some(Move(L))
    ensures Leads(m, Add1011Plus11001At42, Add1011Plus11001At43)
  {
  }

  lemma Add1011Plus11001Step43(m: Machine)
    requires m.finals == {"done"}
    requires Lookup(m, "have0", '1') == Some(Move(L))
    ensures Leads(m, Add1011Plus11001At43, Add1011Plus11001At44)
  {
  }

  lemma Add1011Plus11001Step44(m: Machine)
    requires m.finals == {"done"}
    requires Lookup(m, "have0", '+') == Some(Go(L, "add0"))
    ensures Leads(m, Add1011Plus11001At44, Add1011Plus11001At45)
  {
  }

  lemma Add1011Plus11001Step45(m: Machine)
    requires m.finals == {"done"}
    requires Lookup(m, "add0", 'O') == Some(Move(L))
    ensures Leads(m, Add1011Plus11001At45, Add1011Plus11001At46)
  {
  }

  lemma Add1011Plus11001Step46(m: Machine)
    requires m.finals == {"done"}
    requires Lookup(m, "add0", 'O') == Some(Move(L))
    ensures Leads(m, Add1011Plus11001At46, Add1011Plus11001At47)
  {
  }

  lemma Add1011Plus11001Step47(m: Machine)
    requires m.finals == {"done"}
    requires Lookup(m, "add0", '1') == Some(W('I', R, "back0"))
    ensures Leads(m, Add1011Plus11001At47, Add1011Plus11001At48)
  {
  }

  lemma Add1011Plus11001Step48(m: Machine)
    requires m.finals == {"done"}
    requires Lookup(m, "back0", 'O') == Some(Move(R))
    ensures Leads(m, Add1011Plus11001At48, Add1011Plus11001At49)
  {
  }

  lemma Add1011Plus11001Step49(m: Machine)
    requires m.finals == {"done"}
    requires Lookup(m, "back0", 'O') == Some(Move(R))
    ensures Leads(m, Add1011Plus11001At49, Add1011Plus11001At50)
  {
  }

  lemma Add1011Plus11001Step50(m: Machine)
    requires m.finals == {"done"}
    requires Lookup(m, "back0", '+') == Some(Move(R))
    ensures Leads(m, Add1011Plus11001At50, Add1011Plus11001At51)
  {
  }

  lemma Add1011Plus11001Step51(m: Machine)
    requires m.finals == {"done"}
    requires Lookup(m, "back0", '1') == Some(Move(R))
    ensures Leads(m, Add1011Plus11001At51, Add1011Plus11001At52)
  {
  }

  lemma Add1011Plus11001Step52(m: Machine)
    requires m.finals == {"done"}
    requires Lookup(m, "back0", '1') == Some(Move(R))
    ensures Leads(m, Add1011Plus11001At52, Add1011Plus11001At53)
  {
  }

  lemma Add1011Plus11001Step53(m: Machine)
    requires m.finals == {"done"}
    requires Lookup(m, "back0", 'c') == Some(W('0', L, "read"))
    ensures Leads(m, Add1011Plus11001At53, Add1011Plus11001At54)
  {
  }

  lemma Add1011Plus11001Step54(m: Machine)
    requires m.finals == {"done"}
    requires Lookup(m, "read", '1') == Some(W('c', L, "have1"))
    ensures Leads(m, Add1011Plus11001At54, Add1011Plus11001At55)
  {
  }

  lemma Add1011Plus11001Step55(m: Machine)
    requires m.finals == {"done"}
    requires Lookup(m, "have1", '1') == Some(Move(L))
    ensures Leads(m, Add1011Plus11001At55, Add1011Plus11001At56)
  {
  }

  lemma Add1011Plus11001Step56(m: Machine)
    requires m.finals == {"done"}
    requires Lookup(m, "have1", '+') == Some(Go(L, "add1"))
    ensures Leads(m, Add1011Plus11001At56, Add1011Plus11001At57)
  {
  }

  lemma Add1011Plus11001Step57(m: Machine)
    requires m.finals == {"done"}
    requires Lookup(m, "add1", 'O') == Some(Move(L))
    ensures Leads(m, Add1011Plus11001At57, Add1011Plus11001At58)
  {
  }

  lemma Add1011Plus11001Step58(m: Machine)
    requires m.finals == {"done"}
    requires Lookup(m, "add1", 'O') == Some(Move(L))
    ensures Leads(m, Add1011Plus11001At58, Add1011Plus11001At59)
  {
  }

  lemma Add1011Plus11001Step59(m: Machine)
    requires m.finals == {"done"}
    requires Lookup(m, "add1", 'I') == Some(Move(L))
    ensures Leads(m, Add1011Plus11001At59, Add1011Plus11001At60)
  {
  }

  lemma Add1011Plus11001Step60(m: Machine)
    requires m.finals == {"done"}
    requires Lookup(m, "add1", '1') == Some(W('O', L, "carry"))
    ensures Leads(m, Add1011Plus11001At60, Add1011Plus11001At61)
  {
  }

  lemma Add1011Plus11001Step61(m: Machine)
    requires m.finals == {"done"}
    requires Lookup(m, "carry", ' ') == Some(W('1', R, "back1"))
    ensures Leads(m, Add1011Plus11001At61, Add1011Plus11001At62)
  {
  }

  lemma Add1011Plus11001Step62(m: Machine)
    requires m.finals == {"done"}
    requires Lookup(m, "back1", 'O') == Some(Move(R))
    ensures Leads(m, Add1011Plus11001At62, Add1011Plus11001At63)
  {
  }

  lemma Add1011Plus11001Step63(m: Machine)
    requires m.finals == {"done"}
    requires Lookup(m, "back1", 'I') == Some(Move(R))
    ensures Leads(m, Add1011Plus11001At63, Add1011Plus11001At64)
  {
  }

  lemma Add1011Plus11001Step64(m: Machine)
    requires m.finals == {"done"}
    requires Lookup(m, "back1", 'O') == Some(Move(R))
    ensures Leads(m, Add1011Plus11001At64, Add1011Plus11001At65)
  {
  }

  lemma Add1011Plus11001Step65(m: Machine)
    requires m.finals == {"done"}
    requires Lookup(m, "back1", 'O') == Some(Move(R))
    ensures Leads(m, Add1011Plus11001At65, Add1011Plus11001At66)
  {
  }

  lemma Add1011Plus11001Step66(m: Machine)
    requires m.finals == {"done"}
    requires Lookup(m, "back1", '+') == Some(Move(R))
    ensures Leads(m, Add1011Plus11001At66, Add1011Plus11001At67)
  {
  }

  lemma Add1011Plus11001Step67(m: Machine)
    requires m.finals == {"done"}
    requires Lookup(m, "back1", '1') == Some(Move(R))
    ensures Leads(m, Add1011Plus11001At67, Add1011Plus11001At68)
  {
  }

  lemma Add1011Plus11001Step68(m: Machine)
    requires m.finals == {"done"}
    requires Lookup(m, "back1", 'c') == Some(W('1', L, "read"))
    ensures Leads(m, Add1011Plus11001At68, Add1011Plus11001At69)
  {
  }

  lemma Add1011Plus11001Step69(m: Machine)
    requires m.finals == {"done"}
    requires Lookup(m, "read", '1') == Some(W('c', L, "have1"))
    ensures Leads(m, Add1011Plus11001At69, Add1011Plus11001At70)
  {
  }

  lemma Add1011Plus11001Step70(m: Machine)
    requires m.finals == {"done"}
    requires Lookup(m, "have1", '+') == Some(Go(L, "add1"))
    ensures Leads(m, Add1011Plus11001At70, Add1011Plus11001At71)
  {
  }

  lemma Add1011Plus11001Step71(m: Machine)
    requires m.finals == {"done"}
    requires Lookup(m, "add1", 'O') == Some(Move(L))
    ensures Leads(m, Add1011Plus11001At71, Add1011Plus11001At72)
  {
  }

  lemma Add1011Plus11001Step72(m: Machine)
    requires m.finals == {"done"}
    requires Lookup(m, "add1", 'O') == Some(Move(L))
    ensures Leads(m, Add1011Plus11001At72, Add1011Plus11001At73)
  {
  }

  lemma Add1011Plus11001Step73(m: Machine)
    requires m.finals == {"done"}
    requires Lookup(m, "add1", 'I') == Some(Move(L))
    ensures Leads(m, Add1011Plus11001At73, Add1011Plus11001At74)
  {
  }

  lemma Add1011Plus11001Step74(m: Machine)
    requires m.finals == {"done"}
    requires Lookup(m, "add1", 'O') == Some(Move(L))
    ensures Leads(m, Add1011Plus11001At74, Add1011Plus11001At75)
  {
  }

  lemma Add1011Plus11001Step75(m: Machine)
    requires m.finals == {"done"}
    requires Lookup(m, "add1", '1') == Some(W('O', L, "carry"))
    ensures Leads(m, Add1011Plus11001At75, Add1011Plus11001At76)
  {
  }

  lemma Add1011Plus11001Step76(m: Machine)
    requires m.finals == {"done"}
    requires Lookup(m, "carry", ' ') == Some(W('1', R, "back1"))
    ensures Leads(m, Add1011Plus11001At76, Add1011Plus11001At77)
  {
  }

  lemma Add1011Plus11001Step77(m: Machine)
    requires m.finals == {"done"}
    requires Lookup(m, "back1", 'O') == Some(Move(R))
    ensures Leads(m, Add1011Plus11001At77, Add1011Plus11001At78)
  {
  }

  lemma Add1011Plus11001Step78(m: Machine)
    requires m.finals == {"done"}
    requires Lookup(m, "back1", 'O') == Some(Move(R))
    ensures Leads(m, Add1011Plus11001At78, Add1011Plus11001At79)
  {
  }

  lemma Add1011Plus11001Step79(m: Machine)
    requires m.finals == {"done"}
    requires Lookup(m, "back1", 'I') == Some(Move(R))
    ensures Leads(m, Add1011Plus11001At79, Add1011Plus11001At80)
  {
  }

  lemma Add1011Plus11001Step80(m: Machine)
    requires m.finals == {"done"}
    requires Lookup(m, "back1", 'O') == Some(Move(R))
    ensures Leads(m, Add1011Plus11001At80, Add1011Plus11001At81)
  {
  }

  lemma Add1011Plus11001Step81(m: Machine)
    requires m.finals == {"done"}
    requires Lookup(m, "back1", 'O') == Some(Move(R))
    ensures Leads(m, Add1011Plus11001At81, Add1011Plus11001At82)
  {
  }

  lemma Add1011Plus11001Step82(m: Machine)
    requires m.finals == {"done"}
    requires Lookup(m, "back1", '+') == Some(Move(R))
    ensures Leads(m, Add1011Plus11001At82, Add1011Plus11001At83)
  {
  }

  lemma Add1011Plus11001Step83(m: Machine)
    requires m.finals == {"done"}
    requires Lookup(m, "back1", 'c') == Some(W('1', L, "read"))
    ensures Leads(m, Add1011Plus11001At83, Add1011Plus11001At84)
  {
  }

  lemma Add1011Plus11001Step84(m: Machine)
    requires m.finals == {"done"}
    requires Lookup(m, "read", '+') == Some(W(' ', L, "rewrite"))
    ensures Leads(m, Add1011Plus11001At84, Add1011Plus11001At85)
  {
  }

  lemma Add1011Plus11001Step85(m: Machine)
    requires m.finals == {"done"}
    requires Lookup(m, "rewrite", 'O') == Some(W('0', L, "rewrite"))
    ensures Leads(m, Add1011Plus11001At85, Add1011Plus11001At86)
  {
  }

  lemma Add1011Plus11001Step86(m: Machine)
    requires m.finals == {"done"}
    requires Lookup(m, "rewrite", 'O') == Some(W('0', L, "rewrite"))
    ensures Leads(m, Add1011Plus11001At86, Add1011Plus11001At87)
  {
  }

  lemma Add1011Plus11001Step87(m: Machine)
    requires m.finals == {"done"}
    requires Lookup(m, "rewrite", 'I') == Some(W('1', L, "rewrite"))
    ensures Leads(m, Add1011Plus11001At87, Add1011Plus11001At88)
  {
  }

  lemma Add1011Plus11001Step88(m: Machine)
    requires m.finals == {"done"}
    requires Lookup(m, "rewrite", 'O') == Some(W('0', L, "rewrite"))
    ensures Leads(m, Add1011Plus11001At88, Add1011Plus11001At89)
  {
  }

  lemma Add1011Plus11001Step89(m: Machine)
    requires m.finals == {"done"}
    requires Lookup(m, "rewrite", 'O') == Some(W('0', L, "rewrite"))
    ensures Leads(m, Add1011Plus11001At89, Add1011Plus11001At90)
  {
  }

  lemma Add1011Plus11001Step90(m: Machine)
    requires m.finals == {"done"}
    requires Lookup(m, "rewrite", '1') == Some(Move(L))
    ensures Leads(m, Add1011Plus11001At90, Add1011Plus11001At91)
  {
  }

  lemma Add1011Plus11001Step91(m: Machine)
    requires m.finals == {"done"}
    requires Lookup(m, "rewrite", ' ') == Some(Go(R, "done"))
    ensures Leads(m, Add1011Plus11001At91, Add1011Plus11001At92)
  {
  }

  lemma Add1011Plus11001Stage0(m: Machine)
    requires AddLike(m)
    ensures Reach(m, Add1011Plus11001At0, Add1011Plus11001At16, 16)
  {
    ReachRefl(m, Add1011Plus11001At0);
    Add1011Plus11001Step0(m);
    Add1011Plus11001Step1(m);
    Add1011Plus11001Step2(m);
    Add1011Plus11001Step3(m);
    Chain4(m, Add1011Plus11001At0, Add1011Plus11001At1, Add1011Plus11001At2, Add1011Plus11001At3, Add1011Plus11001At4);
    ReachTrans(m, Add1011Plus11001At0, Add1011Plus11001At0, Add1011Plus11001At4, 0, 4);
    Add1011Plus11001Step4(m);
    Add1011Plus11001Step5(m);
    Add1011Plus11001Step6(m);
    Add1011Plus11001Step7(m);
    Chain4(m, Add1011Plus11001At4, Add1011Plus11001At5, Add1011Plus11001At6, Add1011Plus11001At7, Add1011Plus11001At8);
    ReachTrans(m, Add1011Plus11001At0, Add1011Plus11001At4, Add1011Plus11001At8, 4, 4);
    Add1011Plus11001Step8(m);
    Add1011Plus11001Step9(m);
    Add1011Plus11001Step10(m);
    Add1011Plus11001Step11(m);
    Chain4(m, Add1011Plus11001At8, Add1011Plus11001At9, Add1011Plus11001At10, Add1011Plus11001At11, Add1011Plus11001At12);
    ReachTrans(m, Add1011Plus11001At0, Add1011Plus11001At8, Add1011Plus11001At12, 8, 4);
    Add1011Plus11001Step12(m);
    Add1011Plus11001Step13(m);
    Add1011Plus11001Step14(m);
    Add1011Plus11001Step15(m);
    Chain4(m, Add1011Plus11001At12, Add1011Plus11001At13, Add1011Plus11001At14, Add1011Plus11001At15, Add1011Plus11001At16);
    ReachTrans(m, Add1011Plus11001At0, Add1011Plus11001At12, Add1011Plus11001At16, 12, 4);
  }

  lemma Add1011Plus11001Stage1(m: Machine)
    requires AddLike(m)
    ensures Reach(m, Add1011Plus11001At16, Add1011Plus11001At32, 16)
  {
    ReachRefl(m, Add1011Plus11001At16);
    Add1011Plus11001Step16(m);
    Add1011Plus11001Step17(m);
    Add1011Plus11001Step18(m);
    Add1011Plus11001Step19(m);
    Chain4(m, Add1011Plus11001At16, Add1011Plus11001At17, Add1011Plus11001At18, Add1011Plus11001At19, Add1011Plus11001At20);
    ReachTrans(m, Add1011Plus11001At16, Add1011Plus11001At16, Add1011Plus11001At20, 0, 4);
    Add1011Plus11001Step20(m);
    Add1011Plus11001Step21(m);
    Add1011Plus11001Step22(m);
    Add1011Plus11001Step23(m);
    Chain4(m, Add1011Plus11001At20, Add1011Plus11001At21, Add1011Plus11001At22, Add1011Plus11001At23, Add1011Plus11001At24);
    ReachTrans(m, Add1011Plus11001At16, Add1011Plus11001At20, Add1011Plus11001At24, 4, 4);
    Add1011Plus11001Step24(m);
    Add1011Plus11001Step25(m);
    Add1011Plus11001Step26(m);
    Add1011Plus11001Step27(m);
    Chain4(m, Add1011Plus11001At24, Add1011Plus11001At25, Add1011Plus11001At26, Add1011Plus11001At27, Add1011Plus11001At28);
    ReachTrans(m, Add1011Plus11001At16, Add1011Plus11001At24, Add1011Plus11001At28, 8, 4);
    Add1011Plus11001Step28(m);
    Add1011Plus11001Step29(m);
    Add1011Plus11001Step30(m);
    Add1011Plus11001Step31(m);
    Chain4(m, Add1011Plus11001At28, Add1011Plus11001At29, Add1011Plus11001At30, Add1011Plus11001At31, Add1011Plus11001At32);
    ReachTrans(m, Add1011Plus11001At16, Add1011Plus11001At28, Add1011Plus11001At32, 12, 4);
  }

  lemma Add1011Plus11001Stage2(m: Machine)
    requires AddLike(m)
    ensures Reach(m, Add1011Plus11001At32, Add1011Plus11001At48, 16)
  {
    ReachRefl(m, Add1011Plus11001At32);
    Add1011Plus11001Step32(m);
    Add1011Plus11001Step33(m);
    Add1011Plus11001Step34(m);
    Add1011Plus11001Step35(m);
    Chain4(m, Add1011Plus11001At32, Add1011Plus11001At33, Add1011Plus11001At34, Add1011Plus11001At35, Add1011Plus11001At36);
    ReachTrans(m, Add1011Plus11001At32, Add1011Plus11001At32, Add1011Plus11001At36, 0, 4);
    Add1011Plus11001Step36(m);
    Add1011Plus11001Step37(m);
    Add1011Plus11001Step38(m);
    Add1011Plus11001Step39(m);
    Chain4(m, Add1011Plus11001At36, Add1011Plus11001At37, Add1011Plus11001At38, Add1011Plus11001At39, Add1011Plus11001At40);
    ReachTrans(m, Add1011Plus11001At32, Add1011Plus11001At36, Add1011Plus11001At40, 4, 4);
    Add1011Plus11001Step40(m);
    Add1011Plus11001Step41(m);
    Add1011Plus11001Step42(m);
    Add1011Plus11001Step43(m);
    Chain4(m, Add1011Plus11001At40, Add1011Plus11001At41, Add1011Plus11001At42, Add1011Plus11001At43, Add1011Plus11001At44);
    ReachTrans(m, Add1011Plus11001At32, Add1011Plus11001At40, Add1011Plus11001At44, 8, 4);
    Add1011Plus11001Step44(m);
    Add1011Plus11001Step45(m);
    Add1011Plus11001Step46(m);
    Add1011Plus11001Step47(m);
    Chain4(m, Add1011Plus11001At44, Add1011Plus11001At45, Add1011Plus11001At46, Add1011Plus11001At47, Add1011Plus11001At48);
    ReachTrans(m, Add1011Plus11001At32, Add1011Plus11001At44, Add1011Plus11001At48, 12, 4);
  }

  lemma Add1011Plus11001Stage3(m: Machine)
    requires AddLike(m)
    ensures Reach(m, Add1011Plus11001At48, Add1011Plus11001At64, 16)
  {
    ReachRefl(m, Add1011Plus11001At48);
    Add1011Plus11001Step48(m);
    Add1011Plus11001Step49(m);
    Add1011Plus11001Step50(m);
    Add1011Plus11001Step51(m);
    Chain4(m, Add1011Plus11001At48, Add1011Plus11001At49, Add1011Plus11001At50, Add1011Plus11001At51, Add1011Plus11001At52);
    ReachTrans(m, Add1011Plus11001At48, Add1011Plus11001At48, Add1011Plus11001At52, 0, 4);
    Add1011Plus11001Step52(m);
    Add1011Plus11001Step53(m);
    Add1011Plus11001Step54(m);
    Add1011Plus11001Step55(m);
    Chain4(m, Add1011Plus11001At52, Add1011Plus11001At53, Add1011Plus11001At54, Add1011Plus11001At55, Add1011Plus11001At56);
    ReachTrans(m, Add1011Plus11001At48, Add1011Plus11001At52, Add1011Plus11001At56, 4, 4);
    Add1011Plus11001Step56(m);
    Add1011Plus11001Step57(m);
    Add1011Plus11001Step58(m);
    Add1011Plus11001Step59(m);
    Chain4(m, Add1011Plus11001At56, Add1011Plus11001At57, Add1011Plus11001At58, Add1011Plus11001At59, Add1011Plus11001At60);
    ReachTrans(m, Add1011Plus11001At48, Add1011Plus11001At56, Add1011Plus11001At60, 8, 4);
    Add1011Plus11001Step60(m);
    Add1011Plus11001Step61(m);
    Add1011Plus11001Step62(m);
    Add1011Plus11001Step63(m);
    Chain4(m, Add1011Plus11001At60, Add1011Plus11001At61, Add1011Plus11001At62, Add1011Plus11001At63, Add1011Plus11001At64);
    ReachTrans(m, Add1011Plus11001At48, Add1011Plus11001At60, Add1011Plus11001At64, 12, 4);
  }

  lemma Add1011Plus11001Stage4(m: Machine)
    requires AddLike(m)
    ensures Reach(m, Add1011Plus11001At64, Add1011Plus11001At80, 16)
  {
    ReachRefl(m, Add1011Plus11001At64);
    Add1011Plus11001Step64(m);
    Add1011Plus11001Step65(m);
    Add1011Plus11001Step66(m);
    Add1011Plus11001Step67(m);
    Chain4(m, Add1011Plus11001At64, Add1011Plus11001At65, Add1011Plus11001At66, Add1011Plus11001At67, Add1011Plus11001At68);
    ReachTrans(m, Add1011Plus11001At64, Add1011Plus11001At64, Add1011Plus11001At68, 0, 4);
    Add1011Plus11001Step68(m);
    Add1011Plus11001Step69(m);
    Add1011Plus11001Step70(m);
    Add1011Plus11001Step71(m);
    Chain4(m, Add1011Plus11001At68, Add1011Plus11001At69, Add1011Plus11001At70, Add1011Plus11001At71, Add1011Plus11001At72);
    ReachTrans(m, Add1011Plus11001At64, Add1011Plus11001At68, Add1011Plus11001At72, 4, 4);
    Add1011Plus11001Step72(m);
    Add1011Plus11001Step73(m);
    Add1011Plus11001Step74(m);
    Add1011Plus11001Step75(m);
    Chain4(m, Add1011Plus11001At72, Add1011Plus11001At73, Add1011Plus11001At74, Add1011Plus11001At75, Add1011Plus11001At76);
    ReachTrans(m, Add1011Plus11001At64, Add1011Plus11001At72, Add1011Plus11001At76, 8, 4);
    Add1011Plus11001Step76(m);
    Add1011Plus11001Step77(m);
    Add1011Plus11001Step78(m);
    Add1011Plus11001Step79(m);
    Chain4(m, Add1011Plus11001At76, Add1011Plus11001At77, Add1011Plus11001At78, Add1011Plus11001At79, Add1011Plus11001At80);
    ReachTrans(m, Add1011Plus11001At64, Add1011Plus11001At76, Add1011Plus11001At80, 12, 4);
  }

  lemma Add1011Plus11001Stage5(m: Machine)
    requires AddLike(m)
    ensures Reach(m, Add1011Plus11001At80, Add1011Plus11001At92, 12)
  {
    ReachRefl(m, Add1011Plus11001At80);
    Add1011Plus11001Step80(m);
    Add1011Plus11001Step81(m);
    Add1011Plus11001Step82(m);
    Add1011Plus11001Step83(m);
    Chain4(m, Add1011Plus11001At80, Add1011Plus11001At81, Add1011Plus11001At82, Add1011Plus11001At83, Add1011Plus11001At84);
    ReachTrans(m, Add1011Plus11001At80, Add1011Plus11001At80, Add1011Plus11001At84, 0, 4);
    Add1011Plus11001Step84(m);
    Add1011Plus11001Step85(m);
    Add1011Plus11001Step86(m);
    Add1011Plus11001Step87(m);
    Chain4(m, Add1011Plus11001At84, Add1011Plus11001At85, Add1011Plus11001At86, Add1011Plus11001At87, Add1011Plus11001At88);
    ReachTrans(m, Add1011Plus11001At80, Add1011Plus11001At84, Add1011Plus11001At88, 4, 4);
    Add1011Plus11001Step88(m);
    Add1011Plus11001Step89(m);
    Add1011Plus11001Step90(m);
    Add1011Plus11001Step91(m);
    Chain4(m, Add1011Plus11001At88, Add1011Plus11001At89, Add1011Plus11001At90, Add1011Plus11001At91, Add1011Plus11001At92);
    ReachTrans(m, Add1011Plus11001At80, Add1011Plus11001At88, Add1011Plus11001At92, 8, 4);
  }

  lemma Add1011Plus11001Reach(m: Machine)
    requires AddLike(m)
    ensures Reach(m, Init(m, "1011+11001"), Add1011Plus11001At92, 92)
  {
    assert Init(m, "1011+11001") == Add1011Plus11001At0;
    ReachRefl(m, Add1011Plus11001At0);
    Add1011Plus11001Stage0(m);
    ReachTrans(m, Add1011Plus11001At0, Add1011Plus11001At0, Add1011Plus11001At16, 0, 16);
    Add1011Plus11001Stage1(m);
    ReachTrans(m, Add1011Plus11001At0, Add1011Plus11001At16, Add1011Plus11001At32, 16, 16);
    Add1011Plus11001Stage2(m);
    ReachTrans(m, Add1011Plus11001At0, Add1011Plus11001At32, Add1011Plus11001At48, 32, 16);
    Add1011Plus11001Stage3(m);
    ReachTrans(m, Add1011Plus11001At0, Add1011Plus11001At48, Add1011Plus11001At64, 48, 16);
    Add1011Plus11001Stage4(m);
    ReachTrans(m, Add1011Plus11001At0, Add1011Plus11001At64, Add1011Plus11001At80, 64, 16);
    Add1011Plus11001Stage5(m);
    ReachTrans(m, Add1011Plus11001At0, Add1011Plus11001At80, Add1011Plus11001At92, 80, 12);
  }

  lemma Add1011Plus11001Output()
    ensures Add1011Plus11001At92.state == "done"
    ensures Strip(Add1011Plus11001At92.memory) == "100100 11001"
  {
    StripSurrounded(Add1011Plus11001At92.memory, 8, "100100 11001");
  }

  /** The machine on "1011+11001" halts after 92 steps, accepted, with output
      "100100 11001"; any larger step budget gives the same outcome. */
  lemma Add1011Plus11001(fuel: nat)
    requires fuel >= 92
    ensures Run(AddMachine(), "1011+11001", fuel).Done?
    ensures Run(AddMachine(), "1011+11001", fuel).output == "100100 11001"
    ensures Run(AddMachine(), "1011+11001", fuel).accepted
    ensures |Run(AddMachine(), "1011+11001", fuel).history| == 92
  {
    AddLikeHolds();
    Add1011Plus11001Reach(AddMachine());
    Add1011Plus11001Output();
    ReachRun(AddMachine(), "1011+11001", Add1011Plus11001At92, 92, fuel);
  }

  const Multiply11By101At0: Config := Config("          11*101          ", "          11*101          ", 0, "start", '1')

  const Multiply11By101At1: Config := Config("          11*101          ", "          11*101          ", -1, "init", ' ')

  const Multiply11By101At2: Config := Config("         +11*101          ", "         +11*101          ", 0, "right", '1')

  const Multiply11By101At3: Config := Config("         +11*101          ", "         +11*101          ", 1, "right", '1')

  const Multiply11By101At4: Config := Config("         +11*101          ", "         +11*101          ", 2, "right", '*')

  const Multiply11By101At5: Config := Config("         +11*101          ", "         +11*101          ", 3, "right", '1')

  const Multiply11By101At6: Config := Config("         +11*101          ", "         +11*101          ", 4, "right", '0')

  const Multiply11By101At7: Config := Config("         +11*101          ", "         +11*101          ", 5, "right", '1')

  const Multiply11By101At8: Config := Config("         +11*101          ", "         +11*101          ", 6, "right", ' ')

  const Multiply11By101At9: Config := Config("         +11*101          ", "         +11*101          ", 5, "readB", '1')

  const Multiply11By101At10: Config := Config("         +11*10           ", "         +11*10           ", 4, "addA", '0')

  const Multiply11By101At11: Config := Config("         +11*10           ", "         +11*10           ", 3, "addA", '1')

  const Multiply11By101At12: Config := Config("         +11*10           ", "         +11*10           ", 2, "addA", '*')

  const Multiply11By101At13: Config := Config("         +11*10           ", "         +11*10           ", 1, "read", '1')

  const Multiply11By101At14: Config := Config("         +1c*10           ", "         +1c*10           ", 0, "have1", '1')

  const Multiply11By101At15: Config := Config("         +1c*10           ", "         +1c*10           ", -1, "have1", '+')

  const Multiply11By101At16: Config := Config("         +1c*10           ", "         +1c*10           ", -2, "add1", ' ')

  const Multiply11By101At17: Config := Config("        I+1c*10           ", "        I+1c*10           ", -1, "back1", '+')

  const Multiply11By101At18: Config := Config("        I+1c*10           ", "        I+1c*10           ", 0, "back1", '1')

  const Multiply11By101At19: Config := Config("        I+1c*10           ", "        I+1c*10           ", 1, "back1", 'c')

  const Multiply11By101At20: Config := Config("        I+11*10           ", "        I+11*10           ", 0, "read", '1')

  const Multiply11By101At21: Config := Config("        I+c1*10           ", "        I+c1*10           ", -1, "have1", '+')

  const Multiply11By101At22: Config := Config("        I+c1*10           ", "        I+c1*10           ", -2, "add1", 'I')

  const Multiply11By101At23: Config := Config("        I+c1*10           ", "        I+c1*10           ", -3, "add1", ' ')

  const Multiply11By101At24: Config := Config("       II+c1*10           ", "       II+c1*10           ", -2, "back1", 'I')

  const Multiply11By101At25: Config := Config("       II+c1*10           ", "       II+c1*10           ", -1, "back1", '+')

  const Multiply11By101At26: Config := Config("       II+c1*10           ", "       II+c1*10           ", 0, "back1", 'c')

  const Multiply11By101At27: Config := Config("       II+11*10           ", "       II+11*10           ", -1, "read", '+')

  const Multiply11By101At28: Config := Config("       II+11*10           ", "       II+11*10           ", -2, "rewrite", 'I')

  const Multiply11By101At29: Config := Config("       I1+11*10           ", "       I1+11*10           ", -3, "rewrite", 'I')

  const Multiply11By101At30: Config := Config("       11+11*10           ", "       11+11*10           ", -4, "rewrite", ' ')

  const Multiply11By101At31: Config := Config("       11+11*10           ", "       11+11*10           ", -3, "double", '1')

  const Multiply11By101At32: Config := Config("       11+11*10           ", "       11+11*10           ", -2, "double", '1')

  const Multiply11By101At33: Config := Config("       11+11*10           ", "       11+11*10           ", -1, "double", '+')

  const Multiply11By101At34: Config := Config("       11+11*10           ", "       11+11*10           ", 0, "double", '1')

  const Multiply11By101At35: Config := Config("       11+11*10           ", "       11+11*10           ", 1, "double", '1')

  const Multiply11By101At36: Config := Config("       11+11*10           ", "       11+11*10           ", 2, "double", '*')

  const Multiply11By101At37: Config := Config("       11+11010           ", "       11+11010           ", 3, "shift", '1')

  const Multiply11By101At38: Config := Config("       11+110*0           ", "       11+110*0           ", 4, "shift1", '0')

  const Multiply11By101At39: Config := Config("       11+110*1           ", "       11+110*1           ", 5, "shift0", ' ')

  const Multiply11By101At40: Config := Config("       11+110*10          ", "       11+110*10          ", 6, "right", ' ')

  const Multiply11By101At41: Config := Config("       11+110*10          ", "       11+110*10          ", 5, "readB", '0')

  const Multiply11By101At42: Config := Config("       11+110*1           ", "       11+110*1           ", 4, "doubleL", '1')

  const Multiply11By101At43: Config := Config("       11+110*1           ", "       11+110*1           ", 3, "doubleL", '*')

  const Multiply11By101At44: Config := Config("       11+11001           ", "       11+11001           ", 4, "shift", '1')

  const Multiply11By101At45: Config := Config("       11+1100*           ", "       11+1100*           ", 5, "shift1", ' ')

  const Multiply11By101At46: Config := Config("       11+1100*1          ", "       11+1100*1          ", 6, "right", ' ')

  const Multiply11By101At47: Config := Config("       11+1100*1          ", "       11+1100*1          ", 5, "readB", '1')

  const Multiply11By101At48: Config := Config("       11+1100*           ", "       11+1100*           ", 4, "addA", '*')

  const Multiply11By101At49: Config := Config("       11+1100*           ", "       11+1100*           ", 3, "read", '0')

  const Multiply11By101At50: Config := Config("       11+110c*           ", "       11+110c*           ", 2, "have0", '0')

  const Multiply11By101At51: Config := Config("       11+110c*           ", "       11+110c*           ", 1, "have0", '1')

  const Multiply11By101At52: Config := Config("       11+110c*           ", "       11+110c*           ", 0, "have0", '1')

  const Multiply11By101At53: Config := Config("       11+110c*           ", "       11+110c*           ", -1, "have0", '+')

  const Multiply11By101At54: Config := Config("       11+110c*           ", "       11+110c*           ", -2, "add0", '1')

  const Multiply11By101At55: Config := Config("       1I+110c*           ", "       1I+110c*           ", -1, "back0", '+')

  const Multiply11By101At56: Config := Config("       1I+110c*           ", "       1I+110c*           ", 0, "back0", '1')

  const Multiply11By101At57: Config := Config("       1I+110c*           ", "       1I+110c*           ", 1, "back0", '1')

  const Multiply11By101At58: Config := Config("       1I+110c*           ", "       1I+110c*           ", 2, "back0", '0')

  const Multiply11By101At59: Config := Config("       1I+110c*           ", "       1I+110c*           ", 3, "back0", 'c')

  const Multiply11By101At60: Config := Config("       1I+1100*           ", "       1I+1100*           ", 2, "read", '0')

  const Multiply11By101At61: Config := Config("       1I+11c0*           ", "       1I+11c0*           ", 1, "have0", '1')

  const Multiply11By101At62: Config := Config("       1I+11c0*           ", "       1I+11c0*           ", 0, "have0", '1')

  const Multiply11By101At63: Config := Config("       1I+11c0*           ", "       1I+11c0*           ", -1, "have0", '+')

  const Multiply11By101At64: Config := Config("       1I+11c0*           ", "       1I+11c0*           ", -2, "add0", 'I')

  const Multiply11By101At65: Config := Config("       1I+11c0*           ", "       1I+11c0*           ", -3, "add0", '1')

  const Multiply11By101At66: Config := Config("       II+11c0*           ", "       II+11c0*           ", -2, "back0", 'I')

  const Multiply11By101At67: Config := Config("       II+11c0*           ", "       II+11c0*           ", -1, "back0", '+')

  const Multiply11By101At68: Config := Config("       II+11c0*           ", "       II+11c0*           ", 0, "back0", '1')

  const Multiply11By101At69: Config := Config("       II+11c0*           ", "       II+11c0*           ", 1, "back0", '1')

  const Multiply11By101At70: Config := Config("       II+11c0*           ", "       II+11c0*           ", 2, "back0", 'c')

  const Multiply11By101At71: Config := Config("       II+1100*           ", "       II+1100*           ", 1, "read", '1')

  const Multiply11By101At72: Config := Config("       II+1c00*           ", "       II+1c00*           ", 0, "have1", '1')

  const Multiply11By101At73: Config := Config("       II+1c00*           ", "       II+1c00*           ", -1, "have1", '+')

  const Multiply11By101At74: Config := Config("       II+1c00*           ", "       II+1c00*           ", -2, "add1", 'I')

  const Multiply11By101At75: Config := Config("       II+1c00*           ", "       II+1c00*           ", -3, "add1", 'I')

  const Multiply11By101At76: Config := Config("       II+1c00*           ", "       II+1c00*           ", -4, "add1", ' ')

  const Multiply11By101At77: Config := Config("      III+1c00*           ", "      III+1c00*           ", -3, "back1", 'I')

  const Multiply11By101At78: Config := Config("      III+1c00*           ", "      III+1c00*           ", -2, "back1", 'I')

  const Multiply11By101At79: Config := Config("      III+1c00*           ", "      III+1c00*           ", -1, "back1", '+')

  const Multiply11By101At80: Config := Config("      III+1c00*           ", "      III+1c00*           ", 0, "back1", '1')

  const Multiply11By101At81: Config := Config("      III+1c00*           ", "      III+1c00*           ", 1, "back1", 'c')

  const Multiply11By101At82: Config := Config("      III+1100*           ", "      III+1100*           ", 0, "read", '1')

  const Multiply11By101At83: Config := Config("      III+c100*           ", "      III+c100*           ", -1, "have1", '+')

  const Multiply11By101At84: Config := Config("      III+c100*           ", "      III+c100*           ", -2, "add1", 'I')

  const Multiply11By101At85: Config := Config("      III+c100*           ", "      III+c100*           ", -3, "add1", 'I')

  const Multiply11By101At86: Config := Config("      III+c100*           ", "      III+c100*           ", -4, "add1", 'I')

  const Multiply11By101At87: Config := Config("      III+c100*           ", "      III+c100*           ", -5, "add1", ' ')

  const Multiply11By101At88: Config := Config("     IIII+c100*           ", "     IIII+c100*           ", -4, "back1", 'I')

  const Multiply11By101At89: Config := Config("     IIII+c100*           ", "     IIII+c100*           ", -3, "back1", 'I')

  const Multiply11By101At90: Config := Config("     IIII+c100*           ", "     IIII+c100*           ", -2, "back1", 'I')

  const Multiply11By101At91: Config := Config("     IIII+c100*           ", "     IIII+c100*           ", -1, "back1", '+')

  const Multiply11By101At92: Config := Config("     IIII+c100*           ", "     IIII+c100*           ", 0, "back1", 'c')

  const Multiply11By101At93: Config := Config("     IIII+1100*           ", "     IIII+1100*           ", -1, "read", '+')

  const Multiply11By101At94: Config := Config("     IIII+1100*           ", "     IIII+1100*           ", -2, "rewrite", 'I')

  const Multiply11By101At95: Config := Config("     III1+1100*           ", "     III1+1100*           ", -3, "rewrite", 'I')

  const Multiply11By101At96: Config := Config("     II11+1100*           ", "     II11+1100*           ", -4, "rewrite", 'I')

  const Multiply11By101At97: Config := Config("     I111+1100*           ", "     I111+1100*           ", -5, "rewrite", 'I')

  const Multiply11By101At98: Config := Config("     1111+1100*           ", "     1111+1100*           ", -6, "rewrite", ' ')

  const Multiply11By101At99: Config := Config("     1111+1100*           ", "     1111+1100*           ", -5, "double", '1')

  const Multiply11By101At100: Config := Config("     1111+1100*           ", "     1111+1100*           ", -4, "double", '1')

  const Multiply11By101At101: Config := Config("     1111+1100*           ", "     1111+1100*           ", -3, "double", '1')

  const Multiply11By101At102: Config := Config("     1111+1100*           ", "     1111+1100*           ", -2, "double", '1')

  const Multiply11By101At103: Config := Config("     1111+1100*           ", "     1111+1100*           ", -1, "double", '+')

  const Multiply11By101At104: Config := Config("     1111+1100*           ", "     1111+1100*           ", 0, "double", '1')

  const Multiply11By101At105: Config := Config("     1111+1100*           ", "     1111+1100*           ", 1, "double", '1')

  const Multiply11By101At106: Config := Config("     1111+1100*           ", "     1111+1100*           ", 2, "double", '0')

  const Multiply11By101At107: Config := Config("     1111+1100*           ", "     1111+1100*           ", 3, "double", '0')

  const Multiply11By101At108: Config := Config("     1111+1100*           ", "     1111+1100*           ", 4, "double", '*')

  const Multiply11By101At109: Config := Config("     1111+11000           ", "     1111+11000           ", 5, "shift", ' ')

  const Multiply11By101At110: Config := Config("     1111+11000           ", "     1111+11000           ", 4, "tidy", '0')

  const Multiply11By101At111: Config := Config("     1111+1100            ", "     1111+1100            ", 3, "tidy", '0')

  const Multiply11By101At112: Config := Config("     1111+110             ", "     1111+110             ", 2, "tidy", '0')

  const Multiply11By101At113: Config := Config("     1111+11              ", "     1111+11              ", 1, "tidy", '1')

  const Multiply11By101At114: Config := Config("     1111+1               ", "     1111+1               ", 0, "tidy", '1')

  const Multiply11By101At115: Config := Config("     1111+                ", "     1111+                ", -1, "tidy", '+')

  const Multiply11By101At116: Config := Config("     1111                 ", "     1111                 ", -2, "done", '1')

  lemma Multiply11By101Step0(m: Machine)
    requires m.finals == {"done"}
    requires Lookup(m, "start", '1') == Some(Go(L, "init"))
    ensures Leads(m, Multiply11By101At0, Multiply11By101At1)
  {
  }

  lemma Multiply11By101Step1(m: Machine)
    requires m.finals == {"done"}
    requires Lookup(m, "init", ' ') == Some(W('+', R, "right"))
    ensures Leads(m, Multiply11By101At1, Multiply11By101At2)
  {
  }

  lemma Multiply11By101Step2(m: Machine)
    requires m.finals == {"done"}
    requires Lookup(m, "right", '1') == Some(Move(R))
    ensures Leads(m, Multiply11By101At2, Multiply11By101At3)
  {
  }

  lemma Multiply11By101Step3(m: Machine)
    requires m.finals == {"done"}
    requires Lookup(m, "right", '1') == Some(Move(R))
    ensures Leads(m, Multiply11By101At3, Multiply11By101At4)
  {
  }

  lemma Multiply11By101Step4(m: Machine)
    requires m.finals == {"done"}
    requires Lookup(m, "right", '*') == Some(Move(R))
    ensures Leads(m, Multiply11By101At4, Multiply11By101At5)
  {
  }

  lemma Multiply11By101Step5(m: Machine)
    requires m.finals == {"done"}
    requires Lookup(m, "right", '1') == Some(Move(R))
    ensures Leads(m, Multiply11By101At5, Multiply11By101At6)
  {
  }

  lemma Multiply11By101Step6(m: Machine)
    requires m.finals == {"done"}
    requires Lookup(m, "right", '0') == Some(Move(R))
    ensures Leads(m, Multiply11By101At6, Multiply11By101At7)
  {
  }

  lemma Multiply11By101Step7(m: Machine)
    requires m.finals == {"done"}
    requires Lookup(m, "right", '1') == Some(Move(R))
    ensures Leads(m, Multiply11By101At7, Multiply11By101At8)
  {
  }

  lemma Multiply11By101Step8(m: Machine)
    requires m.finals == {"done"}
    requires Lookup(m, "right", ' ') == Some(Go(L, "readB"))
    ensures Leads(m, Multiply11By101At8, Multiply11By101At9)
  {
  }

  lemma Multiply11By101Step9(m: Machine)
    requires m.finals == {"done"}
    requires Lookup(m, "readB", '1') == Some(W(' ', L, "addA"))
    ensures Leads(m, Multiply11By101At9, Multiply11By101At10)
  {
  }

  lemma Multiply11By101Step10(m: Machine)
    requires m.finals == {"done"}
    requires Lookup(m, "addA", '0') == Some(Move(L))
    ensures Leads(m, Multiply11By101At10, Multiply11By101At11)
  {
  }

  lemma Multiply11By101Step11(m: Machine)
    requires m.finals == {"done"}
    requires Lookup(m, "addA", '1') == Some(Move(L))
    ensures Leads(m, Multiply11By101At11, Multiply11By101At12)
  {
  }

  lemma Multiply11By101Step12(m: Machine)
    requires m.finals == {"done"}
    requires Lookup(m, "addA", '*') == Some(Go(L, "read"))
    ensures Leads(m, Multiply11By101At12, Multiply11By101At13)
  {
  }

  lemma Multiply11By101Step13(m: Machine)
    requires m.finals == {"done"}
    requires Lookup(m, "read", '1') == Some(W('c', L, "have1"))
    ensures Leads(m, Multiply11By101At13, Multiply11By101At14)
  {
  }

  lemma Multiply11By101Step14(m: Machine)
    requires m.finals == {"done"}
    requires Lookup(m, "have1", '1') == Some(Move(L))
    ensures Leads(m, Multiply11By101At14, Multiply11By101At15)
  {
  }

  lemma Multiply11By101Step15(m: Machine)
    requires m.finals == {"done"}
    requires Lookup(m, "have1", '+') == Some(Go(L, "add1"))
    ensures Leads(m, Multiply11By101At15, Multiply11By101At16)
  {
  }

  lemma Multiply11By101Step16(m: Machine)
    requires m.finals == {"done"}
    requires Lookup(m, "add1", ' ') == Some(W('I', R, "back1"))
    ensures Leads(m, Multiply11By101At16, Multiply11By101At17)
  {
  }

  lemma Multiply11By101Step17(m: Machine)
    requires m.finals == {"done"}
    requires Lookup(m, "back1", '+') == Some(Move(R))
    ensures Leads(m, Multiply11By101At17, Multiply11By101At18)
  {
  }

  lemma Multiply11By101Step18(m: Machine)
    requires m.finals == {"done"}
    requires Lookup(m, "back1", '1') == Some(Move(R))
    ensures Leads(m, Multiply11By101At18, Multiply11By101At19)
  {
  }

  lemma Multiply11By101Step19(m: Machine)
    requires m.finals == {"done"}
    requires Lookup(m, "back1", 'c') == Some(W('1', L, "read"))
    ensures Leads(m, Multiply11By101At19, Multiply11By101At20)
  {
  }

  lemma Multiply11By101Step20(m: Machine)
    requires m.finals == {"done"}
    requires Lookup(m, "read", '1') == Some(W('c', L, "have1"))
    ensures Leads(m, Multiply11By101At20, Multiply11By101At21)
  {
  }

  lemma Multiply11By101Step21(m: Machine)
    requires m.finals == {"done"}
    requires Lookup(m, "have1", '+') == Some(Go(L, "add1"))
    ensures Leads(m, Multiply11By101At21, Multiply11By101At22)
  {
  }

  lemma Multiply11By101Step22(m: Machine)
    requires m.finals == {"done"}
    requires Lookup(m, "add1", 'I') == Some(Move(L))
    ensures Leads(m, Multiply11By101At22, Multiply11By101At23)
  {
  }

  lemma Multiply11By101Step23(m: Machine)
    requires m.finals == {"done"}
    requires Lookup(m, "add1", ' ') == Some(W('I', R, "back1"))
    ensures Leads(m, Multiply11By101At23, Multiply11By101At24)
  {
  }

  lemma Multiply11By101Step24(m: Machine)
    requires m.finals == {"done"}
    requires Lookup(m, "back1", 'I') == Some(Move(R))
    ensures Leads(m, Multiply11By101At24, Multiply11By101At25)
  {
  }

  lemma Multiply11By101Step25(m: Machine)
    requires m.finals == {"done"}
    requires Lookup(m, "back1", '+') == Some(Move(R))
    ensures Leads(m, Multiply11By101At25, Multiply11By101At26)
  {
  }

  lemma Multiply11By101Step26(m: Machine)
    requires m.finals == {"done"}
    requires Lookup(m, "back1", 'c') == Some(W('1', L, "read"))
    ensures Leads(m, Multiply11By101At26, Multiply11By101At27)
  {
  }

  lemma Multiply11By101Step27(m: Machine)
    requires m.finals == {"done"}
    requires Lookup(m, "read", '+') == Some(Go(L, "rewrite"))
    ensures Leads(m, Multiply11By101At27, Multiply11By101At28)
  {
  }

  lemma Multiply11By101Step28(m: Machine)
    requires m.finals == {"done"}
    requires Lookup(m, "rewrite", 'I') == Some(W('1', L, "rewrite"))
    ensures Leads(m, Multiply11By101At28, Multiply11By101At29)
  {
  }

  lemma Multiply11By101Step29(m: Machine)
    requires m.finals == {"done"}
    requires Lookup(m, "rewrite", 'I') == Some(W('1', L, "rewrite"))
    ensures Leads(m, Multiply11By101At29, Multiply11By101At30)
  {
  }

  lemma Multiply11By101Step30(m: Machine)
    requires m.finals == {"done"}
    requires Lookup(m, "rewrite", ' ') == Some(Go(R, "double"))
    ensures Leads(m, Multiply11By101At30, Multiply11By101At31)
  {
  }

  lemma Multiply11By101Step31(m: Machine)
    requires m.finals == {"done"}
    requires Lookup(m, "double", '1') == Some(Move(R))
    ensures Leads(m, Multiply11By101At31, Multiply11By101At32)
  {
  }

  lemma Multiply11By101Step32(m: Machine)
    requires m.finals == {"done"}
    requires Lookup(m, "double", '1') == Some(Move(R))
    ensures Leads(m, Multiply11By101At32, Multiply11By101At33)
  {
  }

  lemma Multiply11By101Step33(m: Machine)
    requires m.finals == {"done"}
    requires Lookup(m, "double", '+') == Some(Move(R))
    ensures Leads(m, Multiply11By101At33, Multiply11By101At34)
  {
  }

  lemma Multiply11By101Step34(m: Machine)
    requires m.finals == {"done"}
    requires Lookup(m, "double", '1') == Some(Move(R))
    ensures Leads(m, Multiply11By101At34, Multiply11By101At35)
  {
  }

  lemma Multiply11By101Step35(m: Machine)
    requires m.finals == {"done"}
    requires Lookup(m, "double", '1') == Some(Move(R))
    ensures Leads(m, Multiply11By101At35, Multiply11By101At36)
  {
  }

  lemma Multiply11By101Step36(m: Machine)
    requires m.finals == {"done"}
    requires Lookup(m, "double", '*') == Some(W('0', R, "shift"))
    ensures Leads(m, Multiply11By101At36, Multiply11By101At37)
  {
  }

  lemma Multiply11By101Step37(m: Machine)
    requires m.finals == {"done"}
    requires Lookup(m, "shift", '1') == Some(W('*', R, "shift1"))
    ensures Leads(m, Multiply11By101At37, Multiply11By101At38)
  {
  }

  lemma Multiply11By101Step38(m: Machine)
    requires m.finals == {"done"}
    requires Lookup(m, "shift1", '0') == Some(W('1', R, "shift0"))
    ensures Leads(m, Multiply11By101At38, Multiply11By101At39)
  {
  }

  lemma Multiply11By101Step39(m: Machine)
    requires m.finals == {"done"}
    requires Lookup(m, "shift0", ' ') == Some(W('0', R, "right"))
    ensures Leads(m, Multiply11By101At39, Multiply11By101At40)
  {
  }

  lemma Multiply11By101Step40(m: Machine)
    requires m.finals == {"done"}
    requires Lookup(m, "right", ' ') == Some(Go(L, "readB"))
    ensures Leads(m, Multiply11By101At40, Multiply11By101At41)
  {
  }

  lemma Multiply11By101Step41(m: Machine)
    requires m.finals == {"done"}
    requires Lookup(m, "readB", '0') == Some(W(' ', L, "doubleL"))
    ensures Leads(m, Multiply11By101At41, Multiply11By101At42)
  {
  }

  lemma Multiply11By101Step42(m: Machine)
    requires m.finals == {"done"}
    requires Lookup(m, "doubleL", '1') == Some(Move(L))
    ensures Leads(m, Multiply11By101At42, Multiply11By101At43)
  {
  }

  lemma Multiply11By101Step43(m: Machine)
    requires m.finals == {"done"}
    requires Lookup(m, "doubleL", '*') == Some(W('0', R, "shift"))
    ensures Leads(m, Multiply11By101At43, Multiply11By101At44)
  {
  }

  lemma Multiply11By101Step44(m: Machine)
    requires m.finals == {"done"}
    requires Lookup(m, "shift", '1') == Some(W('*', R, "shift1"))
    ensures Leads(m, Multiply11By101At44, Multiply11By101At45)
  {
  }

  lemma Multiply11By101Step45(m: Machine)
    requires m.finals == {"done"}
    requires Lookup(m, "shift1", ' ') == Some(W('1', R, "right"))
    ensures Leads(m, Multiply11By101At45, Multiply11By101At46)
  {
  }

  lemma Multiply11By101Step46(m: Machine)
    requires m.finals == {"done"}
    requires Lookup(m, "right", ' ') == Some(Go(L, "readB"))
    ensures Leads(m, Multiply11By101At46, Multiply11By101At47)
  {
  }

  lemma Multiply11By101Step47(m: Machine)
    requires m.finals == {"done"}
    requires Lookup(m, "readB", '1') == Some(W(' ', L, "addA"))
    ensures Leads(m, Multiply11By101At47, Multiply11By101At48)
  {
  }

  lemma Multiply11By101Step48(m: Machine)
    requires m.finals == {"done"}
    requires Lookup(m, "addA", '*') == Some(Go(L, "read"))
    ensures Leads(m, Multiply11By101At48, Multiply11By101At49)
  {
  }

  lemma Multiply11By101Step49(m: Machine)
    requires m.finals == {"done"}
    requires Lookup(m, "read", '0') == Some(W('c', L, "have0"))
    ensures Leads(m, Multiply11By101At49, Multiply11By101At50)
  {
  }

  lemma Multiply11By101Step50(m: Machine)
    requires m.finals == {"done"}
    requires Lookup(m, "have0", '0') == Some(Move(L))
    ensures Leads(m, Multiply11By101At50, Multiply11By101At51)
  {
  }

  lemma Multiply11By101Step51(m: Machine)
    requires m.finals == {"done"}
    requires Lookup(m, "have0", '1') == Some(Move(L))
    ensures Leads(m, Multiply11By101At51, Multiply11By101At52)
  {
  }

  lemma Multiply11By101Step52(m: Machine)
    requires m.finals == {"done"}
    requires Lookup(m, "have0", '1') == Some(Move(L))
    ensures Leads(m, Multiply11By101At52, Multiply11By101At53)
  {
  }

  lemma Multiply11By101Step53(m: Machine)
    requires m.finals == {"done"}
    requires Lookup(m, "have0", '+') == Some(Go(L, "add0"))
    ensures Leads(m, Multiply11By101At53, Multiply11By101At54)
  {
  }

  lemma Multiply11By101Step54(m: Machine)
    requires m.finals == {"done"}
    requires Lookup(m, "add0", '1') == Some(W('I', R, "back0"))
    ensures Leads(m, Multiply11By101At54, Multiply11By101At55)
  {
  }

  lemma Multiply11By101Step55(m: Machine)
    requires m.finals == {"done"}
    requires Lookup(m, "back0", '+') == Some(Move(R))
    ensures Leads(m, Multiply11By101At55, Multiply11By101At56)
  {
  }

  lemma Multiply11By101Step56(m: Machine)
    requires m.finals == {"done"}
    requires Lookup(m, "back0", '1') == Some(Move(R))
    ensures Leads(m, Multiply11By101At56, Multiply11By101At57)
  {
  }

  lemma Multiply11By101Step57(m: Machine)
    requires m.finals == {"done"}
    requires Lookup(m, "back0", '1') == Some(Move(R))
    ensures Leads(m, Multiply11By101At57, Multiply11By101At58)
  {
  }

  lemma Multiply11By101Step58(m: Machine)
    requires m.finals == {"done"}
    requires Lookup(m, "back0", '0') == Some(Move(R))
    ensures Leads(m, Multiply11By101At58, Multiply11By101At59)
  {
  }

  lemma Multiply11By101Step59(m: Machine)
    requires m.finals == {"done"}
    requires Lookup(m, "back0", 'c') == Some(W('0', L, "read"))
    ensures Leads(m, Multiply11By101At59, Multiply11By101At60)
  {
  }

  lemma Multiply11By101Step60(m: Machine)
    requires m.finals == {"done"}
    requires Lookup(m, "read", '0') == Some(W('c', L, "have0"))
    ensures Leads(m, Multiply11By101At60, Multiply11By101At61)
  {
  }

  lemma Multiply11By101Step61(m: Machine)
    requires m.finals == {"done"}
    requires Lookup(m, "have0", '1') == Some(Move(L))
    ensures Leads(m, Multiply11By101At61, Multiply11By101At62)
  {
  }

  lemma Multiply11By101Step62(m: Machine)
    requires m.finals == {"done"}
    requires Lookup(m, "have0", '1') == Some(Move(L))
    ensures Leads(m, Multiply11By101At62, Multiply11By101At63)
  {
  }

  lemma Multiply11By101Step63(m: Machine)
    requires m.finals == {"done"}
    requires Lookup(m, "have0", '+') == Some(Go(L, "add0"))
    ensures Leads(m, Multiply11By101At63, Multiply11By101At64)
  {
  }

  lemma Multiply11By101Step64(m: Machine)
    requires m.finals == {"done"}
    requires Lookup(m, "add0", 'I') == Some(Move(L))
    ensures Leads(m, Multiply11By101At64, Multiply11By101At65)
  {
  }

  lemma Multiply11By101Step65(m: Machine)
    requires m.finals == {"done"}
    requires Lookup(m, "add0", '1') == Some(W('I', R, "back0"))
    ensures Leads(m, Multiply11By101At65, Multiply11By101At66)
  {
  }

  lemma Multiply11By101Step66(m: Machine)
    requires m.finals == {"done"}
    requires Lookup(m, "back0", 'I') == Some(Move(R))
    ensures Leads(m, Multiply11By101At66, Multiply11By101At67)
  {
  }

  lemma Multiply11By101Step67(m: Machine)
    requires m.finals == {"done"}
    requires Lookup(m, "back0", '+') == Some(Move(R))
    ensures Leads(m, Multiply11By101At67, Multiply11By101At68)
  {
  }

  lemma Multiply11By101Step68(m: Machine)
    requires m.finals == {"done"}
    requires Lookup(m, "back0", '1') == Some(Move(R))
    ensures Leads(m, Multiply11By101At68, Multiply11By101At69)
  {
  }

  lemma Multiply11By101Step69(m: Machine)
    requires m.finals == {"done"}
    requires Lookup(m, "back0", '1') == Some(Move(R))
    ensures Leads(m, Multiply11By101At69, Multiply11By101At70)
  {
  }

  lemma Multiply11By101Step70(m: Machine)
    requires m.finals == {"done"}
    requires Lookup(m, "back0", 'c') == Some(W('0', L, "read"))
    ensures Leads(m, Multiply11By101At70, Multiply11By101At71)
  {
  }

  lemma Multiply11By101Step71(m: Machine)
    requires m.finals == {"done"}
    requires Lookup(m, "read", '1') == Some(W('c', L, "have1"))
    ensures Leads(m, Multiply11By101At71, Multiply11By101At72)
  {
  }

  lemma Multiply11By101Step72(m: Machine)
    requires m.finals == {"done"}
    requires Lookup(m, "have1", '1') == Some(Move(L))
    ensures Leads(m, Multiply11By101At72, Multiply11By101At73)
  {
  }

  lemma Multiply11By101Step73(m: Machine)
    requires m.finals == {"done"}
    requires Lookup(m, "have1", '+') == Some(Go(L, "add1"))
    ensures Leads(m, Multiply11By101At73, Multiply11By101At74)
  {
  }

  lemma Multiply11By101Step74(m: Machine)
    requires m.finals == {"done"}
    requires Lookup(m, "add1", 'I') == Some(Move(L))
    ensures Leads(m, Multiply11By101At74, Multiply11By101At75)
  {
  }

  lemma Multiply11By101Step75(m: Machine)
    requires m.finals == {"done"}
    requires Lookup(m, "add1", 'I') == Some(Move(L))
    ensures Leads(m, Multiply11By101At75, Multiply11By101At76)
  {
  }

  lemma Multiply11By101Step76(m: Machine)
    requires m.finals == {"done"}
    requires Lookup(m, "add1", ' ') == Some(W('I', R, "back1"))
    ensures Leads(m, Multiply11By101At76, Multiply11By101At77)
  {
  }

  lemma Multiply11By101Step77(m: Machine)
    requires m.finals == {"done"}
    requires Lookup(m, "back1", 'I') == Some(Move(R))
    ensures Leads(m, Multiply11By101At77, Multiply11By101At78)
  {
  }

  lemma Multiply11By101Step78(m: Machine)
    requires m.finals == {"done"}
    requires Lookup(m, "back1", 'I') == Some(Move(R))
    ensures Leads(m, Multiply11By101At78, Multiply11By101At79)
  {
  }

  lemma Multiply11By101Step79(m: Machine)
    requires m.finals == {"done"}
    requires Lookup(m, "back1", '+') == Some(Move(R))
    ensures Leads(m, Multiply11By101At79, Multiply11By101At80)
  {
  }

  lemma Multiply11By101Step80(m: Machine)
    requires m.finals == {"done"}
    requires Lookup(m, "back1", '1') == Some(Move(R))
    ensures Leads(m, Multiply11By101At80, Multiply11By101At81)
  {
  }

  lemma Multiply11By101Step81(m: Machine)
    requires m.finals == {"done"}
    requires Lookup(m, "back1", 'c') == Some(W('1', L, "read"))
    ensures Leads(m, Multiply11By101At81, Multiply11By101At82)
  {
  }

  lemma Multiply11By101Step82(m: Machine)
    requires m.finals == {"done"}
    requires Lookup(m, "read", '1') == Some(W('c', L, "have1"))
    ensures Leads(m, Multiply11By101At82, Multiply11By101At83)
  {
  }

  lemma Multiply11By101Step83(m: Machine)
    requires m.finals == {"done"}
    requires Lookup(m, "have1", '+') == Some(Go(L, "add1"))
    ensures Leads(m, Multiply11By101At83, Multiply11By101At84)
  {
  }

  lemma Multiply11By101Step84(m: Machine)
    requires m.finals == {"done"}
    requires Lookup(m, "add1", 'I') == Some(Move(L))
    ensures Leads(m, Multiply11By101At84, Multiply11By101At85)
  {
  }

  lemma Multiply11By101Step85(m: Machine)
    requires m.finals == {"done"}
    requires Lookup(m, "add1", 'I') == Some(Move(L))
    ensures Leads(m, Multiply11By101At85, Multiply11By101At86)
  {
  }

  lemma Multiply11By101Step86(m: Machine)
    requires m.finals == {"done"}
    requires Lookup(m, "add1", 'I') == Some(Move(L))
    ensures Leads(m, Multiply11By101At86, Multiply11By101At87)
  {
  }

  lemma Multiply11By101Step87(m: Machine)
    requires m.finals == {"done"}
    requires Lookup(m, "add1", ' ') == Some(W('I', R, "back1"))
    ensures Leads(m, Multiply11By101At87, Multiply11By101At88)
  {
  }

  lemma Multiply11By101Step88(m: Machine)
    requires m.finals == {"done"}
    requires Lookup(m, "back1", 'I') == Some(Move(R))
    ensures Leads(m, Multiply11By101At88, Multiply11By101At89)
  {
  }

  lemma Multiply11By101Step89(m: Machine)
    requires m.finals == {"done"}
    requires Lookup(m, "back1", 'I') == Some(Move(R))
    ensures Leads(m, Multiply11By101At89, Multiply11By101At90)
  {
  }

  lemma Multiply11By101Step90(m: Machine)
    requires m.finals == {"done"}
    requires Lookup(m, "back1", 'I') == Some(Move(R))
    ensures Leads(m, Multiply11By101At90, Multiply11By101At91)
  {
  }

  lemma Multiply11By101Step91(m: Machine)
    requires m.finals == {"done"}
    requires Lookup(m, "back1", '+') == Some(Move(R))
    ensures Leads(m, Multiply11By101At91, Multiply11By101At92)
  {
  }

  lemma Multiply11By101Step92(m: Machine)
    requires m.finals == {"done"}
    requires Lookup(m, "back1", 'c') == Some(W('1', L, "read"))
    ensures Leads(m, Multiply11By101At92, Multiply11By101At93)
  {
  }

  lemma Multiply11By101Step93(m: Machine)
    requires m.finals == {"done"}
    requires Lookup(m, "read", '+') == Some(Go(L, "rewrite"))
    ensures Leads(m, Multiply11By101At93, Multiply11By101At94)
  {
  }

  lemma Multiply11By101Step94(m: Machine)
    requires m.finals == {"done"}
    requires Lookup(m, "rewrite", 'I') == Some(W('1', L, "rewrite"))
    ensures Leads(m, Multiply11By101At94, Multiply11By101At95)
  {
  }

  lemma Multiply11By101Step95(m: Machine)
    requires m.finals == {"done"}
    requires Lookup(m, "rewrite", 'I') == Some(W('1', L, "rewrite"))
    ensures Leads(m, Multiply11By101At95, Multiply11By101At96)
  {
  }

  lemma Multiply11By101Step96(m: Machine)
    requires m.finals == {"done"}
    requires Lookup(m, "rewrite", 'I') == Some(W('1', L, "rewrite"))
    ensures Leads(m, Multiply11By101At96, Multiply11By101At97)
  {
  }

  lemma Multiply11By101Step97(m: Machine)
    requires m.finals == {"done"}
    requires Lookup(m, "rewrite", 'I') == Some(W('1', L, "rewrite"))
    ensures Leads(m, Multiply11By101At97, Multiply11By101At98)
  {
  }

  lemma Multiply11By101Step98(m: Machine)
    requires m.finals == {"done"}
    requires Lookup(m, "rewrite", ' ') == Some(Go(R, "double"))
    ensures Leads(m, Multiply11By101At98, Multiply11By101At99)
  {
  }

  lemma Multiply11By101Step99(m: Machine)
    requires m.finals == {"done"}
    requires Lookup(m, "double", '1') == Some(Move(R))
    ensures Leads(m, Multiply11By101At99, Multiply11By101At100)
  {
  }

  lemma Multiply11By101Step100(m: Machine)
    requires m.finals == {"done"}
    requires Lookup(m, "double", '1') == Some(Move(R))
    ensures Leads(m, Multiply11By101At100, Multiply11By101At101)
  {
  }

  lemma Multiply11By101Step101(m: Machine)
    requires m.finals == {"done"}
    requires Lookup(m, "double", '1') == Some(Move(R))
    ensures Leads(m, Multiply11By101At101, Multiply11By101At102)
  {
  }

  lemma Multiply11By101Step102(m: Machine)
    requires m.finals == {"done"}
    requires Lookup(m, "double", '1') == Some(Move(R))
    ensures Leads(m, Multiply11By101At102, Multiply11By101At103)
  {
  }

  lemma Multiply11By101Step103(m: Machine)
    requires m.finals == {"done"}
    requires Lookup(m, "double", '+') == Some(Move(R))
    ensures Leads(m, Multiply11By101At103, Multiply11By101At104)
  {
  }

  lemma Multiply11By101Step104(m: Machine)
    requires m.finals == {"done"}
    requires Lookup(m, "double", '1') == Some(Move(R))
    ensures Leads(m, Multiply11By101At104, Multiply11By101At105)
  {
  }

  lemma Multiply11By101Step105(m: Machine)
    requires m.finals == {"done"}
    requires Lookup(m, "double", '1') == Some(Move(R))
    ensures Leads(m, Multiply11By101At105, Multiply11By101At106)
  {
  }

  lemma Multiply11By101Step106(m: Machine)
    requires m.finals == {"done"}
    requires Lookup(m, "double", '0') == Some(Move(R))
    ensures Leads(m, Multiply11By101At106, Multiply11By101At107)
  {
  }

  lemma Multiply11By101Step107(m: Machine)
    requires m.finals == {"done"}
    requires Lookup(m, "double", '0') == Some(Move(R))
    ensures Leads(m, Multiply11By101At107, Multiply11By101At108)
  {
  }

  lemma Multiply11By101Step108(m: Machine)
    requires m.finals == {"done"}
    requires Lookup(m, "double", '*') == Some(W('0', R, "shift"))
    ensures Leads(m, Multiply11By101At108, Multiply11By101At109)
  {
  }

  lemma Multiply11By101Step109(m: Machine)
    requires m.finals == {"done"}
    requires Lookup(m, "shift", ' ') == Some(Go(L, "tidy"))
    ensures Leads(m, Multiply11By101At109, Multiply11By101At110)
  {
  }

  lemma Multiply11By101Step110(m: Machine)
    requires m.finals == {"done"}
    requires Lookup(m, "tidy", '0') == Some(W(' ', L, "tidy"))
    ensures Leads(m, Multiply11By101At110, Multiply11By101At111)
  {
  }

  lemma Multiply11By101Step111(m: Machine)
    requires m.finals == {"done"}
    requires Lookup(m, "tidy", '0') == Some(W(' ', L, "tidy"))
    ensures Leads(m, Multiply11By101At111, Multiply11By101At112)
  {
  }

  lemma Multiply11By101Step112(m: Machine)
    requires m.finals == {"done"}
    requires Lookup(m, "tidy", '0') == Some(W(' ', L, "tidy"))
    ensures Leads(m, Multiply11By101At112, Multiply11By101At113)
  {
  }

  lemma Multiply11By101Step113(m: Machine)
    requires m.finals == {"done"}
    requires Lookup(m, "tidy", '1') == Some(W(' ', L, "tidy"))
    ensures Leads(m, Multiply11By101At113, Multiply11By101At114)
  {
  }

  lemma Multiply11By101Step114(m: Machine)
    requires m.finals == {"done"}
    requires Lookup(m, "tidy", '1') == Some(W(' ', L, "tidy"))
    ensures Leads(m, Multiply11By101At114, Multiply11By101At115)
  {
  }

  lemma Multiply11By101Step115(m: Machine)
    requires m.finals == {"done"}
    requires Lookup(m, "tidy", '+') == Some(W(' ', L, "done"))
    ensures Leads(m, Multiply11By101At115, Multiply11By101At116)
  {
  }

  lemma Multiply11By101Stage0(m: Machine)
    requires MultiplyLike(m)
    ensures Reach(m, Multiply11By101At0, Multiply11By101At16, 16)
  {
    ReachRefl(m, Multiply11By101At0);
    Multiply11By101Step0(m);
    Multiply11By101Step1(m);
    Multiply11By101Step2(m);
    Multiply11By101Step3(m);
    Chain4(m, Multiply11By101At0, Multiply11By101At1, Multiply11By101At2, Multiply11By101At3, Multiply11By101At4);
    ReachTrans(m, Multiply11By101At0, Multiply11By101At0, Multiply11By101At4, 0, 4);
    Multiply11By101Step4(m);
    Multiply11By101Step5(m);
    Multiply11By101Step6(m);
    Multiply11By101Step7(m);
    Chain4(m, Multiply11By101At4, Multiply11By101At5, Multiply11By101At6, Multiply11By101At7, Multiply11By101At8);
    ReachTrans(m, Multiply11By101At0, Multiply11By101At4, Multiply11By101At8, 4, 4);
    Multiply11By101Step8(m);
    Multiply11By101Step9(m);
    Multiply11By101Step10(m);
    Multiply11By101Step11(m);
    Chain4(m, Multiply11By101At8, Multiply11By101At9, Multiply11By101At10, Multiply11By101At11, Multiply11By101At12);
    ReachTrans(m, Multiply11By101At0, Multiply11By101At8, Multiply11By101At12, 8, 4);
    Multiply11By101Step12(m);
    Multiply11By101Step13(m);
    Multiply11By101Step14(m);
    Multiply11By101Step15(m);
    Chain4(m, Multiply11By101At12, Multiply11By101At13, Multiply11By101At14, Multiply11By101At15, Multiply11By101At16);
    ReachTrans(m, Multiply11By101At0, Multiply11By101At12, Multiply11By101At16, 12, 4);
  }

  lemma Multiply11By101Stage1(m: Machine)
    requires MultiplyLike(m)
    ensures Reach(m, Multiply11By101At16, Multiply11By101At32, 16)
  {
    ReachRefl(m, Multiply11By101At16);
    Multiply11By101Step16(m);
    Multiply11By101Step17(m);
    Multiply11By101Step18(m);
    Multiply11By101Step19(m);
    Chain4(m, Multiply11By101At16, Multiply11By101At17, Multiply11By101At18, Multiply11By101At19, Multiply11By101At20);
    ReachTrans(m, Multiply11By101At16, Multiply11By101At16, Multiply11By101At20, 0, 4);
    Multiply11By101Step20(m);
    Multiply11By101Step21(m);
    Multiply11By101Step22(m);
    Multiply11By101Step23(m);
    Chain4(m, Multiply11By101At20, Multiply11By101At21, Multiply11By101At22, Multiply11By101At23, Multiply11By101At24);
    ReachTrans(m, Multiply11By101At16, Multiply11By101At20, Multiply11By101At24, 4, 4);
    Multiply11By101Step24(m);
    Multiply11By101Step25(m);
    Multiply11By101Step26(m);
    Multiply11By101Step27(m);
    Chain4(m, Multiply11By101At24, Multiply11By101At25, Multiply11By101At26, Multiply11By101At27, Multiply11By101At28);
    ReachTrans(m, Multiply11By101At16, Multiply11By101At24, Multiply11By101At28, 8, 4);
    Multiply11By101Step28(m);
    Multiply11By101Step29(m);
    Multiply11By101Step30(m);
    Multiply11By101Step31(m);
    Chain4(m, Multiply11By101At28, Multiply11By101At29, Multiply11By101At30, Multiply11By101At31, Multiply11By101At32);
    ReachTrans(m, Multiply11By101At16, Multiply11By101At28, Multiply11By101At32, 12, 4);
  }

  lemma Multiply11By101Stage2(m: Machine)
    requires MultiplyLike(m)
    ensures Reach(m, Multiply11By101At32, Multiply11By101At48, 16)
  {
    ReachRefl(m, Multiply11By101At32);
    Multiply11By101Step32(m);
    Multiply11By101Step33(m);
    Multiply11By101Step34(m);
    Multiply11By101Step35(m);
    Chain4(m, Multiply11By101At32, Multiply11By101At33, Multiply11By101At34, Multiply11By101At35, Multiply11By101At36);
    ReachTrans(m, Multiply11By101At32, Multiply11By101At32, Multiply11By101At36, 0, 4);
    Multiply11By101Step36(m);
    Multiply11By101Step37(m);
    Multiply11By101Step38(m);
    Multiply11By101Step39(m);
    Chain4(m, Multiply11By101At36, Multiply11By101At37, Multiply11By101At38, Multiply11By101At39, Multiply11By101At40);
    ReachTrans(m, Multiply11By101At32, Multiply11By101At36, Multiply11By101At40, 4, 4);
    Multiply11By101Step40(m);
    Multiply11By101Step41(m);
    Multiply11By101Step42(m);
    Multiply11By101Step43(m);
    Chain4(m, Multiply11By101At40, Multiply11By101At41, Multiply11By101At42, Multiply11By101At43, Multiply11By101At44);
    ReachTrans(m, Multiply11By101At32, Multiply11By101At40, Multiply11By101At44, 8, 4);
    Multiply11By101Step44(m);
    Multiply11By101Step45(m);
    Multiply11By101Step46(m);
    Multiply11By101Step47(m);
    Chain4(m, Multiply11By101At44, Multiply11By101At45, Multiply11By101At46, Multiply11By101At47, Multiply11By101At48);
    ReachTrans(m, Multiply11By101At32, Multiply11By101At44, Multiply11By101At48, 12, 4);
  }

  lemma Multiply11By101Stage3(m: Machine)
    requires MultiplyLike(m)
    ensures Reach(m, Multiply11By101At48, Multiply11By101At64, 16)
  {
    ReachRefl(m, Multiply11By101At48);
    Multiply11By101Step48(m);
    Multiply11By101Step49(m);
    Multiply11By101Step50(m);
    Multiply11By101Step51(m);
    Chain4(m, Multiply11By101At48, Multiply11By101At49, Multiply11By101At50, Multiply11By101At51, Multiply11By101At52);
    ReachTrans(m, Multiply11By101At48, Multiply11By101At48, Multiply11By101At52, 0, 4);
    Multiply11By101Step52(m);
    Multiply11By101Step53(m);
    Multiply11By101Step54(m);
    Multiply11By101Step55(m);
    Chain4(m, Multiply11By101At52, Multiply11By101At53, Multiply11By101At54, Multiply11By101At55, Multiply11By101At56);
    ReachTrans(m, Multiply11By101At48, Multiply11By101At52, Multiply11By101At56, 4, 4);
    Multiply11By101Step56(m);
    Multiply11By101Step57(m);
    Multiply11By101Step58(m);
    Multiply11By101Step59(m);
    Chain4(m, Multiply11By101At56, Multiply11By101At57, Multiply11By101At58, Multiply11By101At59, Multiply11By101At60);
    ReachTrans(m, Multiply11By101At48, Multiply11By101At56, Multiply11By101At60, 8, 4);
    Multiply11By101Step60(m);
    Multiply11By101Step61(m);
    Multiply11By101Step62(m);
    Multiply11By101Step63(m);
    Chain4(m, Multiply11By101At60, Multiply11By101At61, Multiply11By101At62, Multiply11By101At63, Multiply11By101At64);
    ReachTrans(m, Multiply11By101At48, Multiply11By101At60, Multiply11By101At64, 12, 4);
  }

  lemma Multiply11By101Stage4(m: Machine)
    requires MultiplyLike(m)
    ensures Reach(m, Multiply11By101At64, Multiply11By101At80, 16)
  {
    ReachRefl(m, Multiply11By101At64);
    Multiply11By101Step64(m);
    Multiply11By101Step65(m);
    Multiply11By101Step66(m);
    Multiply11By101Step67(m);
    Chain4(m, Multiply11By101At64, Multiply11By101At65, Multiply11By101At66, Multiply11By101At67, Multiply11By101At68);
    ReachTrans(m, Multiply11By101At64, Multiply11By101At64, Multiply11By101At68, 0, 4);
    Multiply11By101Step68(m);
    Multiply11By101Step69(m);
    Multiply11By101Step70(m);
    Multiply11By101Step71(m);
    Chain4(m, Multiply11By101At68, Multiply11By101At69, Multiply11By101At70, Multiply11By101At71, Multiply11By101At72);
    ReachTrans(m, Multiply11By101At64, Multiply11By101At68, Multiply11By101At72, 4, 4);
    Multiply11By101Step72(m);
    Multiply11By101Step73(m);
    Multiply11By101Step74(m);
    Multiply11By101Step75(m);
    Chain4(m, Multiply11By101At72, Multiply11By101At73, Multiply11By101At74, Multiply11By101At75, Multiply11By101At76);
    ReachTrans(m, Multiply11By101At64, Multiply11By101At72, Multiply11By101At76, 8, 4);
    Multiply11By101Step76(m);
    Multiply11By101Step77(m);
    Multiply11By101Step78(m);
    Multiply11By101Step79(m);
    Chain4(m, Multiply11By101At76, Multiply11By101At77, Multiply11By101At78, Multiply11By101At79, Multiply11By101At80);
    ReachTrans(m, Multiply11By101At64, Multiply11By101At76, Multiply11By101At80, 12, 4);
  }

  lemma Multiply11By101Stage5(m: Machine)
    requires MultiplyLike(m)
    ensures Reach(m, Multiply11By101At80, Multiply11By101At96, 16)
  {
    ReachRefl(m, Multiply11By101At80);
    Multiply11By101Step80(m);
    Multiply11By101Step81(m);
    Multiply11By101Step82(m);
    Multiply11By101Step83(m);
    Chain4(m, Multiply11By101At80, Multiply11By101At81, Multiply11By101At82, Multiply11By101At83, Multiply11By101At84);
    ReachTrans(m, Multiply11By101At80, Multiply11By101At80, Multiply11By101At84, 0, 4);
    Multiply11By101Step84(m);
    Multiply11By101Step85(m);
    Multiply11By101Step86(m);
    Multiply11By101Step87(m);
    Chain4(m, Multiply11By101At84, Multiply11By101At85, Multiply11By101At86, Multiply11By101At87, Multiply11By101At88);
    ReachTrans(m, Multiply11By101At80, Multiply11By101At84, Multiply11By101At88, 4, 4);
    Multiply11By101Step88(m);
    Multiply11By101Step89(m);
    Multiply11By101Step90(m);
    Multiply11By101Step91(m);
    Chain4(m, Multiply11By101At88, Multiply11By101At89, Multiply11By101At90, Multiply11By101At91, Multiply11By101At92);
    ReachTrans(m, Multiply11By101At80, Multiply11By101At88, Multiply11By101At92, 8, 4);
    Multiply11By101Step92(m);
    Multiply11By101Step93(m);
    Multiply11By101Step94(m);
    Multiply11By101Step95(m);
    Chain4(m, Multiply11By101At92, Multiply11By101At93, Multiply11By101At94, Multiply11By101At95, Multiply11By101At96);
    ReachTrans(m, Multiply11By101At80, Multiply11By101At92, Multiply11By101At96, 12, 4);
  }

  lemma Multiply11By101Stage6(m: Machine)
    requires MultiplyLike(m)
    ensures Reach(m, Multiply11By101At96, Multiply11By101At112, 16)
  {
    ReachRefl(m, Multiply11By101At96);
    Multiply11By101Step96(m);
    Multiply11By101Step97(m);
    Multiply11By101Step98(m);
    Multiply11By101Step99(m);
    Chain4(m, Multiply11By101At96, Multiply11By101At97, Multiply11By101At98, Multiply11By101At99, Multiply11By101At100);
    ReachTrans(m, Multiply11By101At96, Multiply11By101At96, Multiply11By101At100, 0, 4);
    Multiply11By101Step100(m);
    Multiply11By101Step101(m);
    Multiply11By101Step102(m);
    Multiply11By101Step103(m);
    Chain4(m, Multiply11By101At100, Multiply11By101At101, Multiply11By101At102, Multiply11By101At103, Multiply11By101At104);
    ReachTrans(m, Multiply11By101At96, Multiply11By101At100, Multiply11By101At104, 4, 4);
    Multiply11By101Step104(m);
    Multiply11By101Step105(m);
    Multiply11By101Step106(m);
    Multiply11By101Step107(m);
    Chain4(m, Multiply11By101At104, Multiply11By101At105, Multiply11By101At106, Multiply11By101At107, Multiply11By101At108);
    ReachTrans(m, Multiply11By101At96, Multiply11By101At104, Multiply11By101At108, 8, 4);
    Multiply11By101Step108(m);
    Multiply11By101Step109(m);
    Multiply11By101Step110(m);
    Multiply11By101Step111(m);
    Chain4(m, Multiply11By101At108, Multiply11By101At109, Multiply11By101At110, Multiply11By101At111, Multiply11By101At112);
    ReachTrans(m, Multiply11By101At96, Multiply11By101At108, Multiply11By101At112, 12, 4);
  }

  lemma Multiply11By101Stage7(m: Machine)
    requires MultiplyLike(m)
    ensures Reach(m, Multiply11By101At112, Multiply11By101At116, 4)
  {
    ReachRefl(m, Multiply11By101At112);
    Multiply11By101Step112(m);
    Multiply11By101Step113(m);
    Multiply11By101Step114(m);
    Multiply11By101Step115(m);
    Chain4(m, Multiply11By101At112, Multiply11By101At113, Multiply11By101At114, Multiply11By101At115, Multiply11By101At116);
    ReachTrans(m, Multiply11By101At112, Multiply11By101At112, Multiply11By101At116, 0, 4);
  }

  lemma Multiply11By101Reach(m: Machine)
    requires MultiplyLike(m)
    ensures Reach(m, Init(m, "11*101"), Multiply11By101At116, 116)
  {
    assert Init(m, "11*101") == Multiply11By101At0;
    ReachRefl(m, Multiply11By101At0);
    Multiply11By101Stage0(m);
    ReachTrans(m, Multiply11By101At0, Multiply11By101At0, Multiply11By101At16, 0, 16);
    Multiply11By101Stage1(m);
    ReachTrans(m, Multiply11By101At0, Multiply11By101At16, Multiply11By101At32, 16, 16);
    Multiply11By101Stage2(m);
    ReachTrans(m, Multiply11By101At0, Multiply11By101At32, Multiply11By101At48, 32, 16);
    Multiply11By101Stage3(m);
    ReachTrans(m, Multiply11By101At0, Multiply11By101At48, Multiply11By101At64, 48, 16);
    Multiply11By101Stage4(m);
    ReachTrans(m, Multiply11By101At0, Multiply11By101At64, Multiply11By101At80, 64, 16);
    Multiply11By101Stage5(m);
    ReachTrans(m, Multiply11By101At0, Multiply11By101At80, Multiply11By101At96, 80, 16);
    Multiply11By101Stage6(m);
    ReachTrans(m, Multiply11By101At0, Multiply11By101At96, Multiply11By101At112, 96, 16);
    Multiply11By101Stage7(m);
    ReachTrans(m, Multiply11By101At0, Multiply11By101At112, Multiply11By101At116, 112, 4);
  }

  lemma Multiply11By101Output()
    ensures Multiply11By101At116.state == "done"
    ensures Strip(Multiply11By101At116.memory) == "1111"
  {
    StripSurrounded(Multiply11By101At116.memory, 5, "1111");
  }

  /** The machine on "11*101" halts after 116 steps, accepted, with output
      "1111"; any larger step budget gives the same outcome. */
  lemma Multiply11By101(fuel: nat)
    requires fuel >= 116
    ensures Run(MultiplyMachine(), "11*101", fuel).Done?
    ensures Run(MultiplyMachine(), "11*101", fuel).output == "1111"
    ensures Run(MultiplyMachine(), "11*101", fuel).accepted
    ensures |Run(MultiplyMachine(), "11*101", fuel).history| == 116
  {
    MultiplyLikeHolds();
    Multiply11By101Reach(MultiplyMachine());
    Multiply11By101Output();
    ReachRun(MultiplyMachine(), "11*101", Multiply11By101At116, 116, fuel);
  }
}

=== FILE: wraparound.dfy ===
/** The interpreter reads the cell under the head with Python indexing,
    which accepts negative indices and counts them from the right end of the
    tape. A head that steps off the left end of the padded tape therefore
    reads the rightmost cell instead of failing. This module keeps that
    behaviour apart: the interpreter model treats the tape as bounded on
    both sides, and the lemmas below pin down where the two differ. */
module Wraparound {
  import opened Options
  import opened Text
  import opened Interpreter

  /** `s[i]` in Python: defined for `-|s| <= i < |s|`, with a negative
      index counting from the end. */
  function PyIndex(s: string, i: int): (r: Option<char>)
    ensures r.Some? <==> -|s| <= i < |s|
    ensures r.Some? ==> r.value == s[if i < 0 then |s| + i else i]
  {
    if 0 <= i < |s| then Some(s[i])
    else if -|s| <= i < 0 then Some(s[|s| + i])
    else None
  }

  /** One loop iteration with the re-read done by Python indexing: from a
      configuration on the tape it fails only on a missing entry or when the
      new head position is past the right end; just off the left end it reads
      a cell counted from the right end. */
  function StepAsWritten(m: Machine, c: Config): (r: StepResult)
    requires Valid(c)
    ensures Lookup(m, c.state, c.reading).None? ==> r == Fault(Undefined(c.state, c.reading))
    ensures Lookup(m, c.state, c.reading).Some? ==>
      var ins := Lookup(m, c.state, c.reading).value;
      var p := c.pos + Delta(ins.dir);
      && (r.Fault? <==> !(-|c.ruban| <= p + Offset < |c.ruban|))
      && (r.Next? ==>
            && |r.config.ruban| == |c.ruban|
            && r.config.pos == p
            && r.config.state == Successor(c.state, ins)
            && r.config.reading == r.config.ruban[if p + Offset < 0 then |c.ruban| + p + Offset else p + Offset])
  {
    match Lookup(m, c.state, c.reading)
    case None => Fault(Undefined(c.state, c.reading))
    case Some(ins) =>
      var c' := Execute(c, ins);
      match PyIndex(c'.ruban, c'.pos + Offset)
      case None => Fault(OffTape(c'.pos))
      case Some(sym) => Next(c'.(reading := sym), Record(c.state, c.reading, c.pos, Strip(c.memory), ins))
  }

  /** The iteration as written and the bounded one agree except when the
      head steps off the left end of the tape; there the bounded one stops,
      and the one as written carries on reading the rightmost cell. */
  lemma AsWrittenAgreesOnTape(m: Machine, c: Config)
    requires Valid(c)
    ensures StepAsWritten(m, c) != Step(m, c) <==> Step(m, c) == Fault(OffTape(-1 - Offset as int))
    ensures Step(m, c) == Fault(OffTape(-1 - Offset as int)) ==>
      var r := StepAsWritten(m, c);
      && r.Next?
      && r.config.pos == -1 - Offset as int
      && |r.config.ruban| == |c.ruban|
      && r.config.reading == r.config.ruban[|c.ruban| - 1]
  {
  }

  /** A machine that keeps moving left. */
  function Leftward(): Machine {
    Machine('_', "go", {"stop"}, map["go" := map['_' := Move(L), 'x' := WriteMove(None, L, "stop")]])
  }

  /** With an empty input, after ten moves to the left the head is on the
      first padding cell. The next move takes it off the tape: the bounded
      iteration stops there, while the iteration as written reads the last
      cell of the right padding and goes on. If that cell holds an 'x', the
      instruction it fetches next leads to the final state, so the machine
      as written halts, accepted, where the tape has no cell to read. */
  lemma WraparoundExample()
    ensures var c := Config(Repeat('_', 20), Repeat(' ', 20), -10, "go", '_');
      && Valid(c)
      && Step(Leftward(), c) == Fault(OffTape(-11))
      && StepAsWritten(Leftward(), c).Next?
      && StepAsWritten(Leftward(), c).config.pos == -11
      && StepAsWritten(Leftward(), c).config.state == "go"
    ensures var c := Config(Repeat('_', 19) + "x", Repeat(' ', 19) + "x", -10, "go", '_');
      && Valid(c)
      && Step(Leftward(), c) == Fault(OffTape(-11))
      && StepAsWritten(Leftward(), c).Next?
      && StepAsWritten(Leftward(), c).config.reading == 'x'
      && Lookup(Leftward(), "go", StepAsWritten(Leftward(), c).config.reading) == Some(WriteMove(None, L, "stop"))
  {
    var c := Config(Repeat('_', 20), Repeat(' ', 20), -10, "go", '_');
    AsWrittenAgreesOnTape(Leftward(), c);
    var d := Config(Repeat('_', 19) + "x", Repeat(' ', 19) + "x", -10, "go", '_');
    assert d.ruban[0] == '_' && d.ruban[19] == 'x';
    AsWrittenAgreesOnTape(Leftward(), d);
  }
}
